=== FILE: README.md ===
# insaroule carpooling: a Dafny model of its core

insaroule is a carpooling site for a university campus. A driver publishes
a ride, and a passenger opens a chat request with the driver and books a
seat. The driver accepts or declines the reservation, and either side can
cancel or delete. Participants chat over a websocket, and moderators can
hide messages and flag users. A periodic task e-mails users about chat
messages they have not read.

This project models the parts of the site that hold its rules:

- `Base`: shared types: optional values, instants in whole seconds, and user keys.
- `Text`: decimal rendering and parsing, two-digit padding, whitespace
  stripping, the `split("@")[1]` field and `", ".join`.
- `Duration`: the `duration` template filter.
- `Accounts`: the e-mail checks of the registration and e-mail change forms,
  and the middleware that sends unverified users to the verification page.
- `VerifyEmail`: the three e-mail verification views. The user is a class
  whose fields the views update.
- `AcademicYear`: the academic-year labels and filter of the statistics
  back office, and the one statistics row that is created on demand.
- `LocationForm`: the location subform.
- `RideForms`: the ride edit form and the two creation steps, including the
  edit form's `save`, which rebuilds the ride's steps.
- `Rides`: the reservation and ride records, seat counts, `Ride.clean`,
  `filter_upcoming`, `safe_delete`'s test and `count_shared_ride`.
- `Ledger`: the reservation views: cancel, accept or decline, subscribe,
  and delete a ride. Each is a function from the ledger state to a response
  and a new state. A `ReservationLedger` class is proved to perform each one.
- `ChatModels`: the chat records.
- `ChatHub`: the websocket consumer (connect with history replay,
  disconnect, receive, and the two broadcast handlers) over a shared hub of
  tables and channel-layer groups.
- `ChatViews`: the HTTP chat views: report, user report, hide, unhide,
  index and room.
- `UnreadDigest`: `send_email_unread_messages`. This covers the grouped
  query, the two loops, and the `notified_at` stamping.

Stateful code is modelled the same way throughout:

- A pure function gives the outcome: the response and the new tables.
- The lemmas prove properties about that function.
- A method on a class that owns the tables is proved to produce exactly
  what the function describes.

## Model

| member | source | states |
|---|---|---|
| Text.NatToString | project/carpool/templatetags/duration.py:14-16 | the decimal text of a number is a non-empty digit string, one digit long exactly below 10, with no leading zero except for 0 itself |
| Text.ParseNatToString | project/carpool/templatetags/duration.py:14-16 | reading a rendered number back gives the number |
| Text.NatToStringInjective | project/carpool/templatetags/duration.py:14-16 | different numbers render differently |
| Text.Pad2 | project/carpool/templatetags/duration.py:14 | `{m:02d}` below 100 is two digits that read back as `m` |
| Text.Pad2Injective | project/carpool/templatetags/duration.py:14 | different minute counts pad to different texts |
| Text.LeadingSpaces | project/chat/consumers.py:105 | counts exactly the whitespace prefix that `strip` removes on the left |
| Text.TrailingSpaces | project/chat/consumers.py:105 | counts exactly the whitespace suffix that `strip` removes on the right |
| Text.Strip | project/chat/consumers.py:105 | the stripped text is no longer than the input, neither starts nor ends with whitespace, and is empty exactly when the input is all whitespace |
| Text.StripIdempotent | project/chat/consumers.py:105 | stripping twice is stripping once |
| Text.SecondAtField | project/accounts/forms.py:26 | `split("@")[1]` fails exactly when there is no '@'; otherwise it is the text after the first '@' up to the next '@' or the end, and holds no '@' |
| Text.UpToAt | project/accounts/forms.py:26 | the longest prefix without '@', which stops at the first '@' |
| Text.Join | project/accounts/forms.py:35 | the items in order with the separator between each neighbouring pair: empty for no item, the item itself for one, and for more the join of all but the last, the separator, then the last item (the reference `JoinFromLeft`) |
| Duration.WholeSeconds | project/carpool/templatetags/duration.py:8 | `int(total_seconds())` truncates toward zero, for negative durations too |
| Duration.Minutes | project/carpool/templatetags/duration.py:10 | the minute part is below 60 |
| Duration.FormatSeconds | project/carpool/templatetags/duration.py:9-16 | with no whole hour, the minutes then "min" (so "0min" for neither); with hours and no minute, the hours then "h"; with both, the hours, "h" and the minutes as two digits; the text ends in "min" exactly when there is no whole hour |
| Duration.FormatReadBack | project/carpool/templatetags/duration.py:9-16 | parsing the filter's output gives back the hours (0 when there are none) and the minutes |
| Duration.HoursMinutesAreWholeMinutes | project/carpool/templatetags/duration.py:9-10 | for a non-negative duration, hours·60 + minutes is the number of whole minutes |
| Duration.FormatIgnoresSeconds | project/carpool/templatetags/duration.py:9-10 | leftover seconds never change the text |
| Duration.FormatDeterminesMinutes | project/carpool/templatetags/duration.py:9-16 | two non-negative durations show the same text exactly when they have the same number of whole minutes |
| Accounts.DomainErrorMessage | project/accounts/forms.py:31-35 | the fixed sentence followed by exactly the whitelisted domains written "@domain" and joined by ", ", and nothing else; the sentence alone for an empty whitelist |
| Accounts.DomainErrorListsEveryDomain | project/accounts/forms.py:31-35 | every whitelisted domain appears in the message, written "@domain" |
| Accounts.JoinContains | project/accounts/forms.py:35 | every joined item occurs in the joined text |
| Accounts.RegisterCleanEmail | project/accounts/forms.py:22-45 | an address is accepted, unchanged, exactly when it has an '@', its domain is whitelisted or the whitelist is `["*"]`, and no user has it; no '@' is the `IndexError` path; the domain refusal comes exactly for a refused domain, before the in-use check, and carries the listed-domains message; the in-use error comes exactly for an allowed address that a user has |
| Accounts.WildcardAllowsEveryDomain | project/accounts/forms.py:27-29 | with `["*"]` any unused address with an '@' is accepted |
| Accounts.ChangeCleanEmail | project/accounts/forms.py:99-107 | accepted, unchanged, exactly when no user has the address; otherwise the in-use error; ChangeAgreesWithRegister shows it is the registration check with the domain test switched off |
| Accounts.ChangeAgreesWithRegister | project/accounts/forms.py:99-107 | for an address with an '@', changing the address accepts and refuses exactly as registering with the wildcard whitelist does, with the same error |
| Accounts.VerifyEmailMiddleware | project/accounts/middleware.py:14-19 | redirects exactly the logged-in, unverified visitors whose path does not start with "/accounts/register"; anonymous and verified visitors, and every path under the verification pages, get the downstream response unchanged, so the redirect target is reachable (NoRedirectLoop) |
| Accounts.NoRedirectLoop | project/accounts/middleware.py:15-17 | the four verification pages themselves are never redirected, so an unverified user can reach them |
| VerifyEmail.TruncatedMinutes | project/accounts/views/verify_email.py:77-81 | `int(seconds / 60)` truncates toward zero on both sides of 0 |
| VerifyEmail.Account.SendToken | project/accounts/views/verify_email.py:25-57 | a verified user is redirected to the ride list; a user in cooldown is redirected to the sent page; a POST queues one token e-mail to the user's name, key and address and records the send time; a GET only renders and changes nothing; the verified flag and the `is_active` flag never change |
| VerifyEmail.Account.EmailSentPage | project/accounts/views/verify_email.py:61-88 | a verified user is redirected; otherwise the page shows the cooldown exactly when an e-mail was sent and the cooldown holds, with not-before = sent + cooldown and minutes = the truncated minutes left |
| VerifyEmail.FreshCooldownShowsFullWait | project/accounts/views/verify_email.py:75-81 | right after sending, the page shows the whole cooldown |
| VerifyEmail.MinutesLeftNeverGrow | project/accounts/views/verify_email.py:74-82 | the minutes shown never grow as time passes, and reach 0 in the last minute |
| VerifyEmail.ConfirmEmail | project/accounts/views/verify_email.py:91-105 | a known user with a valid token becomes verified, keeps its `is_active` flag and send time, and is redirected to the completion page; otherwise the invalid-link page is shown and the user is unchanged |
| AcademicYear.StartYear | project/carpool/views/backoffice.py:11-15 | the start year is the one academic year (September to August) that contains the month |
| AcademicYear.LabelInjective | project/carpool/views/backoffice.py:16-20 | the "MM-YYYY" labels of different months are different |
| AcademicYear.AcademicMonths | project/carpool/views/backoffice.py:17-20 | twelve months: September to December of the start year, then January to August of the next |
| AcademicYear.AcademicMonthsExact | project/carpool/models/statistics.py:33-36 | the twelve months are distinct and are exactly the months the academic-year filter selects |
| AcademicYear.BuildLabels | project/carpool/views/backoffice.py:16-20 | the two loops build the twelve labels of the academic months, in order |
| AcademicYear.LabelsMatchFilter | project/carpool/views/backoffice.py:16-21 | a month's label is in the chart's labels exactly when the filter selects that month, and the labels are distinct |
| AcademicYear.FilterByAcademicYear | project/carpool/models/statistics.py:29-36 | keeps exactly the rows of months from September of the start year to August of the next, and keeps month-year uniqueness |
| AcademicYear.ConsecutiveYearsDisjoint | project/carpool/models/statistics.py:33-36 | no row is in two consecutive academic years |
| AcademicYear.UniquePairsCount | project/carpool/models/statistics.py:60-61 | with `unique_together` on (month, year), there are as many distinct pairs as rows |
| AcademicYear.AtMostTwelvePerYear | project/carpool/models/statistics.py:47-49 | with valid months and unique (month, year), an academic year holds at most 12 rows |
| AcademicYear.StatisticsStore.EnsureSingleton | project/carpool/views/backoffice.py:40-45 | an empty table gets one default row; a non-empty one is unchanged; the first row is returned |
| LocationForm.CleanLatitude | project/carpool/forms/location.py:15-19 | a latitude is kept, unchanged, exactly when it is at most 90 degrees from the equator on either side; Errors turns a refusal into the latitude error, and Clean's result always lies within these bounds |
| LocationForm.CleanLongitude | project/carpool/forms/location.py:21-25 | a longitude is kept, unchanged, exactly when it is at most 180 degrees from the prime meridian on either side; Errors turns a refusal into the longitude error, and Clean's result always lies within these bounds |
| LocationForm.Errors | project/carpool/forms/location.py:8-25 | street never fails; each required text field fails exactly when it is blank; each coordinate fails when missing or out of range |
| LocationForm.Clean | project/carpool/forms/location.py:8-25 | the form is valid exactly when no field fails; a cleaned location then has coordinates on the globe, non-blank place, postcode and city, and texts that are already stripped, so submitting it again gives it back (CleanIdempotent) |
| LocationForm.CleanIdempotent | project/carpool/forms/location.py:8-25 | cleaning a cleaned location again gives the same location |
| LocationForm.StreetIsOptional | project/carpool/forms/location.py:9 | the street never decides validity |
| RideForms.EditStartDtErrors | project/carpool/forms/ride.py:157-163 | an empty departure time is the `TypeError` path; otherwise "in the past" exactly when before now and "more than a year ahead" exactly when over a year away |
| RideForms.Step1DateErrors | project/carpool/forms/ride.py:248-257 | the same two errors, at most one at a time |
| RideForms.DateChecksAgree | project/carpool/forms/ride.py:248-257 | the edit form and the first creation step accept exactly the same departure times, from now to one year ahead |
| RideForms.EditIsValid | project/carpool/forms/ride.py:165-169 | the edit form is valid exactly when the form and both location subforms are |
| RideForms.Step1IsValid | project/carpool/forms/ride.py:223-228 | the first step is valid exactly when the edit-form conditions hold and every stop-over subform is valid: it implies the edit form's verdict, falls short of it only through an invalid stop-over, and equals it with no stop-over |
| RideForms.Step1StricterThanEdit | project/carpool/forms/ride.py:223-228 | the first step is never more permissive than the edit form, and differs only through a failing stop-over |
| RideForms.Step1CleanErrors | project/carpool/forms/ride.py:230-257 | no error without both places; "same place" exactly for places within the tolerance; the date errors exactly when a time is given |
| RideForms.DateErrorsAsStep1 | project/carpool/forms/ride.py:250-257 | each date error is reported on `departure_datetime`, one for one |
| RideForms.SamePlaceRefused | project/carpool/forms/ride.py:242-246 | a ride from a place to itself is refused at any date |
| RideForms.SeatsField | project/carpool/forms/ride.py:287-291 | the seat count is kept, unchanged, exactly when it is between 1 and the vehicle maximum, so a kept count is a valid `seats_offered`; with a maximum of 0 nothing is kept; Step2SeatsAccepted gives the whole step's verdict |
| RideForms.Step2CleanAddsSeatsError | project/carpool/forms/ride.py:342-358 | the second step refuses more seats than the chosen vehicle has, and only that; as many seats as the vehicle has is accepted; Rides.SeatChecksAgree shows the ride model refuses the same counts |
| RideForms.Step2SeatsAccepted | project/carpool/forms/ride.py:342-358 | a seat count passes the second step exactly when it is between 1 and the maximum and fits the vehicle, if one is chosen |
| RideForms.NumberedSteps | project/carpool/forms/ride.py:183-187 | one step per stop-over, in order, numbered from 1 |
| RideForms.NumberedStepsOrders | project/carpool/forms/ride.py:183-187 | step numbers are strictly increasing and lie in 1..n |
| RideForms.EditableRide.Save | project/carpool/forms/ride.py:171-200 | on the stored row: with a valid stop-over formset and a duration, the places and fields are copied, the steps are rebuilt from the stop-overs and the end time is start + duration; an invalid stop-over formset crashes with the steps cleared and every other field unchanged; a missing duration crashes with the steps rebuilt and every other field unchanged |
| Rides.StatusCode | project/carpool/models/reservation.py:12-30 | every status code fits the 10-character column |
| Rides.StatusCodeRoundTrip | project/carpool/models/reservation.py:12-30 | each status is stored and read back as itself |
| Rides.BookedSeats | project/carpool/models/ride.py:189-191 | no seat is booked exactly when there is no rider |
| Rides.RemainingSeats | project/carpool/models/ride.py:185-187 | remaining + booked = offered; the ride is full exactly when no seat remains; all seats remain exactly when there is no rider |
| Rides.AddRiderTakesOneSeat | project/carpool/models/ride.py:185-191 | a new rider takes exactly one seat; adding a rider who is already there changes nothing |
| Rides.FullIffNoSeatLeft | project/carpool/models/ride.py:185-187 | a ride is full exactly when no seat remains |
| Rides.CleanSeatsError | project/carpool/models/ride.py:202-210 | refuses exactly more seats than the ride's vehicle has (the vehicle is a required key, so there always is one), and for every count of at least 1 agrees with the second creation step's check |
| Rides.SeatChecksAgree | project/carpool/models/ride.py:202-210 | the model check and the second creation step agree on every seat count of at least 1 |
| Rides.RideClean | project/carpool/models/ride.py:201-230 | the seat error is reported whenever the seats do not fit; otherwise the same-place error is reported exactly when both places are set and within the tolerance |
| Rides.PlaceChecksAgree | project/carpool/models/ride.py:211-230 | the model refuses the same pairs of places as the first creation step |
| Rides.FilterUpcoming | project/carpool/models/ride.py:41-49 | exactly the rides that start on today's date or later, that is at or after today's midnight; every ride starting now or later is among them |
| Rides.UpcomingIsFromMidnight | project/carpool/models/ride.py:41-49 | a ride is upcoming exactly when it starts at or after today's midnight |
| Rides.SharedRideIdsAsQueried | project/carpool/models/ride.py:23-29 | exactly the ended rides that the query's three alternatives select |
| Rides.SharedRideIds | project/carpool/models/ride.py:15-22 | exactly the ended rides the two users shared as driver and rider, or as two riders |
| Rides.CountSharedRideAsWritten | project/carpool/models/ride.py:23-32 | the count as the query computes it, at most the number of rides |
| Rides.CountSharedRide | project/carpool/models/ride.py:14-32 | the count of shared rides as the docstring defines them, at most the number of rides |
| Rides.SharedRideQueryMissesCoRiders | project/carpool/models/ride.py:27 | two riders of the same ended ride have a shared ride, yet the query finds none |
| Rides.SharedRideQueryIsSound | project/carpool/models/ride.py:24-28 | everything the query finds is shared; it finds every shared ride in which one of the two drives |
| Rides.CountSharedRideSymmetric | project/carpool/models/ride.py:24-27 | both counts are symmetric in the two users |
| Rides.CountSharedRideOnlyEnded | project/carpool/models/ride.py:28 | only rides that have ended are counted |
| Rides.AsWrittenUndercounts | project/carpool/models/ride.py:24-32 | the query never over-counts |
| Ledger.WithStatusAndRiders | project/carpool/views/__init__.py:103-111 | changes the status and riders of one reservation's ride, queues the notices, keeps everything else, and keeps the ledger consistent |
| Ledger.CancelOutcome | project/carpool/views/__init__.py:87-112 | non-POST is refused; anonymous goes to login; an unknown key is not found; only the reservation's user may cancel; cancelling twice is a 400; otherwise it becomes canceled and the user leaves the riders |
| Ledger.CancelOnce | project/carpool/views/__init__.py:99-108 | after a successful cancel, the reservation is canceled, its user is not a rider, and a second cancel is refused without change |
| Ledger.UpdateOutcome | project/carpool/views/__init__.py:115-148 | only the driver may act; canceled reservations are refused; accept adds the rider and queues the confirmation unless the ride is full and the reservation is not accepted; decline removes the rider and queues the refusal; any other action is a 400 |
| Ledger.AcceptIdempotent | project/carpool/views/__init__.py:129-135 | accepting an accepted reservation again changes nothing but the queued notices |
| Ledger.UpdateKeepsCapacity | project/carpool/views/__init__.py:129-135 | when every accepted reservation's user is a rider, accept and decline keep every ride within its seats |
| Ledger.CancelKeepsCapacity | project/carpool/views/__init__.py:103-108 | cancelling never overbooks |
| Ledger.SubscribeOutcome | project/carpool/views/__init__.py:151-192 | a POST on a ride that has not ended, is not full, has exactly one chat request from the user and has no accepted or declined booking of theirs adds one pending reservation and notifies the driver; nothing else changes the ledger |
| Ledger.PendingDoesNotBlockSubscribe | project/carpool/views/__init__.py:165-173 | a user with only pending or canceled reservations on an open ride books it again: a new pending reservation is added |
| Ledger.SubscribeKeepsInvariants | project/carpool/views/__init__.py:151-192 | subscribing keeps the ledger consistent and within capacity |
| Ledger.SafeDeleteOutcome | project/carpool/models/ride.py:34-39 | deletes exactly when the ride has no rider or has ended, and then removes the ride and its reservations only; otherwise nothing changes |
| Ledger.DeleteOutcome | project/carpool/views/__init__.py:222-243 | only the driver's POST can change anything; an anonymous visitor is sent to the login page; an unknown ride gives 404; any other logged-in user is forbidden; the driver's GET shows the confirmation page; the driver's POST deletes exactly when the ride may be safely deleted |
| Ledger.RideWithRidersSurvives | project/carpool/views/__init__.py:229-239 | an upcoming ride with riders is never deleted |
| Ledger.DeleteKeepsCapacity | project/carpool/views/__init__.py:222-243 | deleting never overbooks |
| Ledger.OverbookingAsWritten | project/carpool/views/__init__.py:129-135 | ten requests, each one handler call, take an empty two-seat ride to three riders; every state before the last is within capacity |
| Ledger.UpdateOutcomeCorrected | project/carpool/views/__init__.py:129-135 | the same view, with accept refused when the ride is full and the user is not already a rider |
| Ledger.UpdateCorrectedKeepsCapacity | project/carpool/views/__init__.py:129-135 | the corrected view keeps every ride within its seats from any consistent state |
| Ledger.ReservationLedger.CancelReservation | project/carpool/views/__init__.py:87-112 | performs `CancelOutcome` on the ledger's tables |
| Ledger.ReservationLedger.UpdateReservation | project/carpool/views/__init__.py:115-148 | performs `UpdateOutcome` on the ledger's tables |
| Ledger.ReservationLedger.Subscribe | project/carpool/views/__init__.py:151-192 | performs `SubscribeOutcome` on the ledger's tables |
| Ledger.ReservationLedger.SafeDelete | project/carpool/models/ride.py:34-39 | performs `SafeDeleteOutcome` on the ledger's tables |
| Ledger.ReservationLedger.DeleteRide | project/carpool/views/__init__.py:222-243 | performs `DeleteOutcome` on the ledger's tables |
| ChatModels.OtherParticipant | project/chat/views.py:109-112 | the other side is a participant and, in a chat between two people, not the user |
| ChatModels.OtherParticipantSwaps | project/chat/views.py:109-112 | the other side's other side is the user again |
| ChatModels.NewMessage | project/chat/models.py:60-100 | a new message is visible, unread and not yet notified, with the given key, chat, sender, text and time; NewMessageAwaitsDigest shows the digest then selects it exactly once it is older than the cutoff and its recipient opted in |
| ChatModels.ActionCode | project/chat/models.py:130-163 | each action's code fits the 20-character column |
| ChatModels.ActionCodeInjective | project/chat/models.py:131-133 | the two actions are stored as different codes |
| ChatHub.GroupName | project/chat/consumers.py:16 | "chat_" followed by the chat's key, which reads back from the name, so two chats never share a group |
| ChatHub.GroupNameInjective | project/chat/consumers.py:16 | two chats never share a group |
| ChatHub.GroupAdd | project/chat/consumers.py:46 | the connection joins that group, and no other group changes |
| ChatHub.GroupDiscard | project/chat/consumers.py:89 | the connection leaves that group, and no other group changes |
| ChatHub.JoinThenLeave | project/chat/consumers.py:46-89 | after a connect and a disconnect the connection is in no group it joined |
| ChatHub.GroupSend | project/chat/consumers.py:146-153 | every member's queue gets the event once, at the end, and other queues are unchanged |
| ChatHub.SortByTimestamp | project/chat/consumers.py:53 | the messages ordered by timestamp, a permutation of the input |
| ChatHub.SortKeepsSortedInput | project/chat/consumers.py:53 | messages already in timestamp order keep their order |
| ChatHub.MessagesOf | project/chat/consumers.py:51 | exactly the messages of that chat |
| ChatHub.History | project/chat/consumers.py:50-55 | the first 50 of the chat's messages in timestamp order, or all of them when there are at most 50: no message twice, none from elsewhere, and exactly min(50, count) of them |
| ChatHub.HistoryIsOldest | project/chat/consumers.py:50-55 | a message of the chat left out of the replay is no older than any replayed one, and is left out only when 50 are replayed |
| ChatHub.HistoryFrameOf | project/chat/consumers.py:57-86 | a moderator sees the content; anyone else sees the removal notice for a hidden message; the text shown is the content or, for a hidden message only, the notice; key, time, sender and flag are passed on; ReplayMasksHidden lifts this to a whole replay |
| ChatHub.HistoryFrames | project/chat/consumers.py:57-86 | one frame per replayed message, in order |
| ChatHub.ReplayMasksHidden | project/chat/consumers.py:72-86 | a regular user's replay shows only visible messages' content, and the removal notice for the rest |
| ChatHub.ReplayFrames | project/chat/consumers.py:57-86 | the replay loop sends exactly the replay frames |
| ChatHub.SetHidden | project/chat/consumers.py:142-163 | the messages with that key, in whichever chat, carry the flag; the hidden flag is all that changes, and keys and chats stay in place; HideThenUnhide shows the later update wins |
| ChatHub.HideThenUnhide | project/chat/consumers.py:142-163 | hiding then unhiding is unhiding |
| ChatHub.MarkRead | project/chat/consumers.py:180-187 | exactly this chat's unread messages from someone else get `read_at = now`, and only that field changes |
| ChatHub.MarkReadTwice | project/chat/consumers.py:180-187 | marking read twice changes nothing more |
| ChatHub.ReceiveOutcome | project/chat/consumers.py:91-187 | a message of at most 1000 stripped characters is stored unstripped under a fresh key and broadcast, and a longer one changes nothing; hide and unhide with a truthy key act only for a moderator and are broadcast; mark_read is not broadcast; anything else changes nothing |
| ChatHub.ReceiveKeepsKeysFresh | project/chat/consumers.py:111-116 | every stored key stays below the next free key |
| ChatHub.HiddenMessageIsMasked | project/chat/consumers.py:135-153 | after a moderator hides a message, a regular user's replay shows the removal notice in its place |
| ChatHub.BroadcastReachesEveryMember | project/chat/consumers.py:111-129 | every member of the group, the sender included, receives the message with the key it was stored under |
| ChatHub.EventFrames | project/chat/consumers.py:191-224 | a message event becomes one message frame; an action event becomes the action frame with its action and target exactly for hide and unhide, and nothing otherwise |
| ChatHub.ChatConsumer.Connect | project/chat/consumers.py:11-86 | an unknown chat, or a visitor who is anonymous or neither a participant nor a moderator, is closed without joining; otherwise the connection joins the group, is accepted and is sent the replay; no table changes |
| ChatHub.ChatConsumer.Disconnect | project/chat/consumers.py:88-89 | the connection leaves its group, and nothing else changes |
| ChatHub.ChatConsumer.Receive | project/chat/consumers.py:91-187 | performs `ReceiveOutcome` on the shared tables, and nothing else changes |
| ChatHub.ChatConsumer.ChatMessageHandler | project/chat/consumers.py:191-207 | writes one message frame |
| ChatHub.ChatConsumer.ChatActionHandler | project/chat/consumers.py:209-224 | writes a frame for hide and unhide, and nothing for any other action |
| ChatHub.ChatConsumer.DeliverNext | project/chat/consumers.py:191-224 | takes the first queued event and writes its frames |
| ChatViews.ReportOutcome | project/chat/views.py:12-29 | anonymous goes to login; an unknown chat is not found; a POST by someone outside the chat is forbidden; a participant's POST adds one report with the reason or ""; any other request adds nothing; all of these except login redirect to the room |
| ChatViews.RepeatedReportsAccumulate | project/chat/views.py:24-28 | two POSTs by a participant add two reports and keep the earlier ones |
| ChatViews.UserReportOutcome | project/chat/views.py:32-49 | without the permission it is forbidden; a non-POST is refused; an unknown user or chat is not found; otherwise one FLAG_USER action by the moderator on the user is added |
| ChatViews.UserReportOnlyFlags | project/chat/views.py:42-47 | moderation actions only grow, by at most one, and a new one is a flag by a moderator on the target |
| ChatViews.HideMessageOutcome | project/chat/views.py:52-57 | only a moderator hides; an unknown key is not found |
| ChatViews.UnhideMessageAsWritten | project/chat/views.py:60-64 | any visitor unhides; an unknown key is not found |
| ChatViews.AnyoneCanUnhide | project/chat/views.py:60-64 | a hidden message is made visible by a request with no login and no permission |
| ChatViews.UnhideMessageOutcome | project/chat/views.py:52-64 | unhide guarded by the moderation permission, as hide is |
| ChatViews.OnlyModeratorsChangeVisibility | project/chat/views.py:52-64 | with the guard, a non-moderator changes no message's visibility; a moderator's hide then unhide leaves the message visible |
| ChatViews.Outgoing | project/chat/views.py:89 | exactly the stored chat requests the user made, each one a chat the user takes part in |
| ChatViews.IncomingRequests | project/chat/views.py:90-92 | exactly the stored chat requests on rides the user drives, each one a chat the user takes part in |
| ChatViews.Index | project/chat/views.py:87-99 | anonymous goes to login; otherwise both lists, which together hold exactly the chats the user takes part in |
| ChatViews.IndexListsOwnChats | project/chat/views.py:87-99 | the index lists exactly the chats the user takes part in |
| ChatViews.Room | project/chat/views.py:102-131 | anonymous goes to login; an unknown chat is not found; forbidden exactly for non-participants; a participant always gets the room page, with the other side, the shared-ride count for the two users and both lists |
| ChatViews.RoomShowsTheOtherSide | project/chat/views.py:106-119 | in a chat between two people each side sees the other, and the room is in each side's list |
| ChatViews.Report | project/chat/views.py:12-29 | performs `ReportOutcome` on the shared tables |
| ChatViews.UserReport | project/chat/views.py:32-49 | performs `UserReportOutcome` on the shared tables |
| ChatViews.HideMessage | project/chat/views.py:52-57 | performs `HideMessageOutcome` on the shared tables |
| ChatViews.UnhideMessage | project/chat/views.py:60-64 | performs `UnhideMessageAsWritten` on the shared tables |
| UnreadDigest.Recipient | project/chat/tasks.py:32-38 | the recipient is a participant and, in a chat between two people, not the sender |
| UnreadDigest.Candidates | project/chat/tasks.py:27-45 | exactly the unread, never-notified messages older than the cutoff whose recipient opted in |
| UnreadDigest.NewMessageAwaitsDigest | project/chat/tasks.py:27-45 | a message as it is created is selected exactly when it was sent before the cutoff and its recipient opted in |
| UnreadDigest.Dedup | project/chat/tasks.py:46-55 | the distinct values, each once, in first-appearance order (one of the orders a `GROUP BY` may return) |
| UnreadDigest.Count | project/chat/tasks.py:55 | zero exactly when the value is absent |
| UnreadDigest.UnreadRows | project/chat/tasks.py:27-56 | one row per (sender, recipient, chat) key, no key twice, each with a positive count and an opted-in recipient |
| UnreadDigest.RowsFor | project/chat/tasks.py:58-71 | exactly the rows of that recipient |
| UnreadDigest.GroupByRecipient | project/chat/tasks.py:58-71 | the `defaultdict` loop: the recipients in first-seen order, each mapped to exactly their rows in order |
| UnreadDigest.Emails | project/chat/tasks.py:73-89 | one e-mail per recipient, with their rows and the sum of their counts |
| UnreadDigest.ChatSet | project/chat/tasks.py:95 | exactly the chats of the rows |
| UnreadDigest.ChatsFor | project/chat/tasks.py:93-98 | exactly the chats of the rows addressed to the listed recipients |
| UnreadDigest.Stamp | project/chat/tasks.py:94-98 | exactly the unread, never-notified messages of the listed chats get `notified_at = now` |
| UnreadDigest.StampTwice | project/chat/tasks.py:73-98 | stamping per recipient in turn is stamping all their chats at once |
| UnreadDigest.NotifyRecipients | project/chat/tasks.py:58-98 | the two loops send exactly the e-mails and do exactly the stamping of one run of the task |
| UnreadDigest.AllChatsListed | project/chat/tasks.py:73-98 | every chat of the grouped query is stamped by some recipient's update |
| UnreadDigest.TotalCountsUnread | project/chat/tasks.py:55-78 | summing a recipient's row counts gives the number of their candidate messages |
| UnreadDigest.EmailCountsUnread | project/chat/tasks.py:55-78 | each e-mail's unread count is the number of candidate messages addressed to its recipient |
| UnreadDigest.OneEmailPerRecipient | project/chat/tasks.py:58-89 | no user gets two e-mails in a run |
| UnreadDigest.RowHasCandidate | project/chat/tasks.py:27-56 | every row comes from a candidate message addressed to its recipient |
| UnreadDigest.CandidateHasRow | project/chat/tasks.py:27-56 | every candidate message to an opted-in user has a row |
| UnreadDigest.EmailedOnlyWithUnread | project/chat/tasks.py:27-89 | only opted-in users with a candidate message are e-mailed |
| UnreadDigest.EveryUnreadRecipientEmailed | project/chat/tasks.py:27-89 | every opted-in user with a candidate message is e-mailed |
| UnreadDigest.NoMessageNotifiedTwice | project/chat/tasks.py:27-98 | a message one run stamps is never selected or stamped by a later run |
| UnreadDigest.StampsOnlyListedChats | project/chat/tasks.py:94-98 | read messages, notified messages and messages of unlisted chats are left unchanged |
| UnreadDigest.StampReachesUncountedMessage | project/chat/tasks.py:93-98 | in a two-way chat, the run stamps the recipient's own recent reply, which no e-mail counted |
| UnreadDigest.StampCounted | project/chat/tasks.py:93-98 | stamps exactly the candidate messages that the e-mails counted |

## Left out

- Rendering, sending and logging: template rendering and e-mail delivery are not modelled. Celery queueing, Django messages and logging are not modelled either. A queued e-mail is a value (`Notice`, `VerificationEmail` or `Email`) in the new state.
- Login, sessions and permissions: whether a visitor is logged in and what permissions they hold are parameters (`Option<UserId>`, `canModerate`, `isModerator`).
- Settings: `WHITELIST_DOMAINS`, `MAXIMUM_SEATS_IN_VEHICLE`, `EMAIL_NOTIFICATION_THRESHOLD_MINUTES` and `COOLDOWN_EMAIL_VERIFY` are parameters.
- Clock: it is a parameter, read once per request. The digest stamps with the same instant for every recipient, while the source reads the clock again for each update.
- Keys: UUIDs and user keys are natural numbers. The driver of a chat request is stored in the request, in place of the ride's foreign key.
- `has_email_verify_cooldown`: this user property and the token generator's check are parameters (`hasCooldown`, `tokenValid`).
- `Ride.is_full` and `Ride.has_ended`: these are not defined in the ride model. They are taken to mean "no seat left" and "end time before now".
- `rides_list`, `rides_map`, `rides_detail`, `list_my_rides` and the API views: these are left out. They are PostGIS queries, pagination and rendering, with no rule of their own.
- Geometry and duration fields: `clean_duration` and the GEOS geometry and routing fields are left out. Floating-point totals of the statistics are left out too.
- Locations: coordinates are exact reals, not floats. `Ride.clean`'s `TypeError` path cannot arise for a cleaned location, which always has both coordinates.
- `ChatHub.ChatConsumer.ChatActionHandler`: the `mark_read` branch is not modelled. It reads a `user_uuid` that no event of the consumer carries, because `receive` never broadcasts `mark_read`.
- Message order: ties in the timestamp ordering are left to the database. The model fixes one of the orders it may return.
- `ChatViews.UserReportOutcome`: like the source, it does not check that the flagged user takes part in the chat.
- `Ledger.SubscribeOutcome`: the `ChatRequest.objects.get` lookup raises unless exactly one chat request matches. The model gives a server error in that case.
- `RideForms.EditableRide.Save`: it follows the source's two crashes (an invalid stop-over formset, a missing duration) as the flag `crashed`. The error page they give is not modelled, nor are the values already assigned on the in-memory object, which `ride.save()` never stores. The model is the stored row only.
- `RideForms.EditStartDtErrors`: for an empty departure time the comparison raises `TypeError`, which gives a server error. The model returns `None` for it and says nothing about the other fields of that request.
- Dates: instants are whole seconds on one clock, and a date is the day that instant falls on. `filter_upcoming` compares the start's date in the current time zone with today's UTC date, but the model uses one calendar for both, so it treats every date as a UTC day. Time zones and daylight saving are not modelled.
- `VerifyEmail.ConfirmEmail`: the view's `user.active = True` sets an attribute that is not a field of the user model, whose flag is `is_active`. `save` does not store it, so the model leaves the account's active flag unchanged.
- `Rides.FilterUpcoming`: `Ride.start_dt` may be NULL, and `filter_upcoming` leaves such rides out. The model gives every ride a start time, so that case is not modelled.
- `Accounts.RegisterCleanEmail`: the model's error path for an address without '@' mirrors the `split("@")[1]` `IndexError`. The form's `EmailField` validator rejects such an address first, so that path cannot arise through the form.
- Concurrency: concurrent requests and connections are not modelled. Each request or frame is one atomic step on the tables.

## Findings

| source | as written | input that shows it | evidently intended | confidence | as-written member | corrected member |
|---|---|---|---|---|---|---|
| project/carpool/models/ride.py:24-28 | the query joins `rider` once, so `Q(rider=u1) & Q(rider=u2)` needs one rider row equal to both users | users 1 and 2 are both riders of one ended ride driven by 3: the count is 0 | the docstring's "both users are riders in the same ride" counts that ride | high, not executed | Rides.CountSharedRideAsWritten | Rides.CountSharedRide |
| project/carpool/views/__init__.py:129-135 | accept refuses a full ride only when the reservation is not already accepted; cancel removes the rider but keeps pending bookings acceptable | a two-seat ride: user 1 books twice and the driver accepts both; user 1 cancels one, leaving the ride with no rider; users 2 and 3 book and are accepted; the driver accepts user 1's other reservation again, and the ride has three riders | a ride never holds more riders than seats | high, not executed | Ledger.OverbookingAsWritten | Ledger.UpdateOutcomeCorrected |
| project/chat/views.py:60-64 | `unhide_message` has no login or permission decorator | any visitor requests unhide on a hidden message's key: it becomes visible | guarded like `hide_message` | high, not executed | ChatViews.UnhideMessageAsWritten | ChatViews.UnhideMessageOutcome |
| project/chat/tasks.py:93-98 | the update stamps every unread, un-notified message of each listed chat, whatever its sender or age | the passenger's old message and the driver's reply within the threshold: the reply is stamped although no e-mail counted it, so its recipient is never told | stamp the messages the e-mail counted | medium, not executed | UnreadDigest.StampReachesUncountedMessage | UnreadDigest.StampCounted |

=== FILE: academic_year.dfy ===
/** Back-office statistics: the academic year (September to August) that the
    monthly chart shows, its twelve "MM-YYYY" labels, the filter that selects
    the monthly records of that year, and the singleton overall record. */
module AcademicYear {

  import opened Base
  import opened Text

  /** One `MonthlyStatistics` row. */
  datatype MonthlyStatistics = MonthlyStatistics(
    month: int, year: int,
    totalUsers: int, totalRides: int, totalDistance: real, totalCo2: real)

  /** The one `Statistics` row: counters default to zero, `updated_at` is
      the time of the last save. */
  datatype Statistics = Statistics(
    updatedAt: Time, totalUsers: int, totalRides: int, totalDistance: real, totalCo2: real)

  /** The `month` validators: 1 to 12. */
  predicate ValidMonth(month: int) {
    1 <= month <= 12
  }

  /** The table constraint `unique_together = ("month", "year")`. */
  predicate UniqueMonthYear(rows: seq<MonthlyStatistics>) {
    forall i, j :: 0 <= i < j < |rows| ==> (rows[i].month, rows[i].year) != (rows[j].month, rows[j].year)
  }

  /** The filter of `filter_by_academic_year(y)`: September to December of
      `y`, January to August of `y + 1`. */
  predicate InAcademicYear(month: int, year: int, y: int) {
    (year == y && month >= 9) || (year == y + 1 && month < 9)
  }

  /** `start_year` in `statistics_json_monthly`: the academic year that
      contains the given month of the given year. */
  function StartYear(month: int, year: int): (y: int)
    requires ValidMonth(month)
    ensures InAcademicYear(month, year, y)
    ensures forall y' :: InAcademicYear(month, year, y') ==> y' == y
  {
    if month >= 9 then year else year - 1
  }

  /** One chart label, `f"{month:02d}-{year}"`. */
  function Label(month: int, year: int): (s: string)
    requires ValidMonth(month) && year >= 0
  {
    Pad2(month) + "-" + NatToString(year)
  }

  /** Distinct (month, year) pairs get distinct labels. */
  lemma LabelInjective(m1: int, y1: int, m2: int, y2: int)
    requires ValidMonth(m1) && ValidMonth(m2) && y1 >= 0 && y2 >= 0
    requires Label(m1, y1) == Label(m2, y2)
    ensures m1 == m2 && y1 == y2
  {
    var l1, l2 := Label(m1, y1), Label(m2, y2);
    assert l1[..2] == Pad2(m1) && l2[..2] == Pad2(m2);
    Pad2Injective(m1, m2);
    assert l1[3..] == NatToString(y1) && l2[3..] == NatToString(y2);
    NatToStringInjective(y1, y2);
  }

  /** The months of academic year `y` in chart order: 09..12 of `y`, then
      01..08 of `y + 1`. */
  function AcademicMonths(y: int): (ps: seq<(int, int)>)
    ensures |ps| == 12
    ensures forall i :: 0 <= i < 4 ==> ps[i] == (9 + i, y)
    ensures forall i :: 4 <= i < 12 ==> ps[i] == (i - 3, y + 1)
  {
    seq(12, i requires 0 <= i < 12 => if i < 4 then (9 + i, y) else (i - 3, y + 1))
  }

  /** Academic year `y` is exactly the twelve pairs of `AcademicMonths(y)`,
      each once. */
  lemma AcademicMonthsExact(y: int)
    ensures forall m, yr :: ValidMonth(m) ==> ((m, yr) in AcademicMonths(y) <==> InAcademicYear(m, yr, y))
    ensures forall i, j :: 0 <= i < j < 12 ==> AcademicMonths(y)[i] != AcademicMonths(y)[j]
  {
    var ps := AcademicMonths(y);
    forall m, yr | ValidMonth(m) && InAcademicYear(m, yr, y)
      ensures (m, yr) in ps
    {
      if m >= 9 { assert ps[m - 9] == (m, yr); } else { assert ps[m + 3] == (m, yr); }
    }
  }

  /** The twelve labels built by the two loops of `statistics_json_monthly`. */
  method BuildLabels(startYear: nat) returns (labels: seq<string>)
    ensures |labels| == 12
    ensures forall i :: 0 <= i < 12 ==> labels[i] == Label(AcademicMonths(startYear)[i].0, AcademicMonths(startYear)[i].1)
  {
    labels := [];
    for month := 9 to 13
      invariant |labels| == month - 9
      invariant forall i :: 0 <= i < |labels| ==> labels[i] == Label(9 + i, startYear)
    {
      labels := labels + [Label(month, startYear)];
    }
    for month := 1 to 9
      invariant |labels| == month + 3
      invariant forall i :: 0 <= i < 4 ==> labels[i] == Label(9 + i, startYear)
      invariant forall i :: 4 <= i < |labels| ==> labels[i] == Label(i - 3, startYear + 1)
    {
      labels := labels + [Label(month, startYear + 1)];
    }
  }

  /** A record of a valid month is selected for academic year `y` iff its
      "MM-YYYY" label is one of the chart's labels for `y`; and every month
      1..12 is labelled exactly once. */
  lemma {:induction false} LabelsMatchFilter(y: nat, labels: seq<string>, month: int, year: nat)
    requires |labels| == 12
    requires forall i :: 0 <= i < 12 ==> labels[i] == Label(AcademicMonths(y)[i].0, AcademicMonths(y)[i].1)
    requires ValidMonth(month)
    ensures Label(month, year) in labels <==> InAcademicYear(month, year, y)
    ensures forall i, j :: 0 <= i < j < 12 ==> labels[i] != labels[j]
  {
    var ps := AcademicMonths(y);
    AcademicMonthsExact(y);
    if Label(month, year) in labels {
      var i :| 0 <= i < 12 && labels[i] == Label(month, year);
      LabelInjective(ps[i].0, ps[i].1, month, year);
    }
    forall i, j | 0 <= i < j < 12 ensures labels[i] != labels[j] {
      if labels[i] == labels[j] {
        LabelInjective(ps[i].0, ps[i].1, ps[j].0, ps[j].1);
      }
    }
  }

  /** `MonthlyStatistics.objects.filter_by_academic_year(y)`, in table order. */
  function FilterByAcademicYear(rows: seq<MonthlyStatistics>, y: int): (r: seq<MonthlyStatistics>)
    ensures |r| <= |rows|
    ensures forall x :: x in r <==> x in rows && InAcademicYear(x.month, x.year, y)
    ensures UniqueMonthYear(rows) ==> UniqueMonthYear(r)
    decreases |rows|
  {
    if rows == [] then []
    else
      var rest := FilterByAcademicYear(rows[1..], y);
      assert forall x :: x in rows[1..] ==> x in rows;
      if InAcademicYear(rows[0].month, rows[0].year, y) then
        assert UniqueMonthYear(rows) ==> forall x :: x in rest ==> (x.month, x.year) != (rows[0].month, rows[0].year);
        [rows[0]] + rest
      else rest
  }

  /** The academic years `y` and `y + 1` select disjoint sets of records. */
  lemma ConsecutiveYearsDisjoint(rows: seq<MonthlyStatistics>, y: int)
    ensures forall x :: x in FilterByAcademicYear(rows, y) ==> x !in FilterByAcademicYear(rows, y + 1)
  {
  }

  /** The number of distinct values in a sequence is at most its length. */
  lemma {:induction false} SetOfSeqSize<T>(s: seq<T>)
    ensures |set x | x in s| <= |s|
    decreases |s|
  {
    if s != [] {
      SetOfSeqSize(s[1..]);
      assert (set x | x in s) == (set x | x in s[1..]) + {s[0]};
    }
  }

  /** The (month, year) pairs of a sequence of rows. */
  function Pairs(rows: seq<MonthlyStatistics>): set<(int, int)> {
    set x | x in rows :: (x.month, x.year)
  }

  /** A table whose (month, year) pairs are unique has as many pairs as rows. */
  lemma {:induction false} UniquePairsCount(rows: seq<MonthlyStatistics>)
    requires UniqueMonthYear(rows)
    ensures |Pairs(rows)| == |rows|
    decreases |rows|
  {
    if rows != [] {
      UniquePairsCount(rows[1..]);
      assert Pairs(rows) == Pairs(rows[1..]) + {(rows[0].month, rows[0].year)};
      assert (rows[0].month, rows[0].year) !in Pairs(rows[1..]);
    }
  }

  /** With the uniqueness constraint and valid months, the chart of one
      academic year never has more than twelve points. */
  lemma AtMostTwelvePerYear(rows: seq<MonthlyStatistics>, y: nat)
    requires UniqueMonthYear(rows)
    requires forall x :: x in rows ==> ValidMonth(x.month)
    ensures |FilterByAcademicYear(rows, y)| <= 12
  {
    var r := FilterByAcademicYear(rows, y);
    UniquePairsCount(r);
    AcademicMonthsExact(y);
    var ps := AcademicMonths(y);
    var twelve := set p | p in ps;
    assert Pairs(r) <= twelve;
    assert twelve == Pairs(r) + (twelve - Pairs(r));
    SetOfSeqSize(ps);
  }

  /** The overall statistics record store: `statistics` creates the row only
      when the table is empty. */
  class StatisticsStore {
    var rows: seq<Statistics>

    constructor ()
      ensures rows == []
    {
      rows := [];
    }

    /** The creation step of the `statistics` view: afterwards exactly the old
        rows remain, plus one fresh default row if there was none. */
    method EnsureSingleton(now: Time) returns (first: Statistics)
      modifies this
      ensures |old(rows)| > 0 ==> rows == old(rows)
      ensures |old(rows)| == 0 ==> rows == [Statistics(now, 0, 0, 0.0, 0.0)]
      ensures |rows| >= 1 && first == rows[0]
    {
      if |rows| == 0 {
        rows := rows + [Statistics(now, 0, 0, 0.0, 0.0)];
      }
      first := rows[0];
    }
  }
}

=== FILE: accounts.dfy ===
/** Account rules: the e-mail checks of the registration and e-mail change
    forms, and the middleware that sends users with an unverified address to
    the verification page. */
module Accounts {

  import opened Base
  import opened Text

  /** Why `clean_email` raised a `ValidationError` (or, for `NoAtSign`, the
      `IndexError` that `split("@")[1]` raises). */
  datatype EmailError =
    | NoAtSign
    | DomainNotAllowed(message: string)
    | EmailInUse

  datatype EmailCheck = Accepted(email: string) | Rejected(error: EmailError)

  const WhitelistMessage: string :=
    "Only emails with whitelisted domains are allowed to register. Allowed domains are:"

  /** The error text: the fixed sentence, then every whitelisted domain
      written "@d", joined by ", ". */
  function DomainErrorMessage(whitelist: seq<string>): (m: string)
    ensures WhitelistMessage <= m
    ensures m[|WhitelistMessage|..] == Join(", ", seq(|whitelist|, i requires 0 <= i < |whitelist| => "@" + whitelist[i]))
    ensures whitelist == [] ==> m == WhitelistMessage
    ensures |whitelist| == 1 ==> m == WhitelistMessage + "@" + whitelist[0]
  {
    WhitelistMessage + Join(", ", seq(|whitelist|, i requires 0 <= i < |whitelist| => "@" + whitelist[i]))
  }

  /** `settings.WHITELIST_DOMAINS == ["*"]`. */
  predicate AllowsAnyDomain(whitelist: seq<string>) {
    whitelist == ["*"]
  }

  /** `RegisterForm.clean_email`: the domain (the text between the first and
      the second '@') must be whitelisted unless the whitelist is exactly
      `["*"]`, then the address must not belong to an existing user; a valid
      address is returned unchanged. */
  function RegisterCleanEmail(email: string, whitelist: seq<string>, emailsInUse: set<string>): (r: EmailCheck)
    ensures r.Accepted? ==> r.email == email
    ensures r.Accepted? <==>
      && SecondAtField(email).Some?
      && (AllowsAnyDomain(whitelist) || SecondAtField(email).value in whitelist)
      && email !in emailsInUse
    ensures r == Rejected(NoAtSign) <==> '@' !in email
    ensures r.Rejected? && r.error.DomainNotAllowed? ==>
      !AllowsAnyDomain(whitelist) && r.error.message == DomainErrorMessage(whitelist)
    ensures r.Rejected? && r.error.DomainNotAllowed? <==>
      SecondAtField(email).Some? && !AllowsAnyDomain(whitelist) && SecondAtField(email).value !in whitelist
    ensures r == Rejected(EmailInUse) <==>
      && SecondAtField(email).Some?
      && (AllowsAnyDomain(whitelist) || SecondAtField(email).value in whitelist)
      && email in emailsInUse
  {
    match SecondAtField(email)
    case None => Rejected(NoAtSign)
    case Some(domain) =>
      if !AllowsAnyDomain(whitelist) && domain !in whitelist then
        Rejected(DomainNotAllowed(DomainErrorMessage(whitelist)))
      else if email in emailsInUse then Rejected(EmailInUse)
      else Accepted(email)
  }

  /** With the wildcard whitelist every address that has an '@' and is not
      in use is accepted, whatever its domain. */
  lemma WildcardAllowsEveryDomain(email: string, emailsInUse: set<string>)
    requires '@' in email && email !in emailsInUse
    ensures RegisterCleanEmail(email, ["*"], emailsInUse) == Accepted(email)
  {
  }

  /** `EmailChangeForm.clean_email`: only the uniqueness check. */
  function ChangeCleanEmail(email: string, emailsInUse: set<string>): (r: EmailCheck)
    ensures r.Accepted? <==> email !in emailsInUse
    ensures r.Accepted? ==> r.email == email
    ensures r.Rejected? ==> r.error == EmailInUse
  {
    if email in emailsInUse then Rejected(EmailInUse) else Accepted(email)
  }

  /** Changing the address applies the registration check with the domain
      test switched off: for an address with an '@', the two forms accept
      and refuse the same addresses for the same reason. */
  lemma ChangeAgreesWithRegister(email: string, emailsInUse: set<string>)
    requires '@' in email
    ensures ChangeCleanEmail(email, emailsInUse) == RegisterCleanEmail(email, ["*"], emailsInUse)
  {
  }

  /** Every item occurs in the text of `sep.join(items)`; `k` is where. */
  lemma {:induction false} JoinContains(sep: string, items: seq<string>, i: nat) returns (k: nat)
    requires i < |items|
    ensures OccursAt(Join(sep, items), items[i], k)
    decreases |items|
  {
    var j := Join(sep, items);
    if |items| == 1 {
      k := 0;
    } else if i == 0 {
      assert j == items[0] + sep + Join(sep, items[1..]);
      k := 0;
      assert j[0..|items[0]|] == items[0];
    } else {
      var rest := Join(sep, items[1..]);
      assert j == items[0] + sep + rest;
      var k' := JoinContains(sep, items[1..], i - 1);
      k := |items[0]| + |sep| + k';
      assert j[k..k + |items[i]|] == rest[k'..k' + |items[i]|];
    }
  }

  /** The rejection message names every allowed domain as "@d"; `k` is
      where. */
  lemma DomainErrorListsEveryDomain(whitelist: seq<string>, i: nat) returns (k: nat)
    requires i < |whitelist|
    ensures OccursAt(DomainErrorMessage(whitelist), "@" + whitelist[i], k)
  {
    var items := seq(|whitelist|, j requires 0 <= j < |whitelist| => "@" + whitelist[j]);
    var joined := Join(", ", items);
    var k' := JoinContains(", ", items, i);
    var m := DomainErrorMessage(whitelist);
    k := |WhitelistMessage| + k';
    assert m == WhitelistMessage + joined;
    assert m[k..k + |items[i]|] == joined[k'..k' + |items[i]|];
  }

  // ---------------------------------------------------------------------
  // VerifyEmailMiddleware

  /** Who made a request: nobody logged in, or a user whose address is or is
      not verified. */
  datatype Visitor = Anonymous | Authenticated(emailVerified: bool)

  /** What the middleware does with a request: redirect it to the
      verification page, or return what the rest of the stack answered. */
  datatype MiddlewareResult<R> = RedirectToVerifyEmail | PassThrough(response: R)

  const RegisterPrefix: string := "/accounts/register"

  /** The paths of the four e-mail verification views. */
  const VerifyEmailSendTokenPath: string := "/accounts/register/email/"
  const VerifyEmailSentPath: string := "/accounts/register/email/sent/"
  const VerifyEmailCompletePath: string := "/accounts/register/email/complete/"

  function VerifyEmailConfirmPath(uidb64: string, token: string): string {
    "/accounts/register/email/confirm/" + uidb64 + "/" + token + "/"
  }

  /** `VerifyEmailMiddleware.__call__`, given the downstream response. */
  function VerifyEmailMiddleware<R>(visitor: Visitor, path: string, downstream: R): (r: MiddlewareResult<R>)
    ensures r.RedirectToVerifyEmail? <==>
      visitor.Authenticated? && !visitor.emailVerified && !(RegisterPrefix <= path)
    ensures r.PassThrough? ==> r.response == downstream
    ensures VerifyEmailSendTokenPath <= path ==> r == PassThrough(downstream)
    ensures visitor.Anonymous? || visitor.emailVerified ==> r == PassThrough(downstream)
  {
    if visitor.Authenticated? && !visitor.emailVerified && !(RegisterPrefix <= path) then
      RedirectToVerifyEmail
    else PassThrough(downstream)
  }

  /** The verification pages are under "/accounts/register", so the redirect
      target itself is never redirected: there is no redirect loop. */
  lemma NoRedirectLoop<R>(visitor: Visitor, downstream: R, uidb64: string, token: string)
    ensures VerifyEmailMiddleware(visitor, VerifyEmailSendTokenPath, downstream) == PassThrough(downstream)
    ensures VerifyEmailMiddleware(visitor, VerifyEmailSentPath, downstream) == PassThrough(downstream)
    ensures VerifyEmailMiddleware(visitor, VerifyEmailCompletePath, downstream) == PassThrough(downstream)
    ensures VerifyEmailMiddleware(visitor, VerifyEmailConfirmPath(uidb64, token), downstream) == PassThrough(downstream)
  {
    assert RegisterPrefix <= VerifyEmailSendTokenPath;
    assert RegisterPrefix <= VerifyEmailSentPath;
    assert RegisterPrefix <= VerifyEmailCompletePath;
    assert RegisterPrefix <= VerifyEmailConfirmPath(uidb64, token);
  }
}

=== FILE: base.dfy ===
/** Types shared by every part of the model.
    Instants are whole seconds on one clock, users and database rows are
    identified by natural numbers. */
module Base {

  /** A nullable database column or an optional request parameter. */
  datatype Option<+T> = None | Some(value: T)

  /** An instant, in whole seconds. */
  type Time = int

  /** The primary key of an `accounts.User`. */
  type UserId = nat

  /** A day number: the date part of an instant. */
  type Day = int

  const SecondsPerDay: nat := 86400

  /** The calendar date of an instant, as the number of days since the epoch. */
  function DateOf(t: Time): (d: Day)
    ensures d * SecondsPerDay <= t < (d + 1) * SecondsPerDay
  {
    t / SecondsPerDay
  }
}

=== FILE: chat_hub.dfy ===
/** The chat's websocket side: the channel layer's groups and per-connection
    queues, the history a new connection is sent, and `ChatConsumer` with
    its connect, disconnect and receive handlers. Each handler's effect on
    the shared state is given by a function on values, and the consumer's
    methods are proved to perform it. */
module ChatHub {

  import opened Base
  import opened Text
  import opened ChatModels

  /** The channel name of one websocket connection. */
  type ConnId = nat

  /** What the channel layer hands to each member of a group. */
  datatype Event =
    | MessageEvent(message: string, timestamp: Time, userUuid: UserId, messageId: MessageId)
    | ActionEvent(action: string, target: int)

  /** What the consumer writes to its websocket. */
  datatype Frame =
    | HistoryFrame(id: MessageId, message: string, timestamp: Time, userUuid: UserId, hidden: bool)
    | MessageFrame(messageId: MessageId, message: string, timestamp: Time, userUuid: UserId)
    | ActionFrame(action: string, target: int)

  /** A decoded incoming websocket frame: `message`, `action` and
      `message_id` are `None` when the key is absent. */
  datatype Incoming = Incoming(message: Option<string>, action: Option<string>, messageId: Option<int>)

  /** The text a regular user sees in place of a hidden message. */
  const RemovedText: string := "This message has been removed."

  /** The longest message accepted, counted after stripping whitespace. */
  const MaxMessageLength: nat := 1000

  /** At most this many earlier messages are replayed to a new connection. */
  const HistoryLength: nat := 50

  // ---------------------------------------------------------------------
  // Groups

  /** The group of the connections to one chat: "chat_" and the chat's key. */
  function GroupName(chat: ChatRequestId): (g: string)
    ensures |g| == 5 + |NatToString(chat)| && g[..5] == "chat_" && g[5..] == NatToString(chat)
    ensures AllDigits(g[5..]) && ParseNat(g[5..]) == chat
  {
    ParseNatToString(chat);
    "chat_" + NatToString(chat)
  }

  /** Two chats never share a group. */
  lemma GroupNameInjective(a: ChatRequestId, b: ChatRequestId)
    ensures GroupName(a) == GroupName(b) ==> a == b
  {
    if GroupName(a) == GroupName(b) {
      assert GroupName(a)[5..] == GroupName(b)[5..];
      NatToStringInjective(a, b);
    }
  }

  /** The connections currently in group `g`. */
  function Members(groups: map<string, set<ConnId>>, g: string): set<ConnId> {
    if g in groups then groups[g] else {}
  }

  /** `group_add`: `c` joins `g`; no other group changes. */
  function GroupAdd(groups: map<string, set<ConnId>>, g: string, c: ConnId): (r: map<string, set<ConnId>>)
    ensures Members(r, g) == Members(groups, g) + {c}
    ensures forall h :: h != g ==> Members(r, h) == Members(groups, h)
  {
    groups[g := Members(groups, g) + {c}]
  }

  /** `group_discard`: `c` leaves `g` if it was there; no other group
      changes. */
  function GroupDiscard(groups: map<string, set<ConnId>>, g: string, c: ConnId): (r: map<string, set<ConnId>>)
    ensures Members(r, g) == Members(groups, g) - {c}
    ensures forall h :: h != g ==> Members(r, h) == Members(groups, h)
  {
    groups[g := Members(groups, g) - {c}]
  }

  /** Joining and then leaving a group gives back its old members, less
      the connection if it was already there. */
  lemma JoinThenLeave(groups: map<string, set<ConnId>>, g: string, c: ConnId)
    ensures Members(GroupDiscard(GroupAdd(groups, g, c), g, c), g) == Members(groups, g) - {c}
    ensures c !in Members(GroupDiscard(GroupAdd(groups, g, c), g, c), g)
  {
  }

  /** The events waiting for connection `c`. */
  function Queue(outboxes: map<ConnId, seq<Event>>, c: ConnId): seq<Event> {
    if c in outboxes then outboxes[c] else []
  }

  /** `group_send`: every member of the group gets `e` once, at the end of
      its queue; every other queue is unchanged. */
  function GroupSend(outboxes: map<ConnId, seq<Event>>, members: set<ConnId>, e: Event): (r: map<ConnId, seq<Event>>)
    ensures forall c :: c in members ==> Queue(r, c) == Queue(outboxes, c) + [e]
    ensures forall c :: c !in members ==> Queue(r, c) == Queue(outboxes, c)
  {
    map c | c in outboxes.Keys + members :: if c in members then Queue(outboxes, c) + [e] else outboxes[c]
  }

  // ---------------------------------------------------------------------
  // History replay

  predicate SortedByTimestamp(s: seq<ChatMessage>) {
    forall i, j :: 0 <= i < j < |s| ==> s[i].timestamp <= s[j].timestamp
  }

  /** `m` placed into a sorted sequence before the first later message. */
  function InsertByTimestamp(m: ChatMessage, s: seq<ChatMessage>): (r: seq<ChatMessage>)
    requires SortedByTimestamp(s)
    ensures SortedByTimestamp(r)
    ensures multiset(r) == multiset(s) + multiset{m}
  {
    if s == [] || m.timestamp <= s[0].timestamp then [m] + s
    else
      var rest := InsertByTimestamp(m, s[1..]);
      InsertAfterHead(m, s, rest);
      [s[0]] + rest
  }

  /** The step of `InsertByTimestamp` that keeps the head in front. */
  lemma InsertAfterHead(m: ChatMessage, s: seq<ChatMessage>, rest: seq<ChatMessage>)
    requires SortedByTimestamp(s) && s != [] && s[0].timestamp < m.timestamp
    requires SortedByTimestamp(rest) && multiset(rest) == multiset(s[1..]) + multiset{m}
    ensures SortedByTimestamp([s[0]] + rest)
    ensures multiset([s[0]] + rest) == multiset(s) + multiset{m}
  {
    assert s == [s[0]] + s[1..];
    forall x | x in rest
      ensures s[0].timestamp <= x.timestamp
    {
      assert x in multiset(rest);
      if x != m {
        assert x in multiset(s[1..]);
        assert x in s[1..];
      }
    }
    var r := [s[0]] + rest;
    forall i, j | 0 <= i < j < |r|
      ensures r[i].timestamp <= r[j].timestamp
    {
      if i > 0 {
        assert r[i] == rest[i - 1] && r[j] == rest[j - 1];
      } else {
        assert r[j] == rest[j - 1] && r[j] in rest;
      }
    }
  }

  /** `order_by("timestamp")`: the messages ordered by timestamp. The order
      among equal timestamps is left to the database; this is one of the
      orders it may return. */
  function SortByTimestamp(s: seq<ChatMessage>): (r: seq<ChatMessage>)
    ensures SortedByTimestamp(r)
    ensures multiset(r) == multiset(s)
  {
    if s == [] then []
    else
      assert s == [s[0]] + s[1..];
      InsertByTimestamp(s[0], SortByTimestamp(s[1..]))
  }

  /** Messages stored in timestamp order come back in the order they were
      stored. */
  lemma {:induction false} SortKeepsSortedInput(s: seq<ChatMessage>)
    requires SortedByTimestamp(s)
    ensures SortByTimestamp(s) == s
  {
    if s != [] {
      SortKeepsSortedInput(s[1..]);
    }
  }

  /** `ChatMessage.objects.filter(chat_request=chat)`, in storage order. */
  function MessagesOf(messages: seq<ChatMessage>, chat: ChatRequestId): (r: seq<ChatMessage>)
    ensures forall m :: m in r <==> m in messages && m.chat == chat
  {
    if messages == [] then []
    else (if messages[0].chat == chat then [messages[0]] else []) + MessagesOf(messages[1..], chat)
  }

  /** The messages replayed to a new connection: this chat's messages by
      timestamp, the first 50. */
  function History(messages: seq<ChatMessage>, chat: ChatRequestId): (h: seq<ChatMessage>)
    ensures |h| <= HistoryLength
    ensures forall m :: m in h ==> m in messages && m.chat == chat
    ensures SortedByTimestamp(h)
    ensures multiset(h) <= multiset(MessagesOf(messages, chat))
    ensures |h| == if |MessagesOf(messages, chat)| <= HistoryLength then |MessagesOf(messages, chat)| else HistoryLength
  {
    var all := SortByTimestamp(MessagesOf(messages, chat));
    assert forall m :: m in all ==> m in multiset(MessagesOf(messages, chat));
    assert |all| == |MessagesOf(messages, chat)| by {
      assert |multiset(all)| == |multiset(MessagesOf(messages, chat))|;
    }
    if |all| <= HistoryLength then all
    else
      PrefixInMultiset(all, HistoryLength);
      all[..HistoryLength]
  }

  lemma PrefixInMultiset<T>(s: seq<T>, k: nat)
    requires k <= |s|
    ensures multiset(s[..k]) <= multiset(s)
  {
    assert s == s[..k] + s[k..];
  }

  /** The replay holds the oldest messages of the chat: a message of the
      chat left out is no older than any message sent, and nothing is left
      out when the chat has at most 50 messages. */
  lemma HistoryIsOldest(messages: seq<ChatMessage>, chat: ChatRequestId, m: ChatMessage)
    requires m in messages && m.chat == chat && m !in History(messages, chat)
    ensures |History(messages, chat)| == HistoryLength
    ensures forall x :: x in History(messages, chat) ==> x.timestamp <= m.timestamp
  {
    var all := SortByTimestamp(MessagesOf(messages, chat));
    assert m in multiset(MessagesOf(messages, chat));
    assert m in all;
    var k :| 0 <= k < |all| && all[k] == m;
    assert |all| > HistoryLength;
    assert forall j :: 0 <= j < HistoryLength ==> all[j] == History(messages, chat)[j];
    assert k >= HistoryLength;
    forall x | x in History(messages, chat)
      ensures x.timestamp <= m.timestamp
    {
      var j :| 0 <= j < HistoryLength && all[..HistoryLength][j] == x;
      assert all[j] == x;
    }
  }

  /** The frame a replayed message becomes: a moderator sees the content,
      anyone else sees `RemovedText` in place of a hidden message. */
  function HistoryFrameOf(m: ChatMessage, isModerator: bool): (f: Frame)
    ensures f.HistoryFrame?
    ensures f.id == m.id && f.timestamp == m.timestamp && f.userUuid == m.sender && f.hidden == m.hidden
    ensures isModerator || !m.hidden ==> f.message == m.content
    ensures !isModerator && m.hidden ==> f.message == RemovedText
    ensures f.message == m.content || (f.hidden && f.message == RemovedText)
  {
    HistoryFrame(m.id, if !isModerator && m.hidden then RemovedText else m.content, m.timestamp, m.sender, m.hidden)
  }

  /** The frames of a replay, one per message, in order. */
  function HistoryFrames(h: seq<ChatMessage>, isModerator: bool): (fs: seq<Frame>)
    ensures |fs| == |h|
    ensures forall i :: 0 <= i < |h| ==> fs[i] == HistoryFrameOf(h[i], isModerator)
  {
    if h == [] then [] else [HistoryFrameOf(h[0], isModerator)] + HistoryFrames(h[1..], isModerator)
  }

  /** A regular user never reads the content of a hidden message in a
      replay: every frame either shows a visible message's own content or
      the removal notice. */
  lemma {:induction false} ReplayMasksHidden(h: seq<ChatMessage>, f: Frame)
    requires f in HistoryFrames(h, false)
    ensures f.hidden ==> f.message == RemovedText
    ensures !f.hidden ==> exists m :: m in h && !m.hidden && f.message == m.content && f.id == m.id
  {
    var i :| 0 <= i < |h| && HistoryFrames(h, false)[i] == f;
    assert h[i] in h;
  }

  // ---------------------------------------------------------------------
  // Joining a chat

  /** The connect check: the user is logged in and is the requester, the
      driver, or holds the moderation permission. */
  predicate MayJoin(r: ChatRequest, user: Option<UserId>, isModerator: bool) {
    user.Some? && (IsParticipant(r, user.value) || isModerator)
  }

  // ---------------------------------------------------------------------
  // Receiving a frame

  /** The stored state `receive` works on: the messages table, the next
      free message key and the channel layer's queues. */
  datatype Store = Store(messages: seq<ChatMessage>, nextMessageId: MessageId, outboxes: map<ConnId, seq<Event>>)

  /** Python's truthiness of the `message_id` value: absent or zero is
      false. */
  predicate Truthy(messageId: Option<int>) {
    messageId.Some? && messageId.value != 0
  }

  /** The length check: the text without surrounding whitespace is longer
      than 1000 characters. */
  predicate TooLong(message: string) {
    |Strip(message)| > MaxMessageLength
  }

  /** The bulk update `filter(pk=id).update(hidden=flag)`: the message with
      that key, in whichever chat, gets the flag; nothing else changes. */
  function SetHidden(messages: seq<ChatMessage>, id: int, flag: bool): (r: seq<ChatMessage>)
    ensures |r| == |messages|
    ensures forall i :: 0 <= i < |r| && messages[i].id == id ==> r[i] == messages[i].(hidden := flag)
    ensures forall i :: 0 <= i < |r| && messages[i].id != id ==> r[i] == messages[i]
    ensures forall i :: 0 <= i < |r| ==> r[i].(hidden := messages[i].hidden) == messages[i]
    ensures forall m :: m in r && m.id == id ==> m.hidden == flag
    ensures forall i :: 0 <= i < |r| ==> r[i].id == messages[i].id && r[i].chat == messages[i].chat
  {
    seq(|messages|, i requires 0 <= i < |messages| =>
      if messages[i].id == id then messages[i].(hidden := flag) else messages[i])
  }

  /** Hiding and then unhiding a message leaves it visible, exactly as
      unhiding alone would: the hidden flag is all either step touches. */
  lemma HideThenUnhide(messages: seq<ChatMessage>, id: int)
    ensures SetHidden(SetHidden(messages, id, true), id, false) == SetHidden(messages, id, false)
  {
  }

  /** `mark_read`: the unread messages of `chat` that `reader` did not send
      get `read_at = now`; the reader's own messages, messages already read
      and other chats' messages are untouched. */
  function MarkRead(messages: seq<ChatMessage>, chat: ChatRequestId, reader: UserId, now: Time): (r: seq<ChatMessage>)
    ensures |r| == |messages|
    ensures forall i :: 0 <= i < |r| ==>
      && r[i].(readAt := messages[i].readAt) == messages[i]
      && (r[i] != messages[i] <==> messages[i].chat == chat && messages[i].readAt.None? && messages[i].sender != reader)
      && (r[i] != messages[i] ==> r[i].readAt == Some(now))
  {
    seq(|messages|, i requires 0 <= i < |messages| =>
      if messages[i].chat == chat && messages[i].readAt.None? && messages[i].sender != reader
      then messages[i].(readAt := Some(now)) else messages[i])
  }

  /** Marking a chat read a second time changes nothing. */
  lemma MarkReadTwice(messages: seq<ChatMessage>, chat: ChatRequestId, reader: UserId, t1: Time, t2: Time)
    ensures MarkRead(MarkRead(messages, chat, reader, t1), chat, reader, t2) == MarkRead(messages, chat, reader, t1)
  {
    var once := MarkRead(messages, chat, reader, t1);
    var twice := MarkRead(once, chat, reader, t2);
    forall i | 0 <= i < |messages|
      ensures twice[i] == once[i]
    {
      if once[i] != messages[i] {
        assert once[i].readAt.Some?;
      }
    }
  }

  /** The effect of `receive` on the store. `chat` is the connected chat,
      `members` the connections in its group, `sender` the connected user,
      `canModerate` the user's moderation permission and `now` the clock. */
  function ReceiveOutcome(s: Store, chat: ChatRequestId, members: set<ConnId>, sender: UserId,
                          frame: Incoming, canModerate: bool, now: Time): (t: Store)
    // A message of acceptable length is stored unstripped under a fresh
    // key, then broadcast with that key; a longer one changes nothing.
    ensures frame.message.Some? && TooLong(frame.message.value) ==> t == s
    ensures frame.message.Some? && !TooLong(frame.message.value) ==>
      && t.messages == s.messages + [NewMessage(s.nextMessageId, chat, sender, frame.message.value, now)]
      && t.nextMessageId == s.nextMessageId + 1
      && t.outboxes == GroupSend(s.outboxes, members, MessageEvent(frame.message.value, now, sender, s.nextMessageId))
    // Without a message, only a moderator with a key changes a flag, and
    // the change is broadcast once.
    ensures frame.message.None? && frame.action.Some? && frame.action.value in {"hide", "unhide"} ==>
      if canModerate && Truthy(frame.messageId) then
        && t.messages == SetHidden(s.messages, frame.messageId.value, frame.action.value == "hide")
        && t.nextMessageId == s.nextMessageId
        && t.outboxes == GroupSend(s.outboxes, members, ActionEvent(frame.action.value, frame.messageId.value))
      else t == s
    // Marking read is not broadcast.
    ensures frame.message.None? && frame.action == Some("mark_read") ==>
      t == s.(messages := MarkRead(s.messages, chat, sender, now))
    ensures frame.message.None? && (frame.action.None? || frame.action.value !in {"hide", "unhide", "mark_read"}) ==>
      t == s
  {
    if frame.message.Some? then
      var text := frame.message.value;
      if TooLong(text) then s
      else
        var m := NewMessage(s.nextMessageId, chat, sender, text, now);
        Store(s.messages + [m], s.nextMessageId + 1,
              GroupSend(s.outboxes, members, MessageEvent(text, now, sender, m.id)))
    else if frame.action.Some? then
      var action := frame.action.value;
      if action == "hide" && Truthy(frame.messageId) then
        if !canModerate then s
        else s.(messages := SetHidden(s.messages, frame.messageId.value, true),
                outboxes := GroupSend(s.outboxes, members, ActionEvent("hide", frame.messageId.value)))
      else if action == "unhide" && Truthy(frame.messageId) then
        if !canModerate then s
        else s.(messages := SetHidden(s.messages, frame.messageId.value, false),
                outboxes := GroupSend(s.outboxes, members, ActionEvent("unhide", frame.messageId.value)))
      else if action == "mark_read" then
        s.(messages := MarkRead(s.messages, chat, sender, now))
      else s
    else s
  }

  /** Message keys stay below the next free key. */
  predicate KeysBelowNext(s: Store) {
    forall i :: 0 <= i < |s.messages| ==> s.messages[i].id < s.nextMessageId
  }

  /** `receive` keeps every key below the next free key, so a stored
      message's key is never reused. */
  lemma ReceiveKeepsKeysFresh(s: Store, chat: ChatRequestId, members: set<ConnId>, sender: UserId,
                              frame: Incoming, canModerate: bool, now: Time)
    requires KeysBelowNext(s)
    ensures KeysBelowNext(ReceiveOutcome(s, chat, members, sender, frame, canModerate, now))
  {
    var t := ReceiveOutcome(s, chat, members, sender, frame, canModerate, now);
    if frame.message.None? && frame.action == Some("mark_read") {
      assert forall i :: 0 <= i < |t.messages| ==> t.messages[i].id == s.messages[i].id;
    } else if frame.message.None? && frame.action.Some? && frame.action.value in {"hide", "unhide"} {
      assert forall i :: 0 <= i < |t.messages| ==> t.messages[i].id == s.messages[i].id;
    }
  }

  /** After a moderator hides a message, a regular user connecting to its
      chat is sent the removal notice in its place. */
  lemma HiddenMessageIsMasked(s: Store, chat: ChatRequestId, members: set<ConnId>, moderator: UserId,
                              id: int, now: Time)
    requires id != 0
    ensures var t := ReceiveOutcome(s, chat, members, moderator, Incoming(None, Some("hide"), Some(id)), true, now);
      forall f :: f in HistoryFrames(History(t.messages, chat), false) && f.id == id ==> f.message == RemovedText
  {
    var t := ReceiveOutcome(s, chat, members, moderator, Incoming(None, Some("hide"), Some(id)), true, now);
    var hidden := SetHidden(s.messages, id, true);
    assert t.messages == hidden;
    var h := History(hidden, chat);
    forall f | f in HistoryFrames(h, false) && f.id == id
      ensures f.message == RemovedText
    {
      var i :| 0 <= i < |h| && HistoryFrames(h, false)[i] == f;
      assert h[i] in hidden && h[i].id == id;
    }
  }

  // ---------------------------------------------------------------------
  // The shared state and the consumer

  /** The database tables and the channel layer that every connection
      shares. */
  class ChatHub {
    var requests: map<ChatRequestId, ChatRequest>
    var messages: seq<ChatMessage>
    var nextMessageId: MessageId
    var reports: seq<ChatReport>
    var modActions: seq<ModAction>
    var groups: map<string, set<ConnId>>
    var outboxes: map<ConnId, seq<Event>>

    constructor (requests: map<ChatRequestId, ChatRequest>)
      ensures this.requests == requests
      ensures messages == [] && nextMessageId == 1 && reports == [] && modActions == []
      ensures groups == map[] && outboxes == map[]
    {
      this.requests := requests;
      messages := [];
      nextMessageId := 1;
      reports := [];
      modActions := [];
      groups := map[];
      outboxes := map[];
    }

    /** The part of the state `receive` works on. */
    function Contents(): Store
      reads this
    {
      Store(messages, nextMessageId, outboxes)
    }
  }

  /** One websocket connection to a chat room. */
  class ChatConsumer {
    const hub: ChatHub
    const channel: ConnId
    var user: Option<UserId>
    var roomName: ChatRequestId
    var roomGroupName: string
    var chatRequest: Option<ChatRequestId>
    var accepted: bool
    var closed: bool
    var sent: seq<Frame>

    constructor (hub: ChatHub, channel: ConnId)
      ensures this.hub == hub && this.channel == channel
      ensures user == None && chatRequest == None && !accepted && !closed && sent == []
    {
      this.hub := hub;
      this.channel := channel;
      user := None;
      roomName := 0;
      roomGroupName := "";
      chatRequest := None;
      accepted := false;
      closed := false;
      sent := [];
    }

    /** `connect`. `user` is `None` for an anonymous visitor, `isModerator`
        the user's moderation permission. An unknown chat, or a visitor who
        may not join, closes the connection with no group joined; otherwise
        the connection joins the chat's group, is accepted and is sent the
        replay. */
    method Connect(user: Option<UserId>, isModerator: bool, roomName: ChatRequestId)
      requires !accepted && !closed
      modifies this, hub
      ensures this.user == user && this.roomName == roomName && roomGroupName == GroupName(roomName)
      ensures hub.requests == old(hub.requests) && hub.messages == old(hub.messages)
      ensures hub.nextMessageId == old(hub.nextMessageId) && hub.outboxes == old(hub.outboxes)
      ensures hub.reports == old(hub.reports) && hub.modActions == old(hub.modActions)
      ensures roomName !in hub.requests ==>
        closed && !accepted && chatRequest == None && hub.groups == old(hub.groups) && sent == old(sent)
      ensures roomName in hub.requests && !MayJoin(hub.requests[roomName], user, isModerator) ==>
        closed && !accepted && chatRequest == Some(roomName) && hub.groups == old(hub.groups) && sent == old(sent)
      ensures roomName in hub.requests && MayJoin(hub.requests[roomName], user, isModerator) ==>
        && accepted && !closed && chatRequest == Some(roomName)
        && hub.groups == GroupAdd(old(hub.groups), GroupName(roomName), channel)
        && sent == old(sent) + HistoryFrames(History(hub.messages, roomName), isModerator)
      ensures accepted ==> this.user.Some? && chatRequest == Some(roomName)
    {
      this.user := user;
      this.roomName := roomName;
      roomGroupName := GroupName(roomName);
      chatRequest := None;
      if roomName !in hub.requests {
        closed := true;
        return;
      }
      chatRequest := Some(roomName);
      if !MayJoin(hub.requests[roomName], user, isModerator) {
        closed := true;
        return;
      }
      hub.groups := GroupAdd(hub.groups, roomGroupName, channel);
      accepted := true;
      var frames := ReplayFrames(History(hub.messages, roomName), isModerator);
      sent := sent + frames;
    }

    /** `disconnect`: the connection leaves its chat's group. */
    method Disconnect()
      modifies hub
      ensures hub.groups == GroupDiscard(old(hub.groups), roomGroupName, channel)
      ensures hub.requests == old(hub.requests) && hub.messages == old(hub.messages)
      ensures hub.nextMessageId == old(hub.nextMessageId) && hub.outboxes == old(hub.outboxes)
      ensures hub.reports == old(hub.reports) && hub.modActions == old(hub.modActions)
    {
      hub.groups := GroupDiscard(hub.groups, roomGroupName, channel);
    }

    /** `receive` on an accepted connection. `canModerate` is the user's
        moderation permission when the frame arrives, `now` the clock. */
    method Receive(frame: Incoming, canModerate: bool, now: Time)
      requires accepted && user.Some? && chatRequest == Some(roomName)
      modifies hub
      ensures hub.Contents() == ReceiveOutcome(old(hub.Contents()), roomName, Members(old(hub.groups), roomGroupName),
                                               user.value, frame, canModerate, now)
      ensures hub.requests == old(hub.requests) && hub.groups == old(hub.groups)
      ensures hub.reports == old(hub.reports) && hub.modActions == old(hub.modActions)
    {
      var members := Members(hub.groups, roomGroupName);
      if frame.message.Some? {
        var text := frame.message.value;
        if TooLong(text) {
          return;
        }
        var m := NewMessage(hub.nextMessageId, roomName, user.value, text, now);
        hub.messages := hub.messages + [m];
        hub.nextMessageId := hub.nextMessageId + 1;
        hub.outboxes := GroupSend(hub.outboxes, members, MessageEvent(text, now, user.value, m.id));
      } else if frame.action.Some? {
        var action := frame.action.value;
        if action == "hide" && Truthy(frame.messageId) {
          if !canModerate {
            return;
          }
          hub.messages := SetHidden(hub.messages, frame.messageId.value, true);
          hub.outboxes := GroupSend(hub.outboxes, members, ActionEvent("hide", frame.messageId.value));
        } else if action == "unhide" && Truthy(frame.messageId) {
          if !canModerate {
            return;
          }
          hub.messages := SetHidden(hub.messages, frame.messageId.value, false);
          hub.outboxes := GroupSend(hub.outboxes, members, ActionEvent("unhide", frame.messageId.value));
        } else if action == "mark_read" {
          hub.messages := MarkRead(hub.messages, roomName, user.value, now);
        }
      }
    }

    /** `chat_message`: a broadcast message is written to the websocket. */
    method ChatMessageHandler(e: Event)
      requires e.MessageEvent?
      modifies this
      ensures sent == old(sent) + [MessageFrame(e.messageId, e.message, e.timestamp, e.userUuid)]
      ensures user == old(user) && accepted == old(accepted) && closed == old(closed)
      ensures roomName == old(roomName) && roomGroupName == old(roomGroupName) && chatRequest == old(chatRequest)
    {
      sent := sent + [MessageFrame(e.messageId, e.message, e.timestamp, e.userUuid)];
    }

    /** `chat_action`: a broadcast hide or unhide is written to the
        websocket; any other action is dropped. */
    method ChatActionHandler(e: Event)
      requires e.ActionEvent?
      modifies this
      ensures e.action in {"hide", "unhide"} ==> sent == old(sent) + [ActionFrame(e.action, e.target)]
      ensures e.action !in {"hide", "unhide"} ==> sent == old(sent)
      ensures user == old(user) && accepted == old(accepted) && closed == old(closed)
      ensures roomName == old(roomName) && roomGroupName == old(roomGroupName) && chatRequest == old(chatRequest)
    {
      if e.action in {"hide", "unhide"} {
        sent := sent + [ActionFrame(e.action, e.target)];
      }
    }

    /** The channel layer delivers the first event waiting for this
        connection to the handler named by its type. */
    method DeliverNext()
      requires 0 < |Queue(hub.outboxes, channel)|
      modifies this, hub
      ensures hub.outboxes == old(hub.outboxes)[channel := old(Queue(hub.outboxes, channel))[1..]]
      ensures hub.requests == old(hub.requests) && hub.messages == old(hub.messages)
      ensures hub.nextMessageId == old(hub.nextMessageId) && hub.groups == old(hub.groups)
      ensures hub.reports == old(hub.reports) && hub.modActions == old(hub.modActions)
      ensures sent == old(sent) + EventFrames(old(Queue(hub.outboxes, channel))[0])
    {
      var e := Queue(hub.outboxes, channel)[0];
      hub.outboxes := hub.outboxes[channel := Queue(hub.outboxes, channel)[1..]];
      if e.MessageEvent? {
        ChatMessageHandler(e);
      } else {
        ChatActionHandler(e);
      }
    }
  }

  /** The frames a delivered event produces. */
  function EventFrames(e: Event): (fs: seq<Frame>)
    ensures |fs| <= 1
    ensures e.MessageEvent? ==> fs == [MessageFrame(e.messageId, e.message, e.timestamp, e.userUuid)]
    ensures e.ActionEvent? ==> (fs != [] <==> e.action in {"hide", "unhide"})
    ensures e.ActionEvent? && e.action in {"hide", "unhide"} ==> fs == [ActionFrame(e.action, e.target)]
  {
    match e
    case MessageEvent(message, timestamp, userUuid, messageId) => [MessageFrame(messageId, message, timestamp, userUuid)]
    case ActionEvent(action, target) => if action in {"hide", "unhide"} then [ActionFrame(action, target)] else []
  }

  /** The replay loop of `connect`: one frame per earlier message, in
      order, masked for a regular user. */
  method ReplayFrames(previous: seq<ChatMessage>, isModerator: bool) returns (frames: seq<Frame>)
    ensures frames == HistoryFrames(previous, isModerator)
  {
    frames := [];
    for i := 0 to |previous|
      invariant frames == HistoryFrames(previous[..i], isModerator)
    {
      assert previous[..i + 1] == previous[..i] + [previous[i]];
      HistoryFramesAppend(previous[..i], previous[i], isModerator);
      frames := frames + [HistoryFrameOf(previous[i], isModerator)];
    }
    assert previous[..|previous|] == previous;
  }

  lemma HistoryFramesAppend(h: seq<ChatMessage>, m: ChatMessage, isModerator: bool)
    ensures HistoryFrames(h + [m], isModerator) == HistoryFrames(h, isModerator) + [HistoryFrameOf(m, isModerator)]
  {
  }

  /** Every member of the group, the sender's own connection included, has
      an accepted message waiting as the last event of its queue, carrying
      the key it was stored under. */
  lemma BroadcastReachesEveryMember(s: Store, chat: ChatRequestId, members: set<ConnId>, sender: UserId,
                                    text: string, now: Time, c: ConnId)
    requires !TooLong(text) && c in members
    ensures var t := ReceiveOutcome(s, chat, members, sender, Incoming(Some(text), None, None), false, now);
      && Queue(t.outboxes, c) == Queue(s.outboxes, c) + [MessageEvent(text, now, sender, s.nextMessageId)]
      && t.messages[|s.messages|].id == s.nextMessageId
      && t.messages[|s.messages|].content == text
  {
  }
}

=== FILE: chat_models.dfy ===
/** The chat records: a chat request between a passenger and the driver of
    a ride, the messages sent in it, the reports users file about a chat and
    the actions moderators take on users. */
module ChatModels {

  import opened Base

  /** The key of a `ChatRequest` (a UUID in the database). */
  type ChatRequestId = nat

  /** The auto-increment key of a `ChatMessage`. */
  type MessageId = nat

  /** A `ChatRequest`: `user` asked about `ride`; `driver` is that ride's
      driver, reached through the foreign key. */
  datatype ChatRequest = ChatRequest(user: UserId, ride: nat, driver: UserId)

  /** The two people a chat is between: the requester and the driver. */
  predicate IsParticipant(r: ChatRequest, u: UserId) {
    u == r.user || u == r.driver
  }

  /** The person on the other side of the chat from `u`: the driver when
      `u` made the request, the requester otherwise. The room view's
      `with_user` and the recipient of an unread-message e-mail are both
      chosen this way. */
  function OtherParticipant(r: ChatRequest, u: UserId): (other: UserId)
    ensures IsParticipant(r, other)
    ensures IsParticipant(r, u) && r.user != r.driver ==> other != u
  {
    if u == r.user then r.driver else r.user
  }

  /** In a chat between two different people, the other participant of a
      participant is somebody else, and the other participant of that one
      is the participant again. */
  lemma OtherParticipantSwaps(r: ChatRequest, u: UserId)
    requires IsParticipant(r, u) && r.user != r.driver
    ensures OtherParticipant(r, u) != u
    ensures OtherParticipant(r, OtherParticipant(r, u)) == u
  {
  }

  /** A `ChatMessage`: `chat` is the chat request it belongs to, `sender`
      its author. */
  datatype ChatMessage = ChatMessage(
    id: MessageId, chat: ChatRequestId, sender: UserId, content: string, timestamp: Time,
    hidden: bool, readAt: Option<Time>, notifiedAt: Option<Time>)

  /** A message as the database creates it: visible, unread and not yet
      notified. */
  function NewMessage(id: MessageId, chat: ChatRequestId, sender: UserId, content: string, timestamp: Time): (m: ChatMessage)
    ensures m.id == id && m.chat == chat && m.sender == sender
    ensures m.content == content && m.timestamp == timestamp
    ensures !m.hidden && m.readAt == None && m.notifiedAt == None
  {
    ChatMessage(id, chat, sender, content, timestamp, false, None, None)
  }

  /** A `ChatReport`: one reporter about one chat, with an optional reason. */
  datatype ChatReport = ChatReport(chat: ChatRequestId, reportedBy: UserId, reason: Option<string>)

  /** The choices of `ModAction.action`. */
  datatype ModActionKind = FlagUser | BlockUser

  /** The value stored in the 20-character `action` column. */
  function ActionCode(k: ModActionKind): (code: string)
    ensures 0 < |code| <= 20
  {
    match k
    case FlagUser => "FLAG_USER"
    case BlockUser => "BLOCK_USER"
  }

  /** The two choices are stored as different values. */
  lemma ActionCodeInjective(a: ModActionKind, b: ModActionKind)
    ensures ActionCode(a) == ActionCode(b) ==> a == b
  {
    if a != b {
      assert ActionCode(a)[0] != ActionCode(b)[0];
    }
  }

  /** A `ModAction`: a moderator's action, on a user or on nobody. */
  datatype ModAction = ModAction(performedBy: UserId, onUser: Option<UserId>, reason: Option<string>, action: ModActionKind)
}

=== FILE: chat_views.dfy ===
/** The chat's HTTP views: reporting a chat, a moderator flagging a user,
    hiding and unhiding a message, the chat index and a chat room. The
    views that write are given as functions from the tables to a response
    and the new table, and as methods on the shared `ChatHub` proved to
    perform them. */
module ChatViews {

  import opened Base
  import opened ChatModels
  import opened ChatHub
  import Rides

  /** What a view answers. */
  datatype ViewResponse =
    | RedirectToLogin
    | RedirectToRoom(chat: ChatRequestId)       // "chat:room"
    | RedirectToModRoom(chat: ChatRequestId)    // "chat:mod_room"
    | Forbidden
    | NotFound
    | MethodNotAllowed
    | JsonSuccess
    | RoomPage(room: ChatRequestId, withUser: UserId, sharedRideCount: nat,
               outgoing: set<ChatRequestId>, incoming: set<ChatRequestId>)
    | IndexPage(outgoing: set<ChatRequestId>, incoming: set<ChatRequestId>)

  /** `request.POST.get("reason", "")`. */
  function ReasonOrEmpty(reason: Option<string>): string {
    if reason.Some? then reason.value else ""
  }

  /** Whether the visitor holds `chat.can_moderate_messages`; an anonymous
      visitor holds no permission. */
  predicate Moderates(actor: Option<UserId>, canModerate: bool) {
    actor.Some? && canModerate
  }

  // ---------------------------------------------------------------------
  // report

  /** `report`: a participant's POST files one report; anyone else's POST
      is refused; any other request files nothing. */
  function ReportOutcome(requests: map<ChatRequestId, ChatRequest>, reports: seq<ChatReport>,
                         actor: Option<UserId>, isPost: bool, chat: ChatRequestId, reason: Option<string>): (o: (ViewResponse, seq<ChatReport>))
    ensures actor.None? ==> o == (RedirectToLogin, reports)
    ensures actor.Some? && chat !in requests ==> o == (NotFound, reports)
    ensures actor.Some? && chat in requests && isPost && !IsParticipant(requests[chat], actor.value) ==>
      o == (Forbidden, reports)
    ensures actor.Some? && chat in requests && isPost && IsParticipant(requests[chat], actor.value) ==>
      o == (RedirectToRoom(chat), reports + [ChatReport(chat, actor.value, Some(ReasonOrEmpty(reason)))])
    ensures actor.Some? && chat in requests && !isPost ==> o == (RedirectToRoom(chat), reports)
  {
    if actor.None? then (RedirectToLogin, reports)
    else if chat !in requests then (NotFound, reports)
    else if isPost then
      if !IsParticipant(requests[chat], actor.value) then (Forbidden, reports)
      else (RedirectToRoom(chat), reports + [ChatReport(chat, actor.value, Some(ReasonOrEmpty(reason)))])
    else (RedirectToRoom(chat), reports)
  }

  /** Reports are never merged: each of two POSTs by a participant adds its
      own report, and the earlier reports stay as they were. */
  lemma {:induction false} RepeatedReportsAccumulate(requests: map<ChatRequestId, ChatRequest>, reports: seq<ChatReport>,
                                                     u: UserId, chat: ChatRequestId, r1: Option<string>, r2: Option<string>)
    requires chat in requests && IsParticipant(requests[chat], u)
    ensures var once := ReportOutcome(requests, reports, Some(u), true, chat, r1).1;
      var twice := ReportOutcome(requests, once, Some(u), true, chat, r2).1;
      |twice| == |reports| + 2 && twice[..|reports|] == reports
      && twice[|reports|].reportedBy == u && twice[|reports| + 1].reportedBy == u
  {
    var once := ReportOutcome(requests, reports, Some(u), true, chat, r1).1;
    assert once == reports + [ChatReport(chat, u, Some(ReasonOrEmpty(r1)))];
    var twice := ReportOutcome(requests, once, Some(u), true, chat, r2).1;
    assert twice == once + [ChatReport(chat, u, Some(ReasonOrEmpty(r2)))];
    assert twice[..|reports|] == reports;
  }

  // ---------------------------------------------------------------------
  // user_report

  /** `user_report`: the permission is checked first, then the method, then
      the user and the chat request are looked up; a moderator's POST with
      both found files one `FLAG_USER` action on the user. The chat request
      only chooses where to redirect. */
  function UserReportOutcome(requests: map<ChatRequestId, ChatRequest>, users: set<UserId>, modActions: seq<ModAction>,
                             actor: Option<UserId>, canModerate: bool, isPost: bool,
                             target: UserId, chat: Option<ChatRequestId>, reason: Option<string>): (o: (ViewResponse, seq<ModAction>))
    ensures !Moderates(actor, canModerate) ==> o == (Forbidden, modActions)
    ensures Moderates(actor, canModerate) && !isPost ==> o == (MethodNotAllowed, modActions)
    ensures Moderates(actor, canModerate) && isPost && (target !in users || chat.None? || chat.value !in requests) ==>
      o == (NotFound, modActions)
    ensures Moderates(actor, canModerate) && isPost && target in users && chat.Some? && chat.value in requests ==>
      o == (RedirectToModRoom(chat.value), modActions + [ModAction(actor.value, Some(target), Some(ReasonOrEmpty(reason)), FlagUser)])
  {
    if !Moderates(actor, canModerate) then (Forbidden, modActions)
    else if !isPost then (MethodNotAllowed, modActions)
    else if target !in users then (NotFound, modActions)
    else if chat.None? || chat.value !in requests then (NotFound, modActions)
    else (RedirectToModRoom(chat.value), modActions + [ModAction(actor.value, Some(target), Some(ReasonOrEmpty(reason)), FlagUser)])
  }

  /** Every action `user_report` files is a flag by a moderator on a
      user: whatever the request, the actions only grow, by at most one,
      and a new one is a flag by the caller. */
  lemma UserReportOnlyFlags(requests: map<ChatRequestId, ChatRequest>, users: set<UserId>, modActions: seq<ModAction>,
                            actor: Option<UserId>, canModerate: bool, isPost: bool,
                            target: UserId, chat: Option<ChatRequestId>, reason: Option<string>)
    ensures var after := UserReportOutcome(requests, users, modActions, actor, canModerate, isPost, target, chat, reason).1;
      && |modActions| <= |after| <= |modActions| + 1
      && after[..|modActions|] == modActions
      && (|after| > |modActions| ==>
            Moderates(actor, canModerate) && after[|modActions|].action == FlagUser
            && after[|modActions|].performedBy == actor.value && after[|modActions|].onUser == Some(target))
  {
    var after := UserReportOutcome(requests, users, modActions, actor, canModerate, isPost, target, chat, reason).1;
    assert after == modActions || after == modActions + [after[|after| - 1]];
    assert after[..|modActions|] == modActions;
  }

  // ---------------------------------------------------------------------
  // hide_message, unhide_message

  /** Whether a stored message has key `id`. */
  predicate HasMessage(messages: seq<ChatMessage>, id: MessageId) {
    exists i :: 0 <= i < |messages| && messages[i].id == id
  }

  /** `hide_message`: a moderator hides the message with that key. */
  function HideMessageOutcome(messages: seq<ChatMessage>, actor: Option<UserId>, canModerate: bool, id: MessageId): (o: (ViewResponse, seq<ChatMessage>))
    ensures !Moderates(actor, canModerate) ==> o == (Forbidden, messages)
    ensures Moderates(actor, canModerate) && !HasMessage(messages, id) ==> o == (NotFound, messages)
    ensures Moderates(actor, canModerate) && HasMessage(messages, id) ==> o == (JsonSuccess, SetHidden(messages, id, true))
  {
    if !Moderates(actor, canModerate) then (Forbidden, messages)
    else if !HasMessage(messages, id) then (NotFound, messages)
    else (JsonSuccess, SetHidden(messages, id, true))
  }

  /** `unhide_message` as written: no login and no permission is asked for. */
  function UnhideMessageAsWritten(messages: seq<ChatMessage>, id: MessageId): (o: (ViewResponse, seq<ChatMessage>))
    ensures !HasMessage(messages, id) ==> o == (NotFound, messages)
    ensures HasMessage(messages, id) ==> o == (JsonSuccess, SetHidden(messages, id, false))
  {
    if !HasMessage(messages, id) then (NotFound, messages)
    else (JsonSuccess, SetHidden(messages, id, false))
  }

  /** Any visitor, even one not logged in, can make a hidden message
      visible again through `unhide_message`. */
  lemma AnyoneCanUnhide(messages: seq<ChatMessage>, i: nat)
    requires i < |messages| && messages[i].hidden
    ensures var o := UnhideMessageAsWritten(messages, messages[i].id);
      o.0 == JsonSuccess && !o.1[i].hidden
  {
    assert HasMessage(messages, messages[i].id);
  }

  /** `unhide_message` guarded as `hide_message` is. */
  function UnhideMessageOutcome(messages: seq<ChatMessage>, actor: Option<UserId>, canModerate: bool, id: MessageId): (o: (ViewResponse, seq<ChatMessage>))
    ensures !Moderates(actor, canModerate) ==> o == (Forbidden, messages)
    ensures Moderates(actor, canModerate) ==> o == UnhideMessageAsWritten(messages, id)
  {
    if !Moderates(actor, canModerate) then (Forbidden, messages)
    else UnhideMessageAsWritten(messages, id)
  }

  /** With the guard, only a moderator changes whether a message is hidden,
      and hiding then unhiding gives back a visible message. */
  lemma OnlyModeratorsChangeVisibility(messages: seq<ChatMessage>, actor: Option<UserId>, canModerate: bool, id: MessageId)
    ensures !Moderates(actor, canModerate) ==>
      HideMessageOutcome(messages, actor, canModerate, id).1 == messages
      && UnhideMessageOutcome(messages, actor, canModerate, id).1 == messages
    ensures Moderates(actor, canModerate) && HasMessage(messages, id) ==>
      UnhideMessageOutcome(HideMessageOutcome(messages, actor, canModerate, id).1, actor, canModerate, id).1
        == SetHidden(messages, id, false)
  {
    if Moderates(actor, canModerate) && HasMessage(messages, id) {
      var hidden := SetHidden(messages, id, true);
      var k :| 0 <= k < |messages| && messages[k].id == id;
      assert hidden[k].id == id;
      assert HasMessage(hidden, id);
      HideThenUnhide(messages, id);
    }
  }

  // ---------------------------------------------------------------------
  // index, room

  /** The chat requests `u` made. */
  function Outgoing(requests: map<ChatRequestId, ChatRequest>, u: UserId): (ids: set<ChatRequestId>)
    ensures forall id :: id in ids <==> id in requests && requests[id].user == u
    ensures forall id :: id in ids ==> IsParticipant(requests[id], u)
    ensures ids <= requests.Keys
  {
    set id | id in requests && requests[id].user == u
  }

  /** The chat requests on rides `u` drives. */
  function IncomingRequests(requests: map<ChatRequestId, ChatRequest>, u: UserId): (ids: set<ChatRequestId>)
    ensures forall id :: id in ids <==> id in requests && requests[id].driver == u
    ensures forall id :: id in ids ==> IsParticipant(requests[id], u)
    ensures ids <= requests.Keys
  {
    set id | id in requests && requests[id].driver == u
  }

  /** `index`. */
  function Index(requests: map<ChatRequestId, ChatRequest>, actor: Option<UserId>): (page: ViewResponse)
    ensures actor.None? ==> page == RedirectToLogin
    ensures actor.Some? ==> page == IndexPage(Outgoing(requests, actor.value), IncomingRequests(requests, actor.value))
    ensures actor.Some? ==> forall id :: id in page.outgoing + page.incoming <==>
      id in requests && IsParticipant(requests[id], actor.value)
  {
    if actor.None? then RedirectToLogin
    else IndexPage(Outgoing(requests, actor.value), IncomingRequests(requests, actor.value))
  }

  /** The chats a user sees listed are exactly the chats they take part
      in. */
  lemma IndexListsOwnChats(requests: map<ChatRequestId, ChatRequest>, u: UserId, id: ChatRequestId)
    ensures id in Index(requests, Some(u)).outgoing + Index(requests, Some(u)).incoming <==>
      id in requests && IsParticipant(requests[id], u)
  {
  }

  /** `room`: a participant gets the room with the other participant and
      the number of rides `count_shared_ride` reports for the two of them;
      `rides` is the rides table and `now` the clock. */
  function Room(requests: map<ChatRequestId, ChatRequest>, rides: map<Rides.RideId, Rides.Ride>,
                actor: Option<UserId>, chat: ChatRequestId, now: Time): (page: ViewResponse)
    ensures actor.None? ==> page == RedirectToLogin
    ensures actor.Some? && chat !in requests ==> page == NotFound
    ensures actor.Some? && chat in requests ==> (page == Forbidden <==> !IsParticipant(requests[chat], actor.value))
    ensures actor.Some? && chat in requests && IsParticipant(requests[chat], actor.value) ==> page.RoomPage?
    ensures page.RoomPage? ==>
      && actor.Some? && chat in requests && page.room == chat
      && page.withUser == OtherParticipant(requests[chat], actor.value)
      && page.sharedRideCount == Rides.CountSharedRideAsWritten(rides, actor.value, page.withUser, now)
      && page.outgoing == Outgoing(requests, actor.value)
      && page.incoming == IncomingRequests(requests, actor.value)
  {
    if actor.None? then RedirectToLogin
    else if chat !in requests then NotFound
    else
      var r := requests[chat];
      var u := actor.value;
      if !IsParticipant(r, u) then Forbidden
      else
        var withUser := OtherParticipant(r, u);
        RoomPage(chat, withUser, Rides.CountSharedRideAsWritten(rides, u, withUser, now),
                 Outgoing(requests, u), IncomingRequests(requests, u))
  }

  /** In a room between two different people, each sees the other, and the
      room is among the chats listed beside it. */
  lemma RoomShowsTheOtherSide(requests: map<ChatRequestId, ChatRequest>, rides: map<Rides.RideId, Rides.Ride>,
                              chat: ChatRequestId, now: Time)
    requires chat in requests && requests[chat].user != requests[chat].driver
    ensures var r := requests[chat];
      && Room(requests, rides, Some(r.user), chat, now).withUser == r.driver
      && Room(requests, rides, Some(r.driver), chat, now).withUser == r.user
      && chat in Room(requests, rides, Some(r.user), chat, now).outgoing
      && chat in Room(requests, rides, Some(r.driver), chat, now).incoming
  {
  }

  // ---------------------------------------------------------------------
  // The views on the shared state

  /** `report` on the shared tables. */
  method Report(hub: ChatHub, actor: Option<UserId>, isPost: bool, chat: ChatRequestId, reason: Option<string>)
    returns (response: ViewResponse)
    modifies hub
    ensures (response, hub.reports) == ReportOutcome(old(hub.requests), old(hub.reports), actor, isPost, chat, reason)
    ensures hub.requests == old(hub.requests) && hub.messages == old(hub.messages) && hub.modActions == old(hub.modActions)
    ensures hub.nextMessageId == old(hub.nextMessageId) && hub.groups == old(hub.groups) && hub.outboxes == old(hub.outboxes)
  {
    if actor.None? {
      return RedirectToLogin;
    }
    if chat !in hub.requests {
      return NotFound;
    }
    if isPost {
      if !IsParticipant(hub.requests[chat], actor.value) {
        return Forbidden;
      }
      hub.reports := hub.reports + [ChatReport(chat, actor.value, Some(ReasonOrEmpty(reason)))];
    }
    return RedirectToRoom(chat);
  }

  /** `user_report` on the shared tables; `users` are the user keys. */
  method UserReport(hub: ChatHub, users: set<UserId>, actor: Option<UserId>, canModerate: bool, isPost: bool,
                    target: UserId, chat: Option<ChatRequestId>, reason: Option<string>)
    returns (response: ViewResponse)
    modifies hub
    ensures (response, hub.modActions) ==
      UserReportOutcome(old(hub.requests), users, old(hub.modActions), actor, canModerate, isPost, target, chat, reason)
    ensures hub.requests == old(hub.requests) && hub.messages == old(hub.messages) && hub.reports == old(hub.reports)
    ensures hub.nextMessageId == old(hub.nextMessageId) && hub.groups == old(hub.groups) && hub.outboxes == old(hub.outboxes)
  {
    if !Moderates(actor, canModerate) {
      return Forbidden;
    }
    if !isPost {
      return MethodNotAllowed;
    }
    if target !in users {
      return NotFound;
    }
    if chat.None? || chat.value !in hub.requests {
      return NotFound;
    }
    hub.modActions := hub.modActions + [ModAction(actor.value, Some(target), Some(ReasonOrEmpty(reason)), FlagUser)];
    return RedirectToModRoom(chat.value);
  }

  /** `hide_message` on the shared tables. */
  method HideMessage(hub: ChatHub, actor: Option<UserId>, canModerate: bool, id: MessageId)
    returns (response: ViewResponse)
    modifies hub
    ensures (response, hub.messages) == HideMessageOutcome(old(hub.messages), actor, canModerate, id)
    ensures hub.requests == old(hub.requests) && hub.reports == old(hub.reports) && hub.modActions == old(hub.modActions)
    ensures hub.nextMessageId == old(hub.nextMessageId) && hub.groups == old(hub.groups) && hub.outboxes == old(hub.outboxes)
  {
    if !Moderates(actor, canModerate) {
      return Forbidden;
    }
    if !HasMessage(hub.messages, id) {
      return NotFound;
    }
    hub.messages := SetHidden(hub.messages, id, true);
    return JsonSuccess;
  }

  /** `unhide_message` on the shared tables, as written. */
  method UnhideMessage(hub: ChatHub, id: MessageId)
    returns (response: ViewResponse)
    modifies hub
    ensures (response, hub.messages) == UnhideMessageAsWritten(old(hub.messages), id)
    ensures hub.requests == old(hub.requests) && hub.reports == old(hub.reports) && hub.modActions == old(hub.modActions)
    ensures hub.nextMessageId == old(hub.nextMessageId) && hub.groups == old(hub.groups) && hub.outboxes == old(hub.outboxes)
  {
    if !HasMessage(hub.messages, id) {
      return NotFound;
    }
    hub.messages := SetHidden(hub.messages, id, false);
    return JsonSuccess;
  }
}

=== FILE: duration.dfy ===
/** The `duration` template filter: a ride duration shown as "2h05", "1h"
    or "30min". */
module Duration {

  import opened Base
  import opened Text

  const MicrosPerSecond: nat := 1000000

  /** `int(d.total_seconds())` for a duration of `micros` microseconds:
      Python's `int` truncates toward zero. */
  function WholeSeconds(micros: int): (s: int)
    ensures micros >= 0 ==> 0 <= s * MicrosPerSecond <= micros < (s + 1) * MicrosPerSecond
    ensures micros < 0 ==> (s - 1) * MicrosPerSecond < micros <= s * MicrosPerSecond <= 0
  {
    if micros >= 0 then micros / MicrosPerSecond else -((-micros) / MicrosPerSecond)
  }

  /** `h = total_seconds // 3600` (floor division, as Dafny's `/` with a
      positive divisor). */
  function Hours(s: int): int {
    s / 3600
  }

  /** `m = (total_seconds % 3600) // 60`. */
  function Minutes(s: int): (m: nat)
    ensures m < 60
  {
    (s % 3600) / 60
  }

  /** The filter applied to a number of whole seconds. */
  function FormatSeconds(s: int): (r: string)
    ensures |r| >= 2
    ensures Hours(s) > 0 <==> r[|r| - 1] != 'n'
    ensures Hours(s) <= 0 && Minutes(s) == 0 ==> r == "0min"
    ensures Hours(s) <= 0 ==> r == NatToString(Minutes(s)) + "min"
    ensures Hours(s) > 0 && Minutes(s) == 0 ==> r == NatToString(Hours(s)) + "h"
    ensures Hours(s) > 0 && Minutes(s) > 0 ==> r == NatToString(Hours(s)) + "h" + Pad2(Minutes(s))
  {
    var h := Hours(s);
    var m := Minutes(s);
    if h > 0 then
      if m > 0 then NatToString(h) + "h" + Pad2(m) else NatToString(h) + "h"
    else if m > 0 then NatToString(m) + "min" else "0min"
  }

  /** `duration(d)` for a duration of `micros` microseconds. */
  function Format(micros: int): string {
    FormatSeconds(WholeSeconds(micros))
  }

  /** Reads a rendered duration back into (hours, minutes). */
  function Unformat(r: string): Option<(nat, nat)> {
    if |r| >= 3 && r[|r| - 3..] == "min" && AllDigits(r[..|r| - 3]) then
      Some((0, ParseNat(r[..|r| - 3])))
    else if |r| >= 1 && r[|r| - 1] == 'h' && AllDigits(r[..|r| - 1]) then
      Some((ParseNat(r[..|r| - 1]), 0))
    else if |r| >= 3 && r[|r| - 3] == 'h' && AllDigits(r[..|r| - 3]) && AllDigits(r[|r| - 2..]) then
      Some((ParseNat(r[..|r| - 3]), ParseNat(r[|r| - 2..])))
    else None
  }

  /** The rendering loses nothing but the seconds: reading it back gives the
      hours (when positive) and the minutes. */
  lemma FormatReadBack(s: int)
    ensures Unformat(FormatSeconds(s)) == Some((if Hours(s) > 0 then Hours(s) else 0, Minutes(s)))
  {
    var h, m := Hours(s), Minutes(s);
    var r := FormatSeconds(s);
    if h > 0 {
      var hs := NatToString(h);
      ParseNatToString(h);
      if m > 0 {
        assert r == hs + "h" + Pad2(m);
        assert r[..|r| - 3] == hs;
        assert r[|r| - 2..] == Pad2(m);
      } else {
        assert r == hs + "h";
        assert r[..|r| - 1] == hs;
      }
    } else if m > 0 {
      ParseNatToString(m);
      assert r == NatToString(m) + "min";
      assert r[..|r| - 3] == NatToString(m);
    } else {
      assert r == "0min" && r[..|r| - 3] == "0";
      assert "0"[..0] == [];
    }
  }

  /** For a non-negative duration, hours and minutes together are the whole
      minutes it lasts. */
  lemma HoursMinutesAreWholeMinutes(s: int)
    requires s >= 0
    ensures Hours(s) * 60 + Minutes(s) == s / 60
  {
    var q, r := s / 3600, s % 3600;
    var m, t := r / 60, r % 60;
    assert s == 3600 * q + r;
    assert r == 60 * m + t;
    assert s == 60 * (60 * q + m) + t;
  }

  /** Leftover seconds below a minute never change the output. */
  lemma FormatIgnoresSeconds(s: int)
    ensures FormatSeconds(s) == FormatSeconds(s - s % 60)
  {
    var q, r := s / 3600, s % 3600;
    var m, t := r / 60, r % 60;
    assert s == 3600 * q + r && r == 60 * m + t;
    assert s % 60 == t by {
      assert s == 60 * (60 * q + m) + t;
    }
    var s' := s - t;
    assert s' == 3600 * q + 60 * m;
    assert Hours(s') == q && Minutes(s') == m by {
      assert 0 <= 60 * m < 3600;
    }
  }

  /** Two non-negative durations render the same iff they last the same
      number of whole minutes. */
  lemma FormatDeterminesMinutes(s1: int, s2: int)
    requires s1 >= 0 && s2 >= 0
    ensures FormatSeconds(s1) == FormatSeconds(s2) <==> s1 / 60 == s2 / 60
  {
    HoursMinutesAreWholeMinutes(s1);
    HoursMinutesAreWholeMinutes(s2);
    if FormatSeconds(s1) == FormatSeconds(s2) {
      FormatReadBack(s1);
      FormatReadBack(s2);
    } else {
      FormatIgnoresSeconds(s1);
      FormatIgnoresSeconds(s2);
    }
  }
}

=== FILE: ledger.dfy ===
/** The reservation handlers of the carpool views: cancelling and updating
    a reservation, subscribing to a ride, deleting a ride. Each handler is a
    function from the ledger state to a response and a new state; the
    `ReservationLedger` class performs the same steps in place. */
module Ledger {

  import opened Base
  import opened Rides

  datatype HttpMethod = Get | Post | OtherMethod

  /** Where a redirect goes. `NextUrl` is the `next` query parameter (the
      chat index by default). */
  datatype Target =
    | LoginPage | NextUrl | RideList | RideDetail(ride: RideId)
    | ChatRoom(chatRequest: nat) | ChatIndex | MyRides

  datatype Response =
    | Redirect(to: Target)
    | ShowDeletePage(ride: RideId)
    | Forbidden          // 403
    | BadRequest         // 400
    | NotFound           // 404
    | MethodNotAllowed   // 405
    | ServerError        // 500: an uncaught exception

  /** The e-mails the handlers queue for the background worker. */
  datatype Notice =
    | ConfirmedRide(reservation: ReservationId)
    | DeclinedRide(reservation: ReservationId)
    | IncomingReservation(reservation: ReservationId)

  /** The `Ride` and `Reservation` tables and the e-mail queue. */
  datatype State = State(
    rides: map<RideId, Ride>,
    reservations: map<ReservationId, Reservation>,
    notices: seq<Notice>,
    nextReservationId: nat)

  /** Referential integrity of the foreign keys, and fresh primary keys for
      new reservations. */
  predicate Consistent(s: State) {
    && (forall id :: id in s.reservations ==> s.reservations[id].ride in s.rides)
    && (forall id :: id in s.reservations ==> id < s.nextReservationId)
  }

  datatype Outcome = Outcome(response: Response, state: State)

  // ---------------------------------------------------------------------
  // Frame predicates

  /** `t` differs from `s` at most in reservation `id`. */
  predicate OtherReservationsKept(s: State, t: State, id: ReservationId) {
    && t.reservations.Keys == s.reservations.Keys
    && forall k :: k in s.reservations && k != id ==> t.reservations[k] == s.reservations[k]
  }

  /** `t` differs from `s` at most in the riders of ride `id`. */
  predicate OtherRidesKept(s: State, t: State, id: RideId) {
    && t.rides.Keys == s.rides.Keys
    && (forall k :: k in s.rides && k != id ==> t.rides[k] == s.rides[k])
    && (id in s.rides ==> t.rides[id] == s.rides[id].(riders := t.rides[id].riders))
  }

  /** The reservation `id` now has `status`, its ride's riders are
      `riders`, the e-mail queue grew by `sent`, and nothing else changed. */
  predicate Transition(s: State, t: State, id: ReservationId, status: Status, riders: set<UserId>, sent: seq<Notice>)
    requires id in s.reservations && s.reservations[id].ride in s.rides
  {
    var r := s.reservations[id];
    && OtherReservationsKept(s, t, id)
    && t.reservations[id] == r.(status := status)
    && OtherRidesKept(s, t, r.ride)
    && t.rides[r.ride].riders == riders
    && t.notices == s.notices + sent
    && t.nextReservationId == s.nextReservationId
  }

  function WithStatusAndRiders(s: State, id: ReservationId, status: Status, riders: set<UserId>, sent: seq<Notice>): (t: State)
    requires Consistent(s) && id in s.reservations
    ensures Consistent(t)
    ensures Transition(s, t, id, status, riders, sent)
  {
    var r := s.reservations[id];
    s.(reservations := s.reservations[id := r.(status := status)],
       rides := s.rides[r.ride := s.rides[r.ride].(riders := riders)],
       notices := s.notices + sent)
  }

  // ---------------------------------------------------------------------
  // cancel_reservation

  /** `cancel_reservation`: POST only, login required, the reservation must
      exist and belong to the caller, and must not be canceled already. */
  function CancelOutcome(s: State, m: HttpMethod, actor: Option<UserId>, pk: Option<ReservationId>): (o: Outcome)
    requires Consistent(s)
    ensures Consistent(o.state)
    ensures m != Post ==> o == Outcome(MethodNotAllowed, s)
    ensures m == Post && actor.None? ==> o == Outcome(Redirect(LoginPage), s)
    ensures m == Post && actor.Some? && (pk.None? || pk.value !in s.reservations) ==> o == Outcome(NotFound, s)
    ensures m == Post && actor.Some? && pk.Some? && pk.value in s.reservations ==>
      var r := s.reservations[pk.value];
      && (actor.value != r.user ==> o == Outcome(Forbidden, s))
      && (actor.value == r.user && r.status == Canceled ==> o == Outcome(BadRequest, s))
      && (actor.value == r.user && r.status != Canceled ==>
            && o.response == Redirect(NextUrl)
            && Transition(s, o.state, pk.value, Canceled, s.rides[r.ride].riders - {r.user}, []))
  {
    if m != Post then Outcome(MethodNotAllowed, s)
    else if actor.None? then Outcome(Redirect(LoginPage), s)
    else if pk.None? || pk.value !in s.reservations then Outcome(NotFound, s)
    else
      var r := s.reservations[pk.value];
      if actor.value != r.user then Outcome(Forbidden, s)
      else if r.status == Canceled then Outcome(BadRequest, s)
      else Outcome(Redirect(NextUrl),
                   WithStatusAndRiders(s, pk.value, Canceled, s.rides[r.ride].riders - {r.user}, []))
  }

  /** A cancel never applies twice: cancelling the same reservation again
      is refused with 400 and changes nothing. */
  lemma CancelOnce(s: State, actor: UserId, pk: ReservationId)
    requires Consistent(s)
    requires CancelOutcome(s, Post, Some(actor), Some(pk)).response == Redirect(NextUrl)
    ensures var t := CancelOutcome(s, Post, Some(actor), Some(pk)).state;
      CancelOutcome(t, Post, Some(actor), Some(pk)) == Outcome(BadRequest, t)
  {
  }

  // ---------------------------------------------------------------------
  // update_reservation

  /** `update_reservation`: POST only, login required, only the ride's
      driver, never on a canceled reservation. "accept" on a full ride is a
      silent no-op unless the reservation is already accepted; "decline"
      works from any other status; any other action is a 400. */
  function UpdateOutcome(s: State, m: HttpMethod, actor: Option<UserId>, pk: Option<ReservationId>, action: Option<string>): (o: Outcome)
    requires Consistent(s)
    ensures Consistent(o.state)
    ensures m != Post ==> o == Outcome(MethodNotAllowed, s)
    ensures m == Post && actor.None? ==> o == Outcome(Redirect(LoginPage), s)
    ensures m == Post && actor.Some? && (pk.None? || pk.value !in s.reservations) ==> o == Outcome(NotFound, s)
    ensures m == Post && actor.Some? && pk.Some? && pk.value in s.reservations ==>
      var r := s.reservations[pk.value];
      var ride := s.rides[r.ride];
      && (actor.value != ride.driver ==> o == Outcome(Forbidden, s))
      && (actor.value == ride.driver && r.status == Canceled ==> o == Outcome(BadRequest, s))
      && (actor.value == ride.driver && r.status != Canceled ==>
            && (action != Some("accept") && action != Some("decline") ==> o == Outcome(BadRequest, s))
            && (action == Some("accept") && IsFull(ride) && r.status != Accepted ==>
                  o == Outcome(Redirect(NextUrl), s))
            && (action == Some("accept") && !(IsFull(ride) && r.status != Accepted) ==>
                  && o.response == Redirect(NextUrl)
                  && Transition(s, o.state, pk.value, Accepted, ride.riders + {r.user}, [ConfirmedRide(pk.value)]))
            && (action == Some("decline") ==>
                  && o.response == Redirect(NextUrl)
                  && Transition(s, o.state, pk.value, Declined, ride.riders - {r.user}, [DeclinedRide(pk.value)])))
  {
    if m != Post then Outcome(MethodNotAllowed, s)
    else if actor.None? then Outcome(Redirect(LoginPage), s)
    else if pk.None? || pk.value !in s.reservations then Outcome(NotFound, s)
    else
      var r := s.reservations[pk.value];
      var ride := s.rides[r.ride];
      if actor.value != ride.driver then Outcome(Forbidden, s)
      else if r.status == Canceled then Outcome(BadRequest, s)
      else if action == Some("accept") then
        if IsFull(ride) && r.status != Accepted then Outcome(Redirect(NextUrl), s)
        else Outcome(Redirect(NextUrl),
                     WithStatusAndRiders(s, pk.value, Accepted, ride.riders + {r.user}, [ConfirmedRide(pk.value)]))
      else if action == Some("decline") then
        Outcome(Redirect(NextUrl),
                WithStatusAndRiders(s, pk.value, Declined, ride.riders - {r.user}, [DeclinedRide(pk.value)]))
      else Outcome(BadRequest, s)
  }

  /** Accepting twice is accepting once, except for the second e-mail. */
  lemma AcceptIdempotent(s: State, driver: UserId, pk: ReservationId)
    requires Consistent(s)
    requires UpdateOutcome(s, Post, Some(driver), Some(pk), Some("accept")).state != s
    ensures var t := UpdateOutcome(s, Post, Some(driver), Some(pk), Some("accept")).state;
      var u := UpdateOutcome(t, Post, Some(driver), Some(pk), Some("accept")).state;
      && u.rides == t.rides && u.reservations == t.reservations
      && u.notices == t.notices + [ConfirmedRide(pk)]
  {
    var t := UpdateOutcome(s, Post, Some(driver), Some(pk), Some("accept")).state;
    var r := s.reservations[pk];
    assert t.rides[r.ride].riders + {r.user} == t.rides[r.ride].riders;
    assert t.rides[r.ride := t.rides[r.ride]] == t.rides;
    assert t.reservations[pk := t.reservations[pk]] == t.reservations;
  }

  // ---------------------------------------------------------------------
  // Capacity

  /** No ride has more riders than seats offered. */
  predicate WithinCapacity(s: State) {
    forall id :: id in s.rides ==> |s.rides[id].riders| <= s.rides[id].seatsOffered
  }

  /** Every accepted reservation's user rides the reserved ride. */
  predicate AcceptedAreRiders(s: State)
    requires Consistent(s)
  {
    forall id :: id in s.reservations && s.reservations[id].status == Accepted ==>
      s.reservations[id].user in s.rides[s.reservations[id].ride].riders
  }

  /** One sequential step of `update_reservation` keeps every ride within
      capacity, provided accepted users already ride: a full ride only
      re-accepts a reservation whose user is a rider already. */
  lemma {:induction false} UpdateKeepsCapacity(s: State, m: HttpMethod, actor: Option<UserId>, pk: Option<ReservationId>, action: Option<string>)
    requires Consistent(s) && WithinCapacity(s) && AcceptedAreRiders(s)
    ensures WithinCapacity(UpdateOutcome(s, m, actor, pk, action).state)
  {
    var t := UpdateOutcome(s, m, actor, pk, action).state;
    if t != s {
      var r := s.reservations[pk.value];
      var ride := s.rides[r.ride];
      if action == Some("accept") {
        if r.user in ride.riders {
          assert ride.riders + {r.user} == ride.riders;
        } else {
          assert !IsFull(ride);
        }
        assert |t.rides[r.ride].riders| <= |ride.riders| + 1;
      } else {
        assert t.rides[r.ride].riders <= ride.riders;
        SubsetSize(t.rides[r.ride].riders, ride.riders);
      }
    }
  }

  lemma SubsetSize<T>(a: set<T>, b: set<T>)
    requires a <= b
    ensures |a| <= |b|
  {
    assert b == a + (b - a);
  }

  /** Cancelling only removes riders, so it keeps every ride within
      capacity. */
  lemma CancelKeepsCapacity(s: State, m: HttpMethod, actor: Option<UserId>, pk: Option<ReservationId>)
    requires Consistent(s) && WithinCapacity(s)
    ensures WithinCapacity(CancelOutcome(s, m, actor, pk).state)
  {
    var t := CancelOutcome(s, m, actor, pk).state;
    if t != s {
      var r := s.reservations[pk.value];
      SubsetSize(t.rides[r.ride].riders, s.rides[r.ride].riders);
    }
  }

  // ---------------------------------------------------------------------
  // rides_subscribe

  /** The caller already holds a declined or accepted reservation for the
      ride. */
  predicate AlreadyBooked(s: State, user: UserId, ride: RideId) {
    exists id :: id in s.reservations && s.reservations[id].user == user && s.reservations[id].ride == ride
      && (s.reservations[id].status == Declined || s.reservations[id].status == Accepted)
  }

  /** `rides_subscribe`. `chatRequests` holds the keys of the `ChatRequest`
      rows of this user and ride: `.get()` raises unless there is exactly
      one. A new reservation is created, with the default status, only on
      a POST for a ride that is neither over nor full, by a user not
      already booked. */
  function SubscribeOutcome(s: State, m: HttpMethod, actor: Option<UserId>, ridePk: RideId, now: Time, chatRequests: seq<nat>): (o: Outcome)
    requires Consistent(s)
    ensures Consistent(o.state)
    ensures o.state != s <==>
      && actor.Some? && ridePk in s.rides && m == Post
      && !HasEnded(s.rides[ridePk], now) && !IsFull(s.rides[ridePk])
      && |chatRequests| == 1 && !AlreadyBooked(s, actor.value, ridePk)
    ensures o.state != s ==>
      var id := s.nextReservationId;
      && id !in s.reservations
      && o.state == s.(reservations := s.reservations[id := Reservation(actor.value, ridePk, DefaultStatus)],
                       notices := s.notices + [IncomingReservation(id)],
                       nextReservationId := id + 1)
      && o.response == Redirect(ChatRoom(chatRequests[0]))
    ensures
      (&& actor.Some? && ridePk in s.rides && m == Post && !HasEnded(s.rides[ridePk], now)
       && !IsFull(s.rides[ridePk]) && |chatRequests| != 1)
      ==> o.response == ServerError
    ensures actor.None? ==> o.response == Redirect(LoginPage)
    ensures actor.Some? && ridePk !in s.rides ==> o.response == NotFound
    ensures actor.Some? && ridePk in s.rides && m != Post ==> o.response == Redirect(RideDetail(ridePk))
    ensures
      (actor.Some? && ridePk in s.rides && m == Post && (HasEnded(s.rides[ridePk], now) || IsFull(s.rides[ridePk])))
      ==> o.response == Redirect(RideList)
    ensures
      (&& actor.Some? && ridePk in s.rides && m == Post && !HasEnded(s.rides[ridePk], now)
       && !IsFull(s.rides[ridePk]) && |chatRequests| == 1 && AlreadyBooked(s, actor.value, ridePk))
      ==> o.response == Redirect(RideDetail(ridePk))
  {
    if actor.None? then Outcome(Redirect(LoginPage), s)
    else if ridePk !in s.rides then Outcome(NotFound, s)
    else if m != Post then Outcome(Redirect(RideDetail(ridePk)), s)
    else
      var ride := s.rides[ridePk];
      if HasEnded(ride, now) then Outcome(Redirect(RideList), s)
      else if IsFull(ride) then Outcome(Redirect(RideList), s)
      else if |chatRequests| != 1 then Outcome(ServerError, s)
      else if AlreadyBooked(s, actor.value, ridePk) then Outcome(Redirect(RideDetail(ridePk)), s)
      else
        var id := s.nextReservationId;
        Outcome(Redirect(ChatRoom(chatRequests[0])),
                s.(reservations := s.reservations[id := Reservation(actor.value, ridePk, DefaultStatus)],
                   notices := s.notices + [IncomingReservation(id)],
                   nextReservationId := id + 1))
  }

  /** A pending or canceled reservation does not block a new one: with only
      such reservations, subscribing to an open ride always creates one. */
  lemma PendingDoesNotBlockSubscribe(s: State, user: UserId, ridePk: RideId, now: Time, chatRequest: nat)
    requires Consistent(s) && ridePk in s.rides
    requires !HasEnded(s.rides[ridePk], now) && !IsFull(s.rides[ridePk])
    requires forall id :: id in s.reservations && s.reservations[id].user == user && s.reservations[id].ride == ridePk ==>
      s.reservations[id].status == Pending || s.reservations[id].status == Canceled
    ensures SubscribeOutcome(s, Post, Some(user), ridePk, now, [chatRequest]).state.reservations
         == s.reservations[s.nextReservationId := Reservation(user, ridePk, Pending)]
  {
  }

  /** Subscribing changes no rider set, so it keeps every ride within
      capacity and every accepted user riding. */
  lemma SubscribeKeepsInvariants(s: State, m: HttpMethod, actor: Option<UserId>, ridePk: RideId, now: Time, chatRequests: seq<nat>)
    requires Consistent(s) && WithinCapacity(s) && AcceptedAreRiders(s)
    ensures var t := SubscribeOutcome(s, m, actor, ridePk, now, chatRequests).state;
      WithinCapacity(t) && AcceptedAreRiders(t)
  {
  }

  // ---------------------------------------------------------------------
  // RideManager.safe_delete and rides_delete

  /** `safe_delete`: the ride and, by the cascade, its reservations are
      removed iff it has no rider or is over. */
  function SafeDeleteOutcome(s: State, ridePk: RideId, now: Time): (result: (bool, State))
    requires Consistent(s) && ridePk in s.rides
    ensures Consistent(result.1)
    ensures result.0 <==> CanSafeDelete(s.rides[ridePk], now)
    ensures !result.0 ==> result.1 == s
    ensures result.0 ==>
      && result.1.rides == s.rides - {ridePk}
      && (forall id :: id in result.1.reservations <==> id in s.reservations && s.reservations[id].ride != ridePk)
      && (forall id :: id in result.1.reservations ==> result.1.reservations[id] == s.reservations[id])
      && result.1.notices == s.notices && result.1.nextReservationId == s.nextReservationId
  {
    if CanSafeDelete(s.rides[ridePk], now) then
      (true, s.(rides := s.rides - {ridePk},
                reservations := map id | id in s.reservations && s.reservations[id].ride != ridePk :: s.reservations[id]))
    else (false, s)
  }

  /** `rides_delete`: only the driver; a GET shows the confirmation page. */
  function DeleteOutcome(s: State, m: HttpMethod, actor: Option<UserId>, ridePk: RideId, now: Time): (o: Outcome)
    requires Consistent(s)
    ensures Consistent(o.state)
    ensures o.state != s ==> m == Post && ridePk in s.rides && actor == Some(s.rides[ridePk].driver)
    ensures actor.None? ==> o == Outcome(Redirect(LoginPage), s)
    ensures actor.Some? && ridePk !in s.rides ==> o == Outcome(NotFound, s)
    ensures actor.Some? && ridePk in s.rides && actor.value != s.rides[ridePk].driver ==> o == Outcome(Forbidden, s)
    ensures actor.Some? && ridePk in s.rides && actor.value == s.rides[ridePk].driver ==>
      && (m != Post ==> o == Outcome(ShowDeletePage(ridePk), s))
      && (m == Post ==>
            && o.state == SafeDeleteOutcome(s, ridePk, now).1
            && o.response == (if CanSafeDelete(s.rides[ridePk], now) then Redirect(MyRides) else Redirect(RideDetail(ridePk))))
  {
    if actor.None? then Outcome(Redirect(LoginPage), s)
    else if ridePk !in s.rides then Outcome(NotFound, s)
    else if s.rides[ridePk].driver != actor.value then Outcome(Forbidden, s)
    else if m == Post then
      var (deleted, t) := SafeDeleteOutcome(s, ridePk, now);
      if deleted then Outcome(Redirect(MyRides), t) else Outcome(Redirect(RideDetail(ridePk)), t)
    else Outcome(ShowDeletePage(ridePk), s)
  }

  /** A ride with riders that is not over survives a delete request. */
  lemma RideWithRidersSurvives(s: State, m: HttpMethod, actor: Option<UserId>, ridePk: RideId, now: Time)
    requires Consistent(s) && ridePk in s.rides
    requires s.rides[ridePk].riders != {} && !HasEnded(s.rides[ridePk], now)
    ensures DeleteOutcome(s, m, actor, ridePk, now).state == s
  {
  }

  // ---------------------------------------------------------------------
  // Overbooking

  /** Ride 0 of driver 10, two seats, with the given riders. */
  function SmallRide(riders: set<UserId>): Ride {
    Ride(10, 2, 0, None, riders)
  }

  /** The states of the overbooking trace below, in order. Users 1, 2 and 3
      book ride 0; user 1 books it twice. */
  function TraceState(step: nat): (s: State)
    requires step <= 10
    ensures Consistent(s)
  {
    var p1, p2, p3 := Reservation(1, 0, Pending), Reservation(2, 0, Pending), Reservation(3, 0, Pending);
    var a1, a2, a3 := Reservation(1, 0, Accepted), Reservation(2, 0, Accepted), Reservation(3, 0, Accepted);
    var c1 := Reservation(1, 0, Canceled);
    var n2 := [IncomingReservation(0), IncomingReservation(1)];
    var n4 := n2 + [ConfirmedRide(0), ConfirmedRide(1)];
    var n7 := n4 + [IncomingReservation(2), ConfirmedRide(2)];
    var n9 := n7 + [IncomingReservation(3), ConfirmedRide(3)];
    match step
    case 0 => State(map[0 := SmallRide({})], map[], [], 0)
    case 1 => State(map[0 := SmallRide({})], map[0 := p1], [IncomingReservation(0)], 1)
    case 2 => State(map[0 := SmallRide({})], map[0 := p1, 1 := p1], n2, 2)
    case 3 => State(map[0 := SmallRide({1})], map[0 := a1, 1 := p1], n2 + [ConfirmedRide(0)], 2)
    case 4 => State(map[0 := SmallRide({1})], map[0 := a1, 1 := a1], n4, 2)
    case 5 => State(map[0 := SmallRide({})], map[0 := c1, 1 := a1], n4, 2)
    case 6 => State(map[0 := SmallRide({})], map[0 := c1, 1 := a1, 2 := p2], n4 + [IncomingReservation(2)], 3)
    case 7 => State(map[0 := SmallRide({2})], map[0 := c1, 1 := a1, 2 := a2], n7, 3)
    case 8 => State(map[0 := SmallRide({2})], map[0 := c1, 1 := a1, 2 := a2, 3 := p3], n7 + [IncomingReservation(3)], 4)
    case 9 => State(map[0 := SmallRide({2, 3})], map[0 := c1, 1 := a1, 2 := a2, 3 := a3], n9, 4)
    case _ => State(map[0 := SmallRide({1, 2, 3})], map[0 := c1, 1 := a1, 2 := a2, 3 := a3], n9 + [ConfirmedRide(1)], 4)
  }

  /** One handler call per step of the trace. */
  lemma TraceStep1()
    ensures SubscribeOutcome(TraceState(0), Post, Some(1), 0, 0, [5]).state == TraceState(1)
  {
  }

  lemma TraceStep2()
    ensures SubscribeOutcome(TraceState(1), Post, Some(1), 0, 0, [5]).state == TraceState(2)
  {
    assert !AlreadyBooked(TraceState(1), 1, 0);
  }

  lemma TraceStep3()
    ensures UpdateOutcome(TraceState(2), Post, Some(10), Some(0), Some("accept")).state == TraceState(3)
  {
  }

  lemma TraceStep4()
    ensures UpdateOutcome(TraceState(3), Post, Some(10), Some(1), Some("accept")).state == TraceState(4)
  {
    assert SmallRide({1}).riders + {1} == {1};
  }

  lemma TraceStep5()
    ensures CancelOutcome(TraceState(4), Post, Some(1), Some(0)).state == TraceState(5)
  {
    assert SmallRide({1}).riders - {1} == {};
  }

  lemma TraceStep6()
    ensures SubscribeOutcome(TraceState(5), Post, Some(2), 0, 0, [6]).state == TraceState(6)
  {
    assert !AlreadyBooked(TraceState(5), 2, 0);
  }

  lemma TraceStep7()
    ensures UpdateOutcome(TraceState(6), Post, Some(10), Some(2), Some("accept")).state == TraceState(7)
  {
  }

  lemma TraceStep8()
    ensures SubscribeOutcome(TraceState(7), Post, Some(3), 0, 0, [7]).state == TraceState(8)
  {
    assert !AlreadyBooked(TraceState(7), 3, 0);
  }

  lemma TraceStep9()
    ensures UpdateOutcome(TraceState(8), Post, Some(10), Some(3), Some("accept")).state == TraceState(9)
  {
    var s := TraceState(8);
    var t := WithStatusAndRiders(s, 3, Accepted, {2, 3}, [ConfirmedRide(3)]);
    assert UpdateOutcome(s, Post, Some(10), Some(3), Some("accept")).state == t by {
      assert |{2}| == 1;
      assert SmallRide({2}).riders + {3} == {2, 3};
    }
    assert t.rides == map[0 := SmallRide({2, 3})];
    assert t.reservations == TraceState(9).reservations;
    assert t.notices == TraceState(9).notices;
  }

  lemma TraceStep10()
    ensures UpdateOutcome(TraceState(9), Post, Some(10), Some(1), Some("accept")).state == TraceState(10)
  {
    assert SmallRide({2, 3}).riders + {1} == {1, 2, 3};
  }

  /** The accept guard as written lets an already-accepted reservation
      through on a full ride, trusting that its user rides already. A
      second pending reservation of the same user breaks that trust: accept
      both, cancel one, fill the ride, accept the other again. Each step
      of `TraceState` is one handler call (`TraceStep1` to `TraceStep10`);
      the last leaves three riders on a ride of two seats. */
  lemma OverbookingAsWritten()
    ensures WithinCapacity(TraceState(0)) && WithinCapacity(TraceState(9))
    ensures UpdateOutcome(TraceState(9), Post, Some(10), Some(1), Some("accept")).state == TraceState(10)
    ensures TraceState(10).rides[0].riders == {1, 2, 3} && !WithinCapacity(TraceState(10))
  {
    TraceStep10();
    assert |TraceState(9).rides[0].riders| == |{2, 3}| == 2;
    assert |TraceState(10).rides[0].riders| == |{1, 2, 3}| == 3;
  }

  /** The accept guard as evidently intended: a full ride admits a
      reservation only when its user rides already. */
  function UpdateOutcomeCorrected(s: State, m: HttpMethod, actor: Option<UserId>, pk: Option<ReservationId>, action: Option<string>): (o: Outcome)
    requires Consistent(s)
    ensures Consistent(o.state)
    ensures !(m == Post && actor.Some? && pk.Some? && pk.value in s.reservations && action == Some("accept"))
      ==> o == UpdateOutcome(s, m, actor, pk, action)
  {
    if m == Post && actor.Some? && pk.Some? && pk.value in s.reservations && action == Some("accept") then
      var r := s.reservations[pk.value];
      var ride := s.rides[r.ride];
      if actor.value != ride.driver || r.status == Canceled then UpdateOutcome(s, m, actor, pk, action)
      else if IsFull(ride) && r.user !in ride.riders then Outcome(Redirect(NextUrl), s)
      else Outcome(Redirect(NextUrl),
                   WithStatusAndRiders(s, pk.value, Accepted, ride.riders + {r.user}, [ConfirmedRide(pk.value)]))
    else UpdateOutcome(s, m, actor, pk, action)
  }

  /** With the corrected guard, updating keeps every ride within capacity
      with no assumption about accepted reservations. */
  lemma {:induction false} UpdateCorrectedKeepsCapacity(s: State, m: HttpMethod, actor: Option<UserId>, pk: Option<ReservationId>, action: Option<string>)
    requires Consistent(s) && WithinCapacity(s)
    ensures WithinCapacity(UpdateOutcomeCorrected(s, m, actor, pk, action).state)
  {
    var t := UpdateOutcomeCorrected(s, m, actor, pk, action).state;
    if t != s {
      var r := s.reservations[pk.value];
      var ride := s.rides[r.ride];
      if action == Some("accept") {
        if r.user in ride.riders {
          assert ride.riders + {r.user} == ride.riders;
        }
        assert |t.rides[r.ride].riders| <= |ride.riders| + 1;
      } else {
        SubsetSize(t.rides[r.ride].riders, ride.riders);
      }
    }
  }

  /** Deleting a ride keeps the others as they were. */
  lemma DeleteKeepsCapacity(s: State, m: HttpMethod, actor: Option<UserId>, ridePk: RideId, now: Time)
    requires Consistent(s) && WithinCapacity(s)
    ensures WithinCapacity(DeleteOutcome(s, m, actor, ridePk, now).state)
  {
  }

  // ---------------------------------------------------------------------
  // The ledger object

  /** The tables, updated in place by the handlers. */
  class ReservationLedger {
    var rides: map<RideId, Ride>
    var reservations: map<ReservationId, Reservation>
    var notices: seq<Notice>
    var nextReservationId: nat

    function Contents(): State
      reads this
    {
      State(rides, reservations, notices, nextReservationId)
    }

    constructor ()
      ensures Contents() == State(map[], map[], [], 0)
    {
      rides, reservations, notices, nextReservationId := map[], map[], [], 0;
    }

    /** `cancel_reservation`. */
    method CancelReservation(m: HttpMethod, actor: Option<UserId>, pk: Option<ReservationId>) returns (response: Response)
      requires Consistent(Contents())
      modifies this
      ensures Outcome(response, Contents()) == CancelOutcome(old(Contents()), m, actor, pk)
    {
      if m != Post { return MethodNotAllowed; }
      if actor.None? { return Redirect(LoginPage); }
      if pk.None? || pk.value !in reservations { return NotFound; }
      var r := reservations[pk.value];
      if actor.value != r.user { return Forbidden; }
      if r.status == Canceled { return BadRequest; }
      reservations := reservations[pk.value := r.(status := Canceled)];
      var ride := rides[r.ride];
      if r.user in ride.riders {
        rides := rides[r.ride := ride.(riders := ride.riders - {r.user})];
      } else {
        assert ride.riders - {r.user} == ride.riders;
        rides := rides[r.ride := ride.(riders := ride.riders - {r.user})];
      }
      return Redirect(NextUrl);
    }

    /** `update_reservation`. */
    method UpdateReservation(m: HttpMethod, actor: Option<UserId>, pk: Option<ReservationId>, action: Option<string>) returns (response: Response)
      requires Consistent(Contents())
      modifies this
      ensures Outcome(response, Contents()) == UpdateOutcome(old(Contents()), m, actor, pk, action)
    {
      if m != Post { return MethodNotAllowed; }
      if actor.None? { return Redirect(LoginPage); }
      if pk.None? || pk.value !in reservations { return NotFound; }
      var r := reservations[pk.value];
      var ride := rides[r.ride];
      if actor.value != ride.driver { return Forbidden; }
      if r.status == Canceled { return BadRequest; }
      if action == Some("accept") {
        if IsFull(ride) && r.status != Accepted {
          return Redirect(NextUrl);
        }
        reservations := reservations[pk.value := r.(status := Accepted)];
        notices := notices + [ConfirmedRide(pk.value)];
        rides := rides[r.ride := ride.(riders := ride.riders + {r.user})];
      } else if action == Some("decline") {
        reservations := reservations[pk.value := r.(status := Declined)];
        rides := rides[r.ride := ride.(riders := ride.riders - {r.user})];
        notices := notices + [DeclinedRide(pk.value)];
      } else {
        return BadRequest;
      }
      return Redirect(NextUrl);
    }

    /** `rides_subscribe`. */
    method Subscribe(m: HttpMethod, actor: Option<UserId>, ridePk: RideId, now: Time, chatRequests: seq<nat>) returns (response: Response)
      requires Consistent(Contents())
      modifies this
      ensures Outcome(response, Contents()) == SubscribeOutcome(old(Contents()), m, actor, ridePk, now, chatRequests)
    {
      if actor.None? { return Redirect(LoginPage); }
      if ridePk !in rides { return NotFound; }
      if m != Post { return Redirect(RideDetail(ridePk)); }
      var ride := rides[ridePk];
      if HasEnded(ride, now) { return Redirect(RideList); }
      if IsFull(ride) { return Redirect(RideList); }
      if |chatRequests| != 1 { return ServerError; }
      if AlreadyBooked(Contents(), actor.value, ridePk) { return Redirect(RideDetail(ridePk)); }
      var id := nextReservationId;
      reservations := reservations[id := Reservation(actor.value, ridePk, DefaultStatus)];
      nextReservationId := id + 1;
      notices := notices + [IncomingReservation(id)];
      return Redirect(ChatRoom(chatRequests[0]));
    }

    /** `RideManager.safe_delete`. */
    method SafeDelete(ridePk: RideId, now: Time) returns (deleted: bool)
      requires Consistent(Contents()) && ridePk in rides
      modifies this
      ensures (deleted, Contents()) == SafeDeleteOutcome(old(Contents()), ridePk, now)
    {
      var ride := rides[ridePk];
      if |ride.riders| == 0 || (ride.endDt.Some? && ride.endDt.value < now) {
        rides := rides - {ridePk};
        reservations := map id | id in reservations && reservations[id].ride != ridePk :: reservations[id];
        return true;
      }
      return false;
    }

    /** `rides_delete`. */
    method DeleteRide(m: HttpMethod, actor: Option<UserId>, ridePk: RideId, now: Time) returns (response: Response)
      requires Consistent(Contents())
      modifies this
      ensures Outcome(response, Contents()) == DeleteOutcome(old(Contents()), m, actor, ridePk, now)
    {
      if actor.None? { return Redirect(LoginPage); }
      if ridePk !in rides { return NotFound; }
      if rides[ridePk].driver != actor.value { return Forbidden; }
      if m == Post {
        var deleted := SafeDelete(ridePk, now);
        if deleted { return Redirect(MyRides); }
        return Redirect(RideDetail(ridePk));
      }
      return ShowDeletePage(ridePk);
    }
  }
}

=== FILE: location_form.dfy ===
/** `LocationForm`: the hidden fields that carry a geocoded address. The
    text fields are Django `CharField`s (stripped, required unless said
    otherwise), the coordinates `FloatField`s with a range check. */
module LocationForm {

  import opened Base
  import opened Text

  /** The submitted data. A coordinate is `None` when it is missing or is
      not a number. */
  datatype LocationData = LocationData(
    fulltext: string, street: string, zipcode: string, city: string,
    latitude: Option<real>, longitude: Option<real>)

  datatype Field = Fulltext | Street | Zipcode | City | Latitude | Longitude

  /** The cleaned data of a valid form. */
  datatype Location = Location(
    fulltext: string, street: string, zipcode: string, city: string,
    latitude: real, longitude: real)

  function Abs(x: real): (a: real)
    ensures a >= 0.0 && (a == x || a == -x)
  {
    if x < 0.0 then -x else x
  }

  /** `clean_latitude`: inclusive bounds, the value itself when accepted:
      a latitude is kept exactly when it is at most 90 degrees from the
      equator, on either side. */
  function CleanLatitude(latitude: real): (r: Option<real>)
    ensures r.Some? <==> -90.0 <= latitude <= 90.0
    ensures r.Some? <==> Abs(latitude) <= 90.0
    ensures r.Some? ==> r.value == latitude
  {
    if latitude < -90.0 || latitude > 90.0 then None else Some(latitude)
  }

  /** `clean_longitude`: inclusive bounds, the value itself when accepted:
      a longitude is kept exactly when it is at most 180 degrees east or
      west of the prime meridian. */
  function CleanLongitude(longitude: real): (r: Option<real>)
    ensures r.Some? <==> -180.0 <= longitude <= 180.0
    ensures r.Some? <==> Abs(longitude) <= 180.0
    ensures r.Some? ==> r.value == longitude
  {
    if longitude < -180.0 || longitude > 180.0 then None else Some(longitude)
  }

  /** Whether `f` gets an error: a required `CharField` fails when nothing
      but whitespace was sent, a `FloatField` when no number was sent or
      its range check fails. */
  predicate Fails(d: LocationData, f: Field) {
    match f
    case Fulltext => Strip(d.fulltext) == []
    case Street => false
    case Zipcode => Strip(d.zipcode) == []
    case City => Strip(d.city) == []
    case Latitude => d.latitude.None? || CleanLatitude(d.latitude.value).None?
    case Longitude => d.longitude.None? || CleanLongitude(d.longitude.value).None?
  }

  /** The fields that get an error. */
  function Errors(d: LocationData): (e: set<Field>)
    ensures Street !in e
    ensures Fulltext in e <==> AllSpaces(d.fulltext)
    ensures Zipcode in e <==> AllSpaces(d.zipcode)
    ensures City in e <==> AllSpaces(d.city)
    ensures Latitude in e <==> d.latitude.None? || !(-90.0 <= d.latitude.value <= 90.0)
    ensures Longitude in e <==> d.longitude.None? || !(-180.0 <= d.longitude.value <= 180.0)
  {
    set f: Field | Fails(d, f)
  }

  /** `is_valid()` followed by `cleaned_data`: the stripped text fields and
      the coordinates as sent, or nothing when any field has an error. */
  function Clean(d: LocationData): (r: Option<Location>)
    ensures r.Some? <==> Errors(d) == {}
    ensures r.Some? ==>
      && r.value.latitude == d.latitude.value && r.value.longitude == d.longitude.value
      && r.value.fulltext == Strip(d.fulltext) && r.value.street == Strip(d.street)
      && r.value.zipcode == Strip(d.zipcode) && r.value.city == Strip(d.city)
    ensures r.Some? ==>
      && -90.0 <= r.value.latitude <= 90.0 && -180.0 <= r.value.longitude <= 180.0
      && r.value.fulltext != [] && r.value.zipcode != [] && r.value.city != []
    ensures r.Some? ==>
      && Strip(r.value.fulltext) == r.value.fulltext && Strip(r.value.street) == r.value.street
      && Strip(r.value.zipcode) == r.value.zipcode && Strip(r.value.city) == r.value.city
  {
    StripIdempotent(d.fulltext);
    StripIdempotent(d.street);
    StripIdempotent(d.zipcode);
    StripIdempotent(d.city);
    if Errors(d) == {} then
      Some(Location(Strip(d.fulltext), Strip(d.street), Strip(d.zipcode), Strip(d.city),
                    d.latitude.value, d.longitude.value))
    else None
  }

  /** The data a cleaned location would be submitted as. */
  function AsData(l: Location): LocationData {
    LocationData(l.fulltext, l.street, l.zipcode, l.city, Some(l.latitude), Some(l.longitude))
  }

  /** Submitting a cleaned location again gives the same location: cleaning
      is idempotent. */
  lemma CleanIdempotent(d: LocationData)
    ensures Clean(d).Some? ==> Clean(AsData(Clean(d).value)) == Clean(d)
  {
    if Clean(d).None? {
      return;
    }
    var l := Clean(d).value;
    StripIdempotent(d.fulltext);
    StripIdempotent(d.street);
    StripIdempotent(d.zipcode);
    StripIdempotent(d.city);
    assert Fulltext !in Errors(AsData(l));
    assert Zipcode !in Errors(AsData(l));
    assert City !in Errors(AsData(l));
  }

  /** An empty street does not make the form invalid. */
  lemma StreetIsOptional(d: LocationData, street: string)
    ensures Clean(d.(street := street)).Some? <==> Clean(d).Some?
  {
    assert Errors(d.(street := street)) == Errors(d);
  }
}

=== FILE: ride_forms.dfy ===
/** The ride forms: the departure-date window of the edit form and of the
    first creation step, the validity of a form with its location subforms,
    the seat checks of the second creation step, and `EditRideForm.save`,
    which rewrites a ride and renumbers its stopovers. */
module RideForms {

  import opened Base
  import opened LocationForm

  /** `datetime.timedelta(days=365)` in seconds. */
  const OneYear: nat := 365 * SecondsPerDay

  datatype DateError = InThePast | MoreThanOneYearAhead

  // ---------------------------------------------------------------------
  // Departure date window

  /** `EditRideForm.clean_start_dt`: the two checks are independent `if`s,
      each adding its own error. The model field is nullable and blank is
      allowed, so the form may clean an empty `start_dt` to `None`; comparing
      `None` with the clock raises `TypeError`, modelled as `None` here. */
  function EditStartDtErrors(start: Option<Time>, now: Time): (errors: Option<seq<DateError>>)
    ensures errors.None? <==> start.None?
    ensures errors.Some? ==>
      && (InThePast in errors.value <==> start.value < now)
      && (MoreThanOneYearAhead in errors.value <==> start.value > now + OneYear)
      && |errors.value| <= 2
  {
    match start
    case None => None
    case Some(t) =>
      Some((if t < now then [InThePast] else [])
           + (if t > now + OneYear then [MoreThanOneYearAhead] else []))
  }

  /** The date check of `CreateRideStep1Form.clean`: an `if`/`elif`, so at
      most one error. */
  function Step1DateErrors(start: Time, now: Time): (errors: seq<DateError>)
    ensures |errors| <= 1
    ensures InThePast in errors <==> start < now
    ensures MoreThanOneYearAhead in errors <==> now <= start && start > now + OneYear
  {
    if start < now then [InThePast]
    else if start > now + OneYear then [MoreThanOneYearAhead]
    else []
  }

  /** With one reading of the clock the window is never empty, so the two
      styles of check report exactly the same errors, and a date is accepted
      iff it lies in [now, now + 365 days]. */
  lemma DateChecksAgree(start: Time, now: Time)
    ensures EditStartDtErrors(Some(start), now) == Some(Step1DateErrors(start, now))
    ensures Step1DateErrors(start, now) == [] <==> now <= start <= now + OneYear
  {
    var e := EditStartDtErrors(Some(start), now).value;
    if start < now {
      assert e == [InThePast];
    } else if start > now + OneYear {
      assert e == [MoreThanOneYearAhead];
    } else {
      assert e == [];
    }
  }

  // ---------------------------------------------------------------------
  // Validity with subforms

  /** The validity verdicts of a ride form and of its subforms: the
      departure and arrival `LocationForm`s and the stopover formset's forms. */
  datatype Verdicts = Verdicts(main: bool, departure: bool, arrival: bool, stopovers: seq<bool>)

  /** `EditRideForm.is_valid`: every verdict is computed (no short
      circuit), the stopovers are not among them. */
  function EditIsValid(v: Verdicts): (ok: bool)
    ensures ok <==> v.main && v.departure && v.arrival
  {
    v.main && v.departure && v.arrival
  }

  /** `CreateRideStep1Form.is_valid`: as the edit form, and every stopover
      form must be valid too. */
  function Step1IsValid(v: Verdicts): (ok: bool)
    ensures ok <==> EditIsValid(v) && forall i :: 0 <= i < |v.stopovers| ==> v.stopovers[i]
    ensures ok ==> EditIsValid(v)
    ensures EditIsValid(v) && !ok ==> exists i :: 0 <= i < |v.stopovers| && !v.stopovers[i]
    ensures v.stopovers == [] ==> ok == EditIsValid(v)
  {
    v.main && v.departure && v.arrival && forall i :: 0 <= i < |v.stopovers| ==> v.stopovers[i]
  }

  /** A valid first step is valid under the edit form's rule; the converse
      fails only through an invalid stopover. */
  lemma Step1StricterThanEdit(v: Verdicts)
    ensures Step1IsValid(v) ==> EditIsValid(v)
    ensures EditIsValid(v) && !Step1IsValid(v) ==> exists i :: 0 <= i < |v.stopovers| && !v.stopovers[i]
  {
  }

  // ---------------------------------------------------------------------
  // CreateRideStep1Form.clean

  /** The tolerance of `location_are_identical`. */
  const Tolerance: real := 0.00001

  /** `BaseLocationMixin.location_are_identical` on two cleaned locations
      (whose coordinates are always present). */
  predicate LocationsIdentical(l1: Location, l2: Location) {
    Abs(l1.latitude - l2.latitude) < Tolerance && Abs(l1.longitude - l2.longitude) < Tolerance
  }

  datatype Step1Error = SameDepartureAndArrival | DepartureDatetime(error: DateError)

  /** The errors `CreateRideStep1Form.clean` adds. `departure` and `arrival`
      are the cleaned subforms (`None` when invalid); `departureTime` is the
      cleaned `departure_datetime` (`None` when that field failed). */
  function Step1CleanErrors(departure: Option<Location>, arrival: Option<Location>,
                            departureTime: Option<Time>, now: Time): (errors: seq<Step1Error>)
    ensures departure.None? || arrival.None? ==> errors == []
    ensures SameDepartureAndArrival in errors <==>
      departure.Some? && arrival.Some? && LocationsIdentical(departure.value, arrival.value)
    ensures forall e :: DepartureDatetime(e) in errors <==>
      departure.Some? && arrival.Some? && departureTime.Some? && e in Step1DateErrors(departureTime.value, now)
    ensures |errors| <= 2
  {
    if departure.None? || arrival.None? then []
    else
      (if LocationsIdentical(departure.value, arrival.value) then [SameDepartureAndArrival] else [])
      + (if departureTime.Some? then DateErrorsAsStep1(Step1DateErrors(departureTime.value, now)) else [])
  }

  function DateErrorsAsStep1(errors: seq<DateError>): (r: seq<Step1Error>)
    ensures |r| == |errors|
    ensures forall e :: DepartureDatetime(e) in r <==> e in errors
    ensures SameDepartureAndArrival !in r
  {
    if errors == [] then [] else [DepartureDatetime(errors[0])] + DateErrorsAsStep1(errors[1..])
  }

  /** Identical places are refused whatever the date. */
  lemma SamePlaceRefused(l: Location, departureTime: Option<Time>, now: Time)
    ensures SameDepartureAndArrival in Step1CleanErrors(Some(l), Some(l), departureTime, now)
  {
  }

  // ---------------------------------------------------------------------
  // CreateRideStep2Form

  /** The `seats_offered` field: an integer in 1..`MAXIMUM_SEATS_IN_VEHICLE`;
      `None` when missing or out of range. */
  function SeatsField(raw: Option<int>, maxSeats: nat): (seats: Option<int>)
    ensures seats.Some? <==> raw.Some? && 1 <= raw.value <= maxSeats
    ensures seats.Some? ==> seats == raw
    ensures seats.Some? ==> seats.value >= 1 && seats.value as nat <= maxSeats
    ensures maxSeats == 0 ==> seats.None?
  {
    if raw.Some? && 1 <= raw.value <= maxSeats then raw else None
  }

  /** `CreateRideStep2Form.clean`: `vehicleSeats` is the chosen vehicle's
      seat count (`None` when no valid vehicle was chosen), `seats` the
      cleaned `seats_offered`. Python truthiness makes a 0 count as absent. */
  function Step2CleanAddsSeatsError(vehicleSeats: Option<nat>, seats: Option<int>): (error: bool)
    ensures error <==> vehicleSeats.Some? && seats.Some? && seats.value != 0 && seats.value > vehicleSeats.value
    ensures vehicleSeats.Some? && seats == Some(vehicleSeats.value as int) ==> !error
    ensures error ==> seats.value >= 1
  {
    match (vehicleSeats, seats)
    case (Some(capacity), Some(n)) => n != 0 && n > capacity
    case _ => false
  }

  /** Whether the second step leaves `seats_offered` with an error: the
      field's own bounds first, then the comparison with the vehicle. */
  function Step2SeatsRejected(raw: Option<int>, vehicleSeats: Option<nat>, maxSeats: nat): (rejected: bool)
  {
    SeatsField(raw, maxSeats).None? || Step2CleanAddsSeatsError(vehicleSeats, SeatsField(raw, maxSeats))
  }

  /** The seat count is accepted iff it is at least 1, at most the maximum,
      and (with a vehicle) at most the vehicle's seats; equality is allowed. */
  lemma Step2SeatsAccepted(raw: Option<int>, vehicleSeats: Option<nat>, maxSeats: nat)
    ensures !Step2SeatsRejected(raw, vehicleSeats, maxSeats) <==>
      && raw.Some? && 1 <= raw.value <= maxSeats
      && (vehicleSeats.Some? ==> raw.value <= vehicleSeats.value)
  {
  }

  // ---------------------------------------------------------------------
  // EditRideForm.save

  /** One `Step` row: a stopover and its position, counted from 1. */
  datatype Step = Step(order: nat, location: Location)

  /** The cleaned main fields of the edit form. `duration` is `None` when
      the hidden field was left empty. */
  datatype RideFields = RideFields(
    geometry: string, duration: Option<int>, startDt: Time,
    price: real, comment: string, paymentMethod: set<string>, seatsOffered: nat)

  /** The stopovers of `stopovers`, numbered 1..n in submission order. */
  function NumberedSteps(stopovers: seq<Location>): (steps: seq<Step>)
    ensures |steps| == |stopovers|
    ensures forall i :: 0 <= i < |steps| ==> steps[i].order == i + 1 && steps[i].location == stopovers[i]
  {
    seq(|stopovers|, i requires 0 <= i < |stopovers| => Step(i + 1, stopovers[i]))
  }

  /** The orders of the rebuilt steps are exactly 1..n, strictly
      increasing, so no two steps share a position. */
  lemma NumberedStepsOrders(stopovers: seq<Location>)
    ensures forall i, j :: 0 <= i < j < |NumberedSteps(stopovers)| ==>
      NumberedSteps(stopovers)[i].order < NumberedSteps(stopovers)[j].order
    ensures forall s :: s in NumberedSteps(stopovers) ==> 1 <= s.order <= |stopovers|
  {
  }

  /** The stored row of a `Ride`, in the fields the edit form writes. A
      field assigned on the Python object counts as changed only once
      `ride.save()` has run; the steps are a many-to-many relation, whose
      `clear` and `add` reach the database at once. */
  class EditableRide {
    var startLoc: Location
    var endLoc: Location
    var steps: seq<Step>
    var geometry: string
    var duration: Option<int>
    var startDt: Time
    var endDt: Option<Time>
    var price: real
    var comment: string
    var paymentMethod: set<string>
    var seatsOffered: nat

    constructor (startLoc: Location, endLoc: Location, startDt: Time)
      ensures this.startLoc == startLoc && this.endLoc == endLoc && this.startDt == startDt
      ensures steps == [] && duration == None && endDt == None && seatsOffered == 1
    {
      this.startLoc, this.endLoc, this.startDt := startLoc, endLoc, startDt;
      steps := [];
      geometry := "";
      duration := None;
      endDt := None;
      price := 0.0;
      comment := "";
      paymentMethod := {};
      seatsOffered := 1;
    }

    /** `EditRideForm.save`. `stopovers` is the cleaned stop-over formset,
        `None` when the formset is invalid: `is_valid` never consults it, and
        reading its `cleaned_data` then raises just after the steps were
        cleared. With no duration, `start_dt + None` raises after the steps
        were rebuilt. Either way `ride.save()` is never reached, so only the
        steps change in the stored row, and `crashed` is set. */
    method Save(departure: Location, arrival: Location, stopovers: Option<seq<Location>>, fields: RideFields)
      returns (crashed: bool)
      modifies this
      ensures crashed <==> stopovers.None? || fields.duration.None?
      ensures stopovers.None? ==> steps == []
      ensures stopovers.Some? ==> steps == NumberedSteps(stopovers.value)
      ensures !crashed ==>
        && startLoc == departure && endLoc == arrival
        && geometry == fields.geometry && duration == fields.duration
        && startDt == fields.startDt && endDt == Some(fields.startDt + fields.duration.value)
        && price == fields.price && comment == fields.comment
        && paymentMethod == fields.paymentMethod && seatsOffered == fields.seatsOffered
      ensures crashed ==>
        && startLoc == old(startLoc) && endLoc == old(endLoc)
        && geometry == old(geometry) && duration == old(duration) && startDt == old(startDt)
        && endDt == old(endDt) && price == old(price) && comment == old(comment)
        && paymentMethod == old(paymentMethod) && seatsOffered == old(seatsOffered)
    {
      steps := [];
      if stopovers.None? {
        return true;
      }
      var rebuilt := [];
      for index := 0 to |stopovers.value|
        invariant rebuilt == NumberedSteps(stopovers.value[..index])
      {
        rebuilt := rebuilt + [Step(index + 1, stopovers.value[index])];
      }
      assert stopovers.value[..|stopovers.value|] == stopovers.value;
      steps := rebuilt;
      if fields.duration.None? {
        return true;
      }
      startLoc := departure;
      endLoc := arrival;
      geometry := fields.geometry;
      duration := fields.duration;
      startDt := fields.startDt;
      endDt := Some(fields.startDt + fields.duration.value);
      price := fields.price;
      comment := fields.comment;
      paymentMethod := fields.paymentMethod;
      seatsOffered := fields.seatsOffered;
      return false;
    }
  }
}

=== FILE: rides.dfy ===
/** The ride and reservation records and the read-only ride queries: seat
    counts, the end-of-ride and fullness tests, the model-level seat check,
    the "upcoming" filter and the count of rides two users shared. */
module Rides {

  import opened Base
  import RideForms
  import LocationForm

  type RideId = nat
  type ReservationId = nat

  // ---------------------------------------------------------------------
  // Reservation

  /** `Reservation.Status`. */
  datatype Status = Pending | Accepted | Declined | Canceled

  /** The value stored in the `status` column. */
  function StatusCode(s: Status): (code: string)
    ensures 1 <= |code| <= 10
  {
    match s
    case Pending => "PENDING"
    case Accepted => "ACCEPTED"
    case Declined => "DECLINED"
    case Canceled => "CANCELED"
  }

  /** Reading a column value back; `None` for anything that is not one of
      the four codes. */
  function ParseStatus(code: string): (s: Option<Status>)
    ensures s.Some? ==> StatusCode(s.value) == code
  {
    if code == "PENDING" then Some(Pending)
    else if code == "ACCEPTED" then Some(Accepted)
    else if code == "DECLINED" then Some(Declined)
    else if code == "CANCELED" then Some(Canceled)
    else None
  }

  /** Every status is stored and read back as itself, so the four codes are
      distinct and all fit the 10-character column. */
  lemma StatusCodeRoundTrip(s: Status)
    ensures ParseStatus(StatusCode(s)) == Some(s)
    ensures |StatusCode(s)| <= 10
  {
  }

  /** The `default=Status.PENDING` of the `status` field. */
  const DefaultStatus: Status := Pending

  /** One `Reservation` row: exactly one user and one ride. */
  datatype Reservation = Reservation(user: UserId, ride: RideId, status: Status)

  // ---------------------------------------------------------------------
  // Ride

  /** The fields of a `Ride` row the reservation rules read. `riders` is
      the `rider` many-to-many set; `endDt` is `None` when not set. */
  datatype Ride = Ride(
    driver: UserId, seatsOffered: nat, startDt: Time, endDt: Option<Time>, riders: set<UserId>)

  /** The `seats_offered` field: `MinValueValidator(1)`, default 1. */
  const DefaultSeatsOffered: nat := 1

  predicate ValidSeatsOffered(r: Ride) {
    r.seatsOffered >= 1
  }

  /** `Ride.booked_seats`. */
  function BookedSeats(r: Ride): (n: nat)
    ensures n == 0 <==> r.riders == {}
  {
    |r.riders|
  }

  /** `Ride.remaining_seats` (negative when overbooked). */
  function RemainingSeats(r: Ride): (n: int)
    ensures n + BookedSeats(r) == r.seatsOffered
    ensures n <= 0 <==> IsFull(r)
    ensures n == r.seatsOffered <==> r.riders == {}
    ensures n <= r.seatsOffered
  {
    r.seatsOffered - |r.riders|
  }

  /** Taking one more rider lowers the remaining seats by exactly one; a
      rider already there changes nothing. */
  lemma AddRiderTakesOneSeat(r: Ride, u: UserId)
    ensures u !in r.riders ==>
      && RemainingSeats(r.(riders := r.riders + {u})) == RemainingSeats(r) - 1
      && BookedSeats(r.(riders := r.riders + {u})) == BookedSeats(r) + 1
    ensures u in r.riders ==> RemainingSeats(r.(riders := r.riders + {u})) == RemainingSeats(r)
  {
    if u in r.riders {
      assert r.riders + {u} == r.riders;
    }
  }

  /** `Ride.is_full`. The property is not defined in the ride model; this
      model takes it to mean that no seat remains. */
  predicate IsFull(r: Ride) {
    |r.riders| >= r.seatsOffered
  }

  /** `Ride.has_ended`, likewise not defined in the ride model: taken to be
      the end test of `safe_delete`, an end time strictly before now. */
  predicate HasEnded(r: Ride, now: Time) {
    r.endDt.Some? && r.endDt.value < now
  }

  lemma FullIffNoSeatLeft(r: Ride)
    ensures IsFull(r) <==> RemainingSeats(r) <= 0
  {
  }

  /** `RideManager.safe_delete`'s test: no rider, or over. */
  predicate CanSafeDelete(r: Ride, now: Time) {
    |r.riders| == 0 || HasEnded(r, now)
  }

  /** The seat check of `Ride.clean`: `vehicleSeats` is the seat count of
      the ride's vehicle. The vehicle is a required foreign key, so a ride
      being cleaned always has one. */
  function CleanSeatsError(seatsOffered: nat, vehicleSeats: nat): (error: bool)
    ensures error <==> seatsOffered > vehicleSeats
    ensures seatsOffered >= 1 ==> error == RideForms.Step2CleanAddsSeatsError(Some(vehicleSeats), Some(seatsOffered))
    ensures seatsOffered <= vehicleSeats ==> !error
  {
    seatsOffered > vehicleSeats
  }

  /** For any valid seat count, the model check and the check of the second
      creation step agree: both refuse more seats than the vehicle has, and
      both allow exactly as many. */
  lemma SeatChecksAgree(seatsOffered: nat, vehicleSeats: nat)
    requires seatsOffered >= 1
    ensures CleanSeatsError(seatsOffered, vehicleSeats)
        == RideForms.Step2CleanAddsSeatsError(Some(vehicleSeats), Some(seatsOffered))
  {
  }

  /** The field `Ride.clean` reports its error on. */
  datatype CleanError = SeatsOfferedTooMany | EndLocSameAsStart

  /** `Ride.clean`: the seat check first, and only when it passes, the
      same-place check on the two places that are set, with the tolerance
      the ride forms use. The first error raised is the only one reported. */
  function RideClean(seatsOffered: nat, vehicleSeats: nat,
                     startLoc: Option<LocationForm.Location>, endLoc: Option<LocationForm.Location>): (e: Option<CleanError>)
    ensures e == Some(SeatsOfferedTooMany) <==> CleanSeatsError(seatsOffered, vehicleSeats)
    ensures e == Some(EndLocSameAsStart) <==>
      !CleanSeatsError(seatsOffered, vehicleSeats) && startLoc.Some? && endLoc.Some?
      && RideForms.LocationsIdentical(startLoc.value, endLoc.value)
  {
    if CleanSeatsError(seatsOffered, vehicleSeats) then Some(SeatsOfferedTooMany)
    else if startLoc.Some? && endLoc.Some? && RideForms.LocationsIdentical(startLoc.value, endLoc.value) then
      Some(EndLocSameAsStart)
    else None
  }

  /** A ride that passes the seat check is refused by the model for the same
      pair of places as by the first creation step, whatever the date. */
  lemma PlaceChecksAgree(seatsOffered: nat, vehicleSeats: nat, a: LocationForm.Location, b: LocationForm.Location,
                         departureTime: Option<Time>, now: Time)
    requires !CleanSeatsError(seatsOffered, vehicleSeats)
    ensures RideClean(seatsOffered, vehicleSeats, Some(a), Some(b)) == Some(EndLocSameAsStart) <==>
      RideForms.SameDepartureAndArrival in RideForms.Step1CleanErrors(Some(a), Some(b), departureTime, now)
  {
  }

  // ---------------------------------------------------------------------
  // Queries

  /** `RideManager.filter_upcoming`: the rides whose start date (the day,
      time of day ignored) is today or later. */
  function FilterUpcoming(rides: map<RideId, Ride>, now: Time): (ids: set<RideId>)
    ensures forall id :: id in ids <==> id in rides && DateOf(rides[id].startDt) >= DateOf(now)
    ensures forall id :: id in ids <==> id in rides && rides[id].startDt >= DateOf(now) * SecondsPerDay
    ensures forall id :: id in rides && rides[id].startDt >= now ==> id in ids
  {
    assert forall t: Time {:trigger DateOf(t)} :: DateOf(t) >= DateOf(now) <==> t >= DateOf(now) * SecondsPerDay by {
      forall t: Time
        ensures DateOf(t) >= DateOf(now) <==> t >= DateOf(now) * SecondsPerDay
      {
        var d, e := DateOf(now), DateOf(t);
        assert e * SecondsPerDay <= t < (e + 1) * SecondsPerDay;
        if e < d {
          assert (e + 1) * SecondsPerDay <= d * SecondsPerDay;
        } else {
          assert d * SecondsPerDay <= e * SecondsPerDay;
        }
      }
    }
    set id | id in rides && DateOf(rides[id].startDt) >= DateOf(now)
  }

  /** Every ride starting now or later is upcoming, so is one that started
      earlier today, and no ride that started before today's midnight is. */
  lemma UpcomingIsFromMidnight(rides: map<RideId, Ride>, now: Time, id: RideId)
    requires id in rides
    ensures id in FilterUpcoming(rides, now) <==> rides[id].startDt >= DateOf(now) * SecondsPerDay
  {
    var d, e := DateOf(now), DateOf(rides[id].startDt);
    assert e * SecondsPerDay <= rides[id].startDt < (e + 1) * SecondsPerDay;
  }

  /** The two users shared ride `r` in the sense the docstring of
      `count_shared_ride` gives: one drove and the other rode, or both rode,
      and the ride is over. */
  predicate SharedRide(r: Ride, u1: UserId, u2: UserId, now: Time) {
    && HasEnded(r, now)
    && ((r.driver == u1 && u2 in r.riders)
        || (r.driver == u2 && u1 in r.riders)
        || (u1 in r.riders && u2 in r.riders))
  }

  /** The filter of `count_shared_ride` as the ORM evaluates it: the three
      alternatives sit in one `filter()` call, so every `rider` condition
      refers to the same joined rider row `x`, and `rider=u1 & rider=u2`
      asks that one row be both users. */
  predicate SharedRideAsQueried(r: Ride, u1: UserId, u2: UserId, now: Time) {
    && HasEnded(r, now)
    && exists x :: x in r.riders &&
         ((r.driver == u1 && x == u2) || (r.driver == u2 && x == u1) || (x == u1 && x == u2))
  }

  /** The rides the query of `count_shared_ride` selects, as written. */
  function SharedRideIdsAsQueried(rides: map<RideId, Ride>, u1: UserId, u2: UserId, now: Time): (ids: set<RideId>)
    ensures forall id :: id in ids <==> id in rides && SharedRideAsQueried(rides[id], u1, u2, now)
  {
    set id | id in rides && SharedRideAsQueried(rides[id], u1, u2, now)
  }

  /** The rides the two users shared. */
  function SharedRideIds(rides: map<RideId, Ride>, u1: UserId, u2: UserId, now: Time): (ids: set<RideId>)
    ensures forall id :: id in ids <==> id in rides && SharedRide(rides[id], u1, u2, now)
  {
    set id | id in rides && SharedRide(rides[id], u1, u2, now)
  }

  /** `count_shared_ride` as written: `.distinct().count()` of the query. */
  function CountSharedRideAsWritten(rides: map<RideId, Ride>, u1: UserId, u2: UserId, now: Time): (n: nat)
    ensures n <= |rides|
  {
    CardinalityOfSubset(rides, SharedRideIdsAsQueried(rides, u1, u2, now));
    |SharedRideIdsAsQueried(rides, u1, u2, now)|
  }

  /** `count_shared_ride` as its docstring describes it. */
  function CountSharedRide(rides: map<RideId, Ride>, u1: UserId, u2: UserId, now: Time): (n: nat)
    ensures n <= |rides|
  {
    CardinalityOfSubset(rides, SharedRideIds(rides, u1, u2, now));
    |SharedRideIds(rides, u1, u2, now)|
  }

  lemma CardinalityOfSubset(rides: map<RideId, Ride>, ids: set<RideId>)
    requires ids <= rides.Keys
    ensures |ids| <= |rides|
  {
    assert |rides.Keys| == |rides|;
    assert rides.Keys == ids + (rides.Keys - ids);
  }

  /** The ORM filter loses the "both rode" case for two different users. */
  lemma SharedRideQueryMissesCoRiders(now: Time)
    ensures var r := Ride(3, 2, 0, Some(now - 1), {1, 2});
      && SharedRide(r, 1, 2, now)
      && !SharedRideAsQueried(r, 1, 2, now)
      && CountSharedRideAsWritten(map[0 := r], 1, 2, now) == 0
      && CountSharedRide(map[0 := r], 1, 2, now) == 1
  {
    var r := Ride(3, 2, 0, Some(now - 1), {1, 2});
    assert SharedRideIds(map[0 := r], 1, 2, now) == {0};
    assert SharedRideIdsAsQueried(map[0 := r], 1, 2, now) == {};
  }

  /** What the query does count is a subset of the shared rides, and for
      one user with themself, or when a driver is involved, it is exact. */
  lemma SharedRideQueryIsSound(r: Ride, u1: UserId, u2: UserId, now: Time)
    ensures SharedRideAsQueried(r, u1, u2, now) ==> SharedRide(r, u1, u2, now)
    ensures SharedRide(r, u1, u2, now) && (u1 == u2 || r.driver == u1 || r.driver == u2) ==>
      SharedRideAsQueried(r, u1, u2, now)
  {
    if SharedRide(r, u1, u2, now) && (u1 == u2 || r.driver == u1 || r.driver == u2) {
      if r.driver == u1 && u2 in r.riders {
        assert u2 in r.riders && r.driver == u1;
      } else if r.driver == u2 && u1 in r.riders {
        assert u1 in r.riders && r.driver == u2;
      } else {
        assert u1 in r.riders && u1 == u2;
      }
    }
  }

  /** The shared-ride count is symmetric in the two users, counts only rides
      that are over, and counts each ride once. */
  lemma CountSharedRideSymmetric(rides: map<RideId, Ride>, u1: UserId, u2: UserId, now: Time)
    ensures CountSharedRide(rides, u1, u2, now) == CountSharedRide(rides, u2, u1, now)
    ensures CountSharedRideAsWritten(rides, u1, u2, now) == CountSharedRideAsWritten(rides, u2, u1, now)
  {
    assert SharedRideIds(rides, u1, u2, now) == SharedRideIds(rides, u2, u1, now);
    assert SharedRideIdsAsQueried(rides, u1, u2, now) == SharedRideIdsAsQueried(rides, u2, u1, now);
  }

  /** The rides that are over. */
  function EndedRideIds(rides: map<RideId, Ride>, now: Time): (ids: set<RideId>)
    ensures forall id :: id in ids <==> id in rides && HasEnded(rides[id], now)
  {
    set id | id in rides && HasEnded(rides[id], now)
  }

  /** Rides that are not over are never counted, by either version. */
  lemma CountSharedRideOnlyEnded(rides: map<RideId, Ride>, u1: UserId, u2: UserId, now: Time)
    ensures SharedRideIds(rides, u1, u2, now) <= EndedRideIds(rides, now)
    ensures SharedRideIdsAsQueried(rides, u1, u2, now) <= EndedRideIds(rides, now)
    ensures CountSharedRide(rides, u1, u2, now) <= |EndedRideIds(rides, now)|
  {
    var shared, ended := SharedRideIds(rides, u1, u2, now), EndedRideIds(rides, now);
    assert ended == shared + (ended - shared);
  }

  /** The query as written never counts a ride the users did not share: it
      can only undercount. */
  lemma AsWrittenUndercounts(rides: map<RideId, Ride>, u1: UserId, u2: UserId, now: Time)
    ensures SharedRideIdsAsQueried(rides, u1, u2, now) <= SharedRideIds(rides, u1, u2, now)
    ensures CountSharedRideAsWritten(rides, u1, u2, now) <= CountSharedRide(rides, u1, u2, now)
  {
    var q, t := SharedRideIdsAsQueried(rides, u1, u2, now), SharedRideIds(rides, u1, u2, now);
    forall id | id in q ensures id in t {
      SharedRideQueryIsSound(rides[id], u1, u2, now);
    }
    assert t == q + (t - q);
  }
}

=== FILE: text.dfy ===
/** The few pieces of Python string handling the rest of the model relies on:
    decimal rendering of integers (`str(n)`, `f"{n:02d}"`), `str.strip()`,
    `str.split("@")[1]` and `", ".join(...)`. */
module Text {

  import opened Base

  predicate IsDigit(c: char) {
    '0' <= c <= '9'
  }

  predicate AllDigits(s: string) {
    forall i :: 0 <= i < |s| ==> IsDigit(s[i])
  }

  function DigitChar(d: nat): (c: char)
    requires d < 10
    ensures IsDigit(c)
  {
    ('0' as int + d) as char
  }

  function DigitValue(c: char): (d: nat)
    requires IsDigit(c)
    ensures d < 10 && DigitChar(d) == c
  {
    c as int - '0' as int
  }

  /** Python's `str(n)` for a non-negative integer: decimal digits, no sign,
      no leading zero. */
  function NatToString(n: nat): (s: string)
    ensures |s| >= 1 && AllDigits(s)
    ensures |s| == 1 <==> n < 10
    ensures s[0] == '0' ==> n == 0
    decreases n
  {
    if n < 10 then [DigitChar(n)] else NatToString(n / 10) + [DigitChar(n % 10)]
  }

  /** The value of a string of decimal digits. */
  function ParseNat(s: string): (n: nat)
    requires AllDigits(s)
    decreases |s|
  {
    if s == [] then 0 else 10 * ParseNat(s[..|s| - 1]) + DigitValue(s[|s| - 1])
  }

  /** Reading back what `str(n)` wrote gives `n`. */
  lemma {:induction false} ParseNatToString(n: nat)
    ensures ParseNat(NatToString(n)) == n
    decreases n
  {
    var s := NatToString(n);
    if n >= 10 {
      ParseNatToString(n / 10);
      assert s[..|s| - 1] == NatToString(n / 10);
    }
  }

  /** Distinct numbers are rendered differently. */
  lemma NatToStringInjective(a: nat, b: nat)
    requires NatToString(a) == NatToString(b)
    ensures a == b
  {
    ParseNatToString(a);
    ParseNatToString(b);
  }

  /** `f"{n:02d}"` for `0 <= n < 100`: always exactly two digits. */
  function Pad2(n: nat): (s: string)
    requires n < 100
    ensures |s| == 2 && AllDigits(s)
    ensures ParseNat(s) == n
  {
    var s := if n < 10 then ['0', DigitChar(n)] else [DigitChar(n / 10), DigitChar(n % 10)];
    assert s[..1][..0] == [] && s[..1][0] == s[0];
    assert ParseNat(s[..1]) == DigitValue(s[0]);
    s
  }

  /** Two-digit renderings are distinct for distinct numbers. */
  lemma Pad2Injective(a: nat, b: nat)
    requires a < 100 && b < 100 && Pad2(a) == Pad2(b)
    ensures a == b
  {
  }

  /** Python's `str.isspace()` for one character: the Unicode whitespace
      characters that `str.strip()` with no argument removes. */
  predicate IsSpace(c: char) {
    var k := c as int;
    k == 0x20 || 0x09 <= k <= 0x0D || 0x1C <= k <= 0x1F || k == 0x85 || k == 0xA0
    || k == 0x1680 || 0x2000 <= k <= 0x200A || k == 0x2028 || k == 0x2029
    || k == 0x202F || k == 0x205F || k == 0x3000
  }

  /** `s.isspace()` or `s == ""`: nothing but whitespace. */
  predicate AllSpaces(s: string) {
    forall i :: 0 <= i < |s| ==> IsSpace(s[i])
  }

  /** The number of whitespace characters at the start of `s`. */
  function LeadingSpaces(s: string): (n: nat)
    ensures n <= |s|
    ensures forall i :: 0 <= i < n ==> IsSpace(s[i])
    ensures n < |s| ==> !IsSpace(s[n])
    decreases |s|
  {
    if s == [] || !IsSpace(s[0]) then 0 else 1 + LeadingSpaces(s[1..])
  }

  /** The number of whitespace characters at the end of `s`. */
  function TrailingSpaces(s: string): (n: nat)
    ensures n <= |s|
    ensures forall i :: |s| - n <= i < |s| ==> IsSpace(s[i])
    ensures n < |s| ==> !IsSpace(s[|s| - 1 - n])
    decreases |s|
  {
    if s == [] || !IsSpace(s[|s| - 1]) then 0 else 1 + TrailingSpaces(s[..|s| - 1])
  }

  /** Python's `s.strip()`: `s` without its leading and trailing whitespace. */
  function Strip(s: string): (r: string)
    ensures |r| <= |s|
    ensures LeadingSpaces(s) == |s| ==> r == []
    ensures LeadingSpaces(s) < |s| ==>
      LeadingSpaces(s) + TrailingSpaces(s) < |s| && r == s[LeadingSpaces(s)..|s| - TrailingSpaces(s)]
    ensures r != [] ==> !IsSpace(r[0]) && !IsSpace(r[|r| - 1])
    ensures r == [] <==> AllSpaces(s)
  {
    var a := LeadingSpaces(s);
    if a == |s| then []
    else
      var b := TrailingSpaces(s);
      assert a <= |s| - 1 - b;
      s[a..|s| - b]
  }

  /** Stripping twice is stripping once. */
  lemma StripIdempotent(s: string)
    ensures Strip(Strip(s)) == Strip(s)
  {
    var r := Strip(s);
    if r != [] {
      assert LeadingSpaces(r) == 0;
      assert TrailingSpaces(r) == 0;
      assert r[0..|r|] == r;
    }
  }

  /** `email.split("@")[1]`: the text after the first '@', up to the next
      '@' if there is one; `None` where Python raises `IndexError` because
      the string holds no '@'. */
  function SecondAtField(s: string): (r: Option<string>)
    ensures r.None? <==> '@' !in s
    ensures r.Some? ==> '@' !in r.value
    ensures r.Some? ==> r.value == UpToAt(s[FirstAt(s) + 1..])
  {
    if s == [] then None
    else if s[0] == '@' then Some(UpToAt(s[1..]))
    else
      assert '@' in s[1..] ==> s[1..][FirstAt(s[1..]) + 1..] == s[FirstAt(s[1..]) + 2..];
      SecondAtField(s[1..])
  }

  /** The position of the first '@' in `s`. */
  function FirstAt(s: string): (i: nat)
    requires '@' in s
    ensures i < |s| && s[i] == '@' && '@' !in s[..i]
  {
    if s[0] == '@' then 0
    else
      assert s[..FirstAt(s[1..]) + 1] == [s[0]] + s[1..][..FirstAt(s[1..])];
      1 + FirstAt(s[1..])
  }

  /** The text of `s` before its first '@' (all of `s` if there is none). */
  function UpToAt(s: string): (r: string)
    ensures '@' !in r && r <= s
    ensures |r| < |s| ==> s[|r|] == '@'
  {
    if s == [] || s[0] == '@' then [] else [s[0]] + UpToAt(s[1..])
  }

  /** `t` occurs in `s` at offset `k`. */
  predicate OccursAt(s: string, t: string, k: int) {
    0 <= k && k + |t| <= |s| && s[k..k + |t|] == t
  }

  /** `sep.join(items)`: the items in order with `sep` between each
      neighbouring pair, the same text as `JoinFromLeft` builds. */
  function Join(sep: string, items: seq<string>): (r: string)
    ensures items == [] ==> r == []
    ensures |items| == 1 ==> r == items[0]
    ensures r == JoinFromLeft(sep, items)
    decreases |items|
  {
    if items == [] then []
    else if |items| == 1 then items[0]
    else
      JoinFromLeftCons(sep, items);
      items[0] + sep + Join(sep, items[1..])
  }

  /** The joined text built from the other end: the text of all items but
      the last, the separator, then the last item. */
  function JoinFromLeft(sep: string, items: seq<string>): string
    decreases |items|
  {
    if items == [] then []
    else if |items| == 1 then items[0]
    else JoinFromLeft(sep, items[..|items| - 1]) + sep + items[|items| - 1]
  }

  /** Building from the left, the first item and a separator come first. */
  lemma {:induction false} JoinFromLeftCons(sep: string, items: seq<string>)
    requires |items| >= 2
    ensures JoinFromLeft(sep, items) == items[0] + sep + JoinFromLeft(sep, items[1..])
    decreases |items|
  {
    if |items| > 2 {
      var init := items[..|items| - 1];
      JoinFromLeftCons(sep, init);
      assert items[1..][..|items| - 2] == init[1..];
    }
  }
}

=== FILE: unread_digest.dfy ===
/** `send_email_unread_messages`: the periodic task that e-mails each user
    who opted in about chat messages left unread for longer than a
    threshold, then stamps the messages it has reported so that they are
    not reported again. */
module UnreadDigest {

  import opened Base
  import opened ChatModels
  import ChatHub

  /** Every message belongs to a stored chat request (a foreign key). */
  predicate ChatsKnown(requests: map<ChatRequestId, ChatRequest>, messages: seq<ChatMessage>) {
    forall i :: 0 <= i < |messages| ==> messages[i].chat in requests
  }

  /** `now - timedelta(minutes=threshold)`. */
  function Cutoff(now: Time, thresholdMinutes: nat): Time {
    now - 60 * thresholdMinutes
  }

  /** The selection: unread, never notified, and sent strictly before the
      cutoff. */
  predicate IsCandidate(m: ChatMessage, cutoff: Time) {
    m.readAt.None? && m.notifiedAt.None? && m.timestamp < cutoff
  }

  /** The recipient of a message: the driver when the requester sent it,
      the requester otherwise. */
  function Recipient(requests: map<ChatRequestId, ChatRequest>, m: ChatMessage): (u: UserId)
    requires m.chat in requests
    ensures IsParticipant(requests[m.chat], u)
    ensures IsParticipant(requests[m.chat], m.sender) && requests[m.chat].user != requests[m.chat].driver ==> u != m.sender
  {
    OtherParticipant(requests[m.chat], m.sender)
  }

  /** The selected messages whose recipient opted in to the e-mails, in
      storage order. */
  function Candidates(requests: map<ChatRequestId, ChatRequest>, messages: seq<ChatMessage>,
                      optedIn: set<UserId>, cutoff: Time): (c: seq<ChatMessage>)
    requires ChatsKnown(requests, messages)
    ensures ChatsKnown(requests, c)
    ensures forall m :: m in c <==> m in messages && IsCandidate(m, cutoff) && Recipient(requests, m) in optedIn
  {
    if messages == [] then []
    else
      var init := messages[..|messages| - 1];
      var m := messages[|messages| - 1];
      assert messages == init + [m];
      Candidates(requests, init, optedIn, cutoff)
        + (if IsCandidate(m, cutoff) && Recipient(requests, m) in optedIn then [m] else [])
  }

  // ---------------------------------------------------------------------
  // The grouped query

  /** The columns a row is grouped by that vary: the sender ("contact"),
      the recipient and the chat. The ride's columns are fixed by the chat. */
  datatype RowKey = RowKey(contact: UserId, recipient: UserId, chat: ChatRequestId)

  /** One row of the grouped query, with its `unread_count`. */
  datatype Row = Row(key: RowKey, unreadCount: nat)

  function KeyOf(requests: map<ChatRequestId, ChatRequest>, m: ChatMessage): RowKey
    requires m.chat in requests
  {
    RowKey(m.sender, Recipient(requests, m), m.chat)
  }

  /** The key of each candidate, in order. */
  function KeysOf(requests: map<ChatRequestId, ChatRequest>, c: seq<ChatMessage>): (keys: seq<RowKey>)
    requires ChatsKnown(requests, c)
    ensures |keys| == |c| && forall i :: 0 <= i < |c| ==> keys[i] == KeyOf(requests, c[i])
  {
    seq(|c|, i requires 0 <= i < |c| => KeyOf(requests, c[i]))
  }

  predicate Distinct<T(==)>(s: seq<T>) {
    forall i, j :: 0 <= i < j < |s| ==> s[i] != s[j]
  }

  /** The distinct elements of `s` in order of first appearance. A
      dictionary's keys come in this order; a `GROUP BY` without
      `ORDER BY` may return its rows in any order, and the model fixes
      this one. */
  function Dedup<T(==,!new)>(s: seq<T>): (d: seq<T>)
    ensures forall x :: x in d <==> x in s
    ensures Distinct(d)
  {
    if s == [] then []
    else
      var init := s[..|s| - 1];
      assert s == init + [s[|s| - 1]];
      if s[|s| - 1] in init then Dedup(init) else Dedup(init) + [s[|s| - 1]]
  }

  /** The number of times `x` occurs in `s`. */
  function Count<T(==)>(s: seq<T>, x: T): (n: nat)
    ensures n == 0 <==> x !in s
  {
    if s == [] then 0
    else
      assert s == s[..|s| - 1] + [s[|s| - 1]];
      Count(s[..|s| - 1], x) + (if s[|s| - 1] == x then 1 else 0)
  }

  /** One row per distinct key, counting the candidates with that key. */
  function RowsOf(d: seq<RowKey>, keys: seq<RowKey>): (rows: seq<Row>)
    ensures |rows| == |d| && forall i :: 0 <= i < |d| ==> rows[i] == Row(d[i], Count(keys, d[i]))
  {
    seq(|d|, i requires 0 <= i < |d| => Row(d[i], Count(keys, d[i])))
  }

  /** The result of the grouped query. */
  function UnreadRows(requests: map<ChatRequestId, ChatRequest>, messages: seq<ChatMessage>,
                      optedIn: set<UserId>, cutoff: Time): (rows: seq<Row>)
    requires ChatsKnown(requests, messages)
    ensures forall r :: r in rows ==> r.unreadCount > 0 && r.key.recipient in optedIn
    ensures Distinct(rows)
    ensures forall i, j :: 0 <= i < j < |rows| ==> rows[i].key != rows[j].key
  {
    var keys := KeysOf(requests, Candidates(requests, messages, optedIn, cutoff));
    var rows := RowsOf(Dedup(keys), keys);
    assert forall i :: 0 <= i < |rows| ==> rows[i].key == Dedup(keys)[i];
    forall r | r in rows
      ensures r.unreadCount > 0 && r.key.recipient in optedIn
    {
      var i :| 0 <= i < |rows| && rows[i] == r;
      var j :| 0 <= j < |keys| && keys[j] == r.key;
    }
    rows
  }

  /** The recipients of the rows, in order. */
  function Recipients(rows: seq<Row>): (us: seq<UserId>)
    ensures |us| == |rows| && forall i :: 0 <= i < |rows| ==> us[i] == rows[i].key.recipient
  {
    seq(|rows|, i requires 0 <= i < |rows| => rows[i].key.recipient)
  }

  /** The rows for recipient `u`, in order. */
  function RowsFor(rows: seq<Row>, u: UserId): (rs: seq<Row>)
    ensures forall r :: r in rs <==> r in rows && r.key.recipient == u
  {
    if rows == [] then []
    else
      var init := rows[..|rows| - 1];
      assert rows == init + [rows[|rows| - 1]];
      RowsFor(init, u) + (if rows[|rows| - 1].key.recipient == u then [rows[|rows| - 1]] else [])
  }

  /** `sum(chat["unread_count"] for chat in chats)`. */
  function Sum(rows: seq<Row>): nat {
    if rows == [] then 0 else Sum(rows[..|rows| - 1]) + rows[|rows| - 1].unreadCount
  }

  // ---------------------------------------------------------------------
  // Grouping by recipient

  /** The loop that fills `chats_by_user`: `order` is the order in which
      recipients first appear (the dictionary's order), `chats[u]` the rows
      for `u` in query order. */
  method GroupByRecipient(rows: seq<Row>) returns (order: seq<UserId>, chats: map<UserId, seq<Row>>)
    ensures order == Dedup(Recipients(rows))
    ensures forall u :: u in chats <==> u in order
    ensures forall u :: u in chats ==> chats[u] == RowsFor(rows, u)
  {
    order := [];
    chats := map[];
    for i := 0 to |rows|
      invariant order == Dedup(Recipients(rows[..i]))
      invariant forall u :: u in chats <==> u in order
      invariant forall u :: u in chats ==> chats[u] == RowsFor(rows[..i], u)
    {
      var r := rows[i];
      var u := r.key.recipient;
      TakeOneMore(rows, i);
      GroupedSnoc(rows[..i], r, order, chats);
      var list := if u in chats then chats[u] else [];
      if u !in chats {
        order := order + [u];
      }
      chats := chats[u := list + [r]];
    }
    assert rows[..|rows|] == rows;
  }

  /** One step of the grouping loop: the row is appended to its
      recipient's list, which starts empty (a `defaultdict(list)`), and a
      recipient seen for the first time is put last in the order. */
  lemma GroupedSnoc(rows: seq<Row>, r: Row, order: seq<UserId>, chats: map<UserId, seq<Row>>)
    requires order == Dedup(Recipients(rows))
    requires forall v :: v in chats <==> v in order
    requires forall v :: v in chats ==> chats[v] == RowsFor(rows, v)
    ensures var u := r.key.recipient;
      var order' := if u in chats then order else order + [u];
      var chats' := chats[u := (if u in chats then chats[u] else []) + [r]];
      && order' == Dedup(Recipients(rows + [r]))
      && (forall v :: v in chats' <==> v in order')
      && (forall v :: v in chats' ==> chats'[v] == RowsFor(rows + [r], v))
  {
    var u := r.key.recipient;
    RecipientsSnoc(rows, r);
    DedupSnoc(Recipients(rows), u);
    if u !in chats {
      NoRowsForAbsent(rows, u);
    }
    ChatsSnoc(rows, r, chats);
  }

  /** Appending `r` to its recipient's rows, in a map that holds the rows
      of every recipient it has, gives the rows of `rows + [r]`. */
  lemma ChatsSnoc(rows: seq<Row>, r: Row, chats: map<UserId, seq<Row>>)
    requires forall v :: v in chats ==> chats[v] == RowsFor(rows, v)
    ensures var chats' := chats[r.key.recipient := RowsFor(rows, r.key.recipient) + [r]];
      forall v :: v in chats' ==> chats'[v] == RowsFor(rows + [r], v)
  {
    var chats' := chats[r.key.recipient := RowsFor(rows, r.key.recipient) + [r]];
    forall v | v in chats'
      ensures chats'[v] == RowsFor(rows + [r], v)
    {
      RowsForSnoc(rows, r, v);
    }
  }

  lemma TakeOneMore<T>(s: seq<T>, i: nat)
    requires i < |s|
    ensures s[..i + 1] == s[..i] + [s[i]]
  {
  }

  /** A user who is no row's recipient has no rows. */
  lemma NoRowsForAbsent(rows: seq<Row>, u: UserId)
    requires u !in Recipients(rows)
    ensures RowsFor(rows, u) == []
  {
  }

  lemma RecipientsSnoc(rows: seq<Row>, r: Row)
    ensures Recipients(rows + [r]) == Recipients(rows) + [r.key.recipient]
  {
  }

  lemma DedupSnoc<T(!new)>(s: seq<T>, x: T)
    ensures Dedup(s + [x]) == if x in s then Dedup(s) else Dedup(s) + [x]
  {
    assert (s + [x])[..|s|] == s;
  }

  lemma RowsForSnoc(rows: seq<Row>, r: Row, v: UserId)
    ensures RowsFor(rows + [r], v) == RowsFor(rows, v) + (if r.key.recipient == v then [r] else [])
  {
    assert (rows + [r])[..|rows|] == rows;
  }

  /** Every row's recipient is among the recipients in order. */
  lemma RecipientInOrder(rows: seq<Row>, r: Row)
    requires r in rows
    ensures r.key.recipient in Dedup(Recipients(rows))
  {
    var k :| 0 <= k < |rows| && rows[k] == r;
    assert Recipients(rows)[k] == r.key.recipient;
  }

  // ---------------------------------------------------------------------
  // The e-mails and the stamping

  /** The e-mail sent to one recipient: the total unread count and the
      rows it lists. */
  datatype Email = Email(recipient: UserId, unreadCount: nat, chats: seq<Row>)

  /** One e-mail per recipient in `order`. */
  function Emails(order: seq<UserId>, rows: seq<Row>): (es: seq<Email>)
    ensures |es| == |order|
    ensures forall i :: 0 <= i < |order| ==>
      es[i] == Email(order[i], Sum(RowsFor(rows, order[i])), RowsFor(rows, order[i]))
  {
    seq(|order|, i requires 0 <= i < |order| => Email(order[i], Sum(RowsFor(rows, order[i])), RowsFor(rows, order[i])))
  }

  /** The chats of the rows. */
  function ChatSet(rows: seq<Row>): (cs: set<ChatRequestId>)
    ensures forall c :: c in cs <==> exists r :: r in rows && r.key.chat == c
  {
    set r | r in rows :: r.key.chat
  }

  /** The chats of the rows whose recipient is in `us`. */
  function ChatsFor(us: seq<UserId>, rows: seq<Row>): (cs: set<ChatRequestId>)
    ensures forall c :: c in cs <==> exists r :: r in rows && r.key.recipient in us && r.key.chat == c
  {
    set r | r in rows && r.key.recipient in us :: r.key.chat
  }

  /** The bulk update after an e-mail: every unread, un-notified message of
      the given chats gets `notified_at = now`, whatever its age and
      sender; every other message is untouched. */
  function Stamp(messages: seq<ChatMessage>, chats: set<ChatRequestId>, now: Time): (r: seq<ChatMessage>)
    ensures |r| == |messages|
    ensures forall i :: 0 <= i < |r| ==>
      && r[i].(notifiedAt := messages[i].notifiedAt) == messages[i]
      && (r[i] != messages[i] <==> messages[i].chat in chats && messages[i].readAt.None? && messages[i].notifiedAt.None?)
      && (r[i] != messages[i] ==> r[i].notifiedAt == Some(now))
  {
    seq(|messages|, i requires 0 <= i < |messages| =>
      if messages[i].chat in chats && messages[i].readAt.None? && messages[i].notifiedAt.None?
      then messages[i].(notifiedAt := Some(now)) else messages[i])
  }

  /** Stamping one set of chats and then another is stamping both at once. */
  lemma StampTwice(messages: seq<ChatMessage>, a: set<ChatRequestId>, b: set<ChatRequestId>, now: Time)
    ensures Stamp(Stamp(messages, a, now), b, now) == Stamp(messages, a + b, now)
  {
    var once := Stamp(messages, a, now);
    var twice := Stamp(once, b, now);
    forall i | 0 <= i < |messages|
      ensures twice[i] == Stamp(messages, a + b, now)[i]
    {
      if once[i] != messages[i] {
        assert once[i].notifiedAt.Some?;
      }
    }
  }

  /** One run of the task on the message table: the e-mails sent, in
      order, and the table afterwards. */
  function DigestRun(requests: map<ChatRequestId, ChatRequest>, messages: seq<ChatMessage>,
                     optedIn: set<UserId>, now: Time, thresholdMinutes: nat): (result: (seq<Email>, seq<ChatMessage>))
    requires ChatsKnown(requests, messages)
  {
    var rows := UnreadRows(requests, messages, optedIn, Cutoff(now, thresholdMinutes));
    (Emails(Dedup(Recipients(rows)), rows), Stamp(messages, ChatSet(rows), now))
  }

  /** The two loops of the task: the e-mails sent, one per recipient in
      the order recipients first appear, and the message table after the
      update that follows each e-mail. */
  method NotifyRecipients(requests: map<ChatRequestId, ChatRequest>, messages: seq<ChatMessage>,
                          optedIn: set<UserId>, now: Time, thresholdMinutes: nat)
    returns (emails: seq<Email>, stamped: seq<ChatMessage>)
    requires ChatsKnown(requests, messages)
    ensures (emails, stamped) == DigestRun(requests, messages, optedIn, now, thresholdMinutes)
  {
    var rows := UnreadRows(requests, messages, optedIn, Cutoff(now, thresholdMinutes));
    var order, chats := GroupByRecipient(rows);
    emails := [];
    stamped := messages;
    for i := 0 to |order|
      invariant emails == Emails(order[..i], rows)
      invariant stamped == Stamp(messages, ChatsFor(order[..i], rows), now)
    {
      var u := order[i];
      var included := chats[u];
      emails := emails + [Email(u, Sum(included), included)];
      TakeOneMore(order, i);
      EmailsSnoc(order[..i], u, rows);
      StampTwice(messages, ChatsFor(order[..i], rows), ChatSet(included), now);
      ChatsForSnoc(order[..i], u, rows);
      stamped := Stamp(stamped, ChatSet(included), now);
    }
    assert order[..|order|] == order;
    AllChatsListed(rows);
  }

  /** The task on the shared tables. `optedIn` are the users whose
      `unread_messages_notification` preference is set, `now` the clock,
      read once. */
  method SendEmailUnreadMessages(hub: ChatHub.ChatHub, optedIn: set<UserId>, now: Time, thresholdMinutes: nat)
    returns (emails: seq<Email>)
    requires ChatsKnown(hub.requests, hub.messages)
    modifies hub
    ensures (emails, hub.messages) == DigestRun(old(hub.requests), old(hub.messages), optedIn, now, thresholdMinutes)
    ensures hub.requests == old(hub.requests) && hub.reports == old(hub.reports) && hub.modActions == old(hub.modActions)
    ensures hub.nextMessageId == old(hub.nextMessageId) && hub.groups == old(hub.groups) && hub.outboxes == old(hub.outboxes)
  {
    var stamped;
    emails, stamped := NotifyRecipients(hub.requests, hub.messages, optedIn, now, thresholdMinutes);
    hub.messages := stamped;
  }

  lemma EmailsSnoc(us: seq<UserId>, u: UserId, rows: seq<Row>)
    ensures Emails(us + [u], rows) == Emails(us, rows) + [Email(u, Sum(RowsFor(rows, u)), RowsFor(rows, u))]
  {
  }

  lemma ChatsForSnoc(us: seq<UserId>, u: UserId, rows: seq<Row>)
    ensures ChatsFor(us + [u], rows) == ChatsFor(us, rows) + ChatSet(RowsFor(rows, u))
  {
    forall c | c in ChatsFor(us + [u], rows)
      ensures c in ChatsFor(us, rows) + ChatSet(RowsFor(rows, u))
    {
      var r :| r in rows && r.key.recipient in us + [u] && r.key.chat == c;
      if r.key.recipient !in us {
        assert r in RowsFor(rows, u);
      }
    }
    forall c | c in ChatSet(RowsFor(rows, u))
      ensures c in ChatsFor(us + [u], rows)
    {
      var r :| r in RowsFor(rows, u) && r.key.chat == c;
      assert r.key.recipient in us + [u];
    }
    forall c | c in ChatsFor(us, rows)
      ensures c in ChatsFor(us + [u], rows)
    {
      var r :| r in rows && r.key.recipient in us && r.key.chat == c;
      assert r.key.recipient in us + [u];
    }
  }

  /** Every row's chat is listed for some recipient. */
  lemma AllChatsListed(rows: seq<Row>)
    ensures ChatsFor(Dedup(Recipients(rows)), rows) == ChatSet(rows)
  {
    forall c | c in ChatSet(rows)
      ensures c in ChatsFor(Dedup(Recipients(rows)), rows)
    {
      var r :| r in rows && r.key.chat == c;
      RecipientInOrder(rows, r);
    }
  }

  // ---------------------------------------------------------------------
  // What one run guarantees

  /** The number of keys whose recipient is `u`: the number of candidate
      messages for `u`. */
  function UnreadFor(keys: seq<RowKey>, u: UserId): nat {
    if keys == [] then 0
    else UnreadFor(keys[..|keys| - 1], u) + (if keys[|keys| - 1].recipient == u then 1 else 0)
  }

  /** The rows of recipient `u` among the rows of the keys `d`. */
  function Total(d: seq<RowKey>, keys: seq<RowKey>, u: UserId): nat {
    Sum(RowsFor(RowsOf(d, keys), u))
  }

  lemma TotalStep(d: seq<RowKey>, keys: seq<RowKey>, u: UserId)
    requires d != []
    ensures Total(d, keys, u) == Total(d[..|d| - 1], keys, u)
      + (if d[|d| - 1].recipient == u then Count(keys, d[|d| - 1]) else 0)
  {
    var init := d[..|d| - 1];
    var k := d[|d| - 1];
    var rows := RowsOf(d, keys);
    assert rows == RowsOf(init, keys) + [Row(k, Count(keys, k))];
    assert rows[..|rows| - 1] == RowsOf(init, keys);
    var f := RowsFor(RowsOf(init, keys), u);
    RowsForSnoc(RowsOf(init, keys), Row(k, Count(keys, k)), u);
    if k.recipient == u {
      assert RowsFor(rows, u) == f + [Row(k, Count(keys, k))];
      assert (f + [Row(k, Count(keys, k))])[..|f|] == f;
    } else {
      assert RowsFor(rows, u) == f;
    }
  }

  /** One more key adds one to the total of its recipient when its row is
      among `d`. */
  lemma {:induction false} TotalAddKey(d: seq<RowKey>, keys: seq<RowKey>, x: RowKey, u: UserId)
    requires Distinct(d)
    ensures Total(d, keys + [x], u) == Total(d, keys, u) + (if x in d && x.recipient == u then 1 else 0)
    decreases |d|
  {
    if d != [] {
      var init := d[..|d| - 1];
      var k := d[|d| - 1];
      assert d == init + [k];
      TotalAddKey(init, keys, x, u);
      TotalStep(d, keys + [x], u);
      TotalStep(d, keys, u);
      assert (keys + [x])[..|keys|] == keys;
      assert Count(keys + [x], k) == Count(keys, k) + (if x == k then 1 else 0);
      assert x == k ==> x !in init;
    }
  }

  /** The rows of the grouped query count every candidate once: the total
      over `u`'s rows is the number of keys for `u`. */
  lemma {:induction false} TotalCountsUnread(keys: seq<RowKey>, u: UserId)
    ensures Total(Dedup(keys), keys, u) == UnreadFor(keys, u)
  {
    if keys != [] {
      var init := keys[..|keys| - 1];
      var x := keys[|keys| - 1];
      assert keys == init + [x];
      TotalCountsUnread(init, u);
      TotalSnoc(init, x, u);
    }
  }

  /** One more key adds one to its recipient's total. */
  lemma TotalSnoc(init: seq<RowKey>, x: RowKey, u: UserId)
    ensures Total(Dedup(init + [x]), init + [x], u) == Total(Dedup(init), init, u) + (if x.recipient == u then 1 else 0)
  {
    TotalAddKey(Dedup(init), init, x, u);
    DedupSnoc(init, x);
    if x !in init {
      TotalNewKey(init, x, u);
    }
  }

  /** A key seen for the first time adds a row counting it once. */
  lemma TotalNewKey(init: seq<RowKey>, x: RowKey, u: UserId)
    requires x !in init
    ensures Total(Dedup(init + [x]), init + [x], u)
      == Total(Dedup(init), init + [x], u) + (if x.recipient == u then 1 else 0)
  {
    var keys := init + [x];
    DedupSnoc(init, x);
    TotalStep(Dedup(keys), keys, u);
    assert Dedup(keys)[..|Dedup(keys)| - 1] == Dedup(init);
    assert keys[..|keys| - 1] == init;
    assert Count(keys, x) == Count(init, x) + 1;
  }

  /** Each recipient gets at most one e-mail per run. */
  lemma OneEmailPerRecipient(requests: map<ChatRequestId, ChatRequest>, messages: seq<ChatMessage>,
                             optedIn: set<UserId>, now: Time, thresholdMinutes: nat)
    requires ChatsKnown(requests, messages)
    ensures var emails := DigestRun(requests, messages, optedIn, now, thresholdMinutes).0;
      forall i, j :: 0 <= i < j < |emails| ==> emails[i].recipient != emails[j].recipient
  {
    var rows := UnreadRows(requests, messages, optedIn, Cutoff(now, thresholdMinutes));
    var order := Dedup(Recipients(rows));
    assert Distinct(order);
  }

  /** Every row of the grouped query comes from a candidate message
      addressed to the row's recipient. */
  lemma RowHasCandidate(requests: map<ChatRequestId, ChatRequest>, messages: seq<ChatMessage>,
                        optedIn: set<UserId>, cutoff: Time, r: Row)
    requires ChatsKnown(requests, messages)
    requires r in UnreadRows(requests, messages, optedIn, cutoff)
    ensures exists m :: m in messages && IsCandidate(m, cutoff) && Recipient(requests, m) == r.key.recipient
  {
    var c := Candidates(requests, messages, optedIn, cutoff);
    var keys := KeysOf(requests, c);
    var d := Dedup(keys);
    var rows := RowsOf(d, keys);
    var k :| 0 <= k < |rows| && rows[k] == r;
    assert r.key in keys;
    var j :| 0 <= j < |keys| && keys[j] == r.key;
    assert c[j] in c;
  }

  /** Every candidate message addressed to a user who opted in has a row
      for its recipient. */
  lemma CandidateHasRow(requests: map<ChatRequestId, ChatRequest>, messages: seq<ChatMessage>,
                        optedIn: set<UserId>, cutoff: Time, m: ChatMessage)
    requires ChatsKnown(requests, messages)
    requires m in messages && IsCandidate(m, cutoff) && Recipient(requests, m) in optedIn
    ensures exists r :: r in UnreadRows(requests, messages, optedIn, cutoff) && r.key.recipient == Recipient(requests, m)
  {
    var c := Candidates(requests, messages, optedIn, cutoff);
    var keys := KeysOf(requests, c);
    var d := Dedup(keys);
    var rows := RowsOf(d, keys);
    var j :| 0 <= j < |c| && c[j] == m;
    assert keys[j] in d;
    var k :| 0 <= k < |d| && d[k] == keys[j];
    assert rows[k] in rows;
  }

  /** Only users who opted in and have a candidate message addressed to
      them are e-mailed. */
  lemma EmailedOnlyWithUnread(requests: map<ChatRequestId, ChatRequest>, messages: seq<ChatMessage>,
                              optedIn: set<UserId>, now: Time, thresholdMinutes: nat)
    requires ChatsKnown(requests, messages)
    ensures var cutoff := Cutoff(now, thresholdMinutes);
      var emails := DigestRun(requests, messages, optedIn, now, thresholdMinutes).0;
      forall i :: 0 <= i < |emails| ==>
        emails[i].recipient in optedIn
        && exists m :: m in messages && IsCandidate(m, cutoff) && Recipient(requests, m) == emails[i].recipient
  {
    var cutoff := Cutoff(now, thresholdMinutes);
    var rows := UnreadRows(requests, messages, optedIn, cutoff);
    var order := Dedup(Recipients(rows));
    var emails := Emails(order, rows);
    forall i | 0 <= i < |emails|
      ensures emails[i].recipient in optedIn
      ensures exists m :: m in messages && IsCandidate(m, cutoff) && Recipient(requests, m) == emails[i].recipient
    {
      assert order[i] in Recipients(rows);
      var k :| 0 <= k < |rows| && Recipients(rows)[k] == order[i];
      assert rows[k] in rows;
      RowHasCandidate(requests, messages, optedIn, cutoff, rows[k]);
    }
  }

  /** Every user who opted in and has a candidate message addressed to
      them is e-mailed. */
  lemma EveryUnreadRecipientEmailed(requests: map<ChatRequestId, ChatRequest>, messages: seq<ChatMessage>,
                                    optedIn: set<UserId>, now: Time, thresholdMinutes: nat)
    requires ChatsKnown(requests, messages)
    ensures var cutoff := Cutoff(now, thresholdMinutes);
      var emails := DigestRun(requests, messages, optedIn, now, thresholdMinutes).0;
      forall m :: m in messages && IsCandidate(m, cutoff) && Recipient(requests, m) in optedIn ==>
        exists i :: 0 <= i < |emails| && emails[i].recipient == Recipient(requests, m)
  {
    var cutoff := Cutoff(now, thresholdMinutes);
    var rows := UnreadRows(requests, messages, optedIn, cutoff);
    var order := Dedup(Recipients(rows));
    var emails := Emails(order, rows);
    forall m | m in messages && IsCandidate(m, cutoff) && Recipient(requests, m) in optedIn
      ensures exists i :: 0 <= i < |emails| && emails[i].recipient == Recipient(requests, m)
    {
      CandidateHasRow(requests, messages, optedIn, cutoff, m);
      var r :| r in rows && r.key.recipient == Recipient(requests, m);
      RecipientInOrder(rows, r);
      var i :| 0 <= i < |order| && order[i] == Recipient(requests, m);
      assert emails[i].recipient == order[i];
    }
  }

  /** An e-mail's `unread_count` is the number of candidate messages
      addressed to its recipient. */
  lemma EmailCountsUnread(requests: map<ChatRequestId, ChatRequest>, messages: seq<ChatMessage>,
                          optedIn: set<UserId>, now: Time, thresholdMinutes: nat)
    requires ChatsKnown(requests, messages)
    ensures var keys := KeysOf(requests, Candidates(requests, messages, optedIn, Cutoff(now, thresholdMinutes)));
      var emails := DigestRun(requests, messages, optedIn, now, thresholdMinutes).0;
      forall i :: 0 <= i < |emails| ==> emails[i].unreadCount == UnreadFor(keys, emails[i].recipient)
  {
    var keys := KeysOf(requests, Candidates(requests, messages, optedIn, Cutoff(now, thresholdMinutes)));
    var emails := DigestRun(requests, messages, optedIn, now, thresholdMinutes).0;
    forall i | 0 <= i < |emails|
      ensures emails[i].unreadCount == UnreadFor(keys, emails[i].recipient)
    {
      TotalCountsUnread(keys, emails[i].recipient);
    }
  }

  /** A message just stored, visible, unread and never notified, is
      selected by a run exactly when it was sent before that run's cutoff
      and its recipient opted in. */
  lemma NewMessageAwaitsDigest(requests: map<ChatRequestId, ChatRequest>, messages: seq<ChatMessage>,
                               optedIn: set<UserId>, cutoff: Time,
                               id: MessageId, chat: ChatRequestId, sender: UserId, content: string, timestamp: Time)
    requires ChatsKnown(requests, messages) && chat in requests
    ensures var m := NewMessage(id, chat, sender, content, timestamp);
      ChatsKnown(requests, messages + [m])
      && (m in Candidates(requests, messages + [m], optedIn, cutoff) <==>
          timestamp < cutoff && Recipient(requests, m) in optedIn)
  {
    var m := NewMessage(id, chat, sender, content, timestamp);
    assert forall i :: 0 <= i < |messages + [m]| ==> (messages + [m])[i].chat in requests by {
      forall i | 0 <= i < |messages + [m]|
        ensures (messages + [m])[i].chat in requests
      {
        if i < |messages| {
          assert (messages + [m])[i] == messages[i];
        }
      }
    }
  }

  /** No message is notified twice: a message one run stamps is no longer
      a candidate, and a later run leaves it as it is. */
  lemma NoMessageNotifiedTwice(requests: map<ChatRequestId, ChatRequest>, messages: seq<ChatMessage>,
                               optedIn: set<UserId>, now: Time, thresholdMinutes: nat,
                               optedIn2: set<UserId>, later: Time, i: nat)
    requires ChatsKnown(requests, messages)
    requires i < |messages|
    requires DigestRun(requests, messages, optedIn, now, thresholdMinutes).1[i] != messages[i]
    ensures var first := DigestRun(requests, messages, optedIn, now, thresholdMinutes).1;
      && first[i].notifiedAt == Some(now)
      && (forall cutoff :: !IsCandidate(first[i], cutoff))
      && ChatsKnown(requests, first)
      && DigestRun(requests, first, optedIn2, later, thresholdMinutes).1[i] == first[i]
  {
    var first := DigestRun(requests, messages, optedIn, now, thresholdMinutes).1;
    assert forall k :: 0 <= k < |first| ==> first[k].chat == messages[k].chat;
  }

  /** Read messages, already notified messages and messages of chats that
      no e-mail lists are never stamped. */
  lemma StampsOnlyListedChats(requests: map<ChatRequestId, ChatRequest>, messages: seq<ChatMessage>,
                              optedIn: set<UserId>, now: Time, thresholdMinutes: nat, i: nat)
    requires ChatsKnown(requests, messages)
    requires i < |messages|
    ensures var run := DigestRun(requests, messages, optedIn, now, thresholdMinutes);
      run.1[i] != messages[i] ==>
        && messages[i].readAt.None? && messages[i].notifiedAt.None?
        && exists e :: e in run.0 && exists r :: r in e.chats && r.key.chat == messages[i].chat
  {
    var cutoff := Cutoff(now, thresholdMinutes);
    var rows := UnreadRows(requests, messages, optedIn, cutoff);
    var run := DigestRun(requests, messages, optedIn, now, thresholdMinutes);
    if run.1[i] != messages[i] {
      assert messages[i].chat in ChatSet(rows);
      var r :| r in rows && r.key.chat == messages[i].chat;
      var order := Dedup(Recipients(rows));
      RecipientInOrder(rows, r);
      var j :| 0 <= j < |order| && order[j] == r.key.recipient;
      assert r in run.0[j].chats;
      assert run.0[j] in run.0;
    }
  }

  // ---------------------------------------------------------------------
  // The stamping reaches messages no e-mail counted

  /** A chat between passenger 1 and driver 2: the passenger wrote long
      ago, the driver wrote a minute before the run. */
  function TwoWayChat(now: Time): seq<ChatMessage> {
    [ NewMessage(1, 7, 1, "old", now - 3600),
      NewMessage(2, 7, 2, "new", now - 60) ]
  }

  /** As written, a run with a 30-minute threshold e-mails the driver about
      the passenger's message and also stamps the driver's fresh message,
      which no e-mail counted; the passenger, who opted in, will never be
      e-mailed about it. */
  lemma StampReachesUncountedMessage(now: Time)
    ensures var requests := map[7 := ChatRequest(1, 5, 2)];
      var run := DigestRun(requests, TwoWayChat(now), {1, 2}, now, 30);
      && run.0 == [Email(2, 1, [Row(RowKey(1, 2, 7), 1)])]
      && run.1[1].notifiedAt == Some(now)
      && !IsCandidate(TwoWayChat(now)[1], Cutoff(now, 30))
  {
    var requests := map[7 := ChatRequest(1, 5, 2)];
    var rows := UnreadRows(requests, TwoWayChat(now), {1, 2}, Cutoff(now, 30));
    TwoWayRows(now);
    SingleRowRun(rows);
  }

  /** In the two-way chat only the passenger's old message is selected, and
      the grouped query has one row: one message from 1 to 2 in chat 7. */
  lemma TwoWayRows(now: Time)
    ensures UnreadRows(map[7 := ChatRequest(1, 5, 2)], TwoWayChat(now), {1, 2}, Cutoff(now, 30))
      == [Row(RowKey(1, 2, 7), 1)]
  {
    var requests := map[7 := ChatRequest(1, 5, 2)];
    var ms := TwoWayChat(now);
    var cutoff := Cutoff(now, 30);
    TwoWayCandidates(now);
    var keys := KeysOf(requests, [ms[0]]);
    assert keys == [RowKey(1, 2, 7)];
    SingletonDedup(RowKey(1, 2, 7));
    SingletonCount(RowKey(1, 2, 7));
  }

  lemma TwoWayCandidates(now: Time)
    ensures Candidates(map[7 := ChatRequest(1, 5, 2)], TwoWayChat(now), {1, 2}, Cutoff(now, 30))
      == [TwoWayChat(now)[0]]
  {
    var requests := map[7 := ChatRequest(1, 5, 2)];
    var ms := TwoWayChat(now);
    var cutoff := Cutoff(now, 30);
    assert ms[..1] == [ms[0]];
    assert [ms[0]][..0] == [];
    assert !IsCandidate(ms[1], cutoff);
    assert IsCandidate(ms[0], cutoff) && Recipient(requests, ms[0]) == 2;
    assert Candidates(requests, ms, {1, 2}, cutoff) == Candidates(requests, [ms[0]], {1, 2}, cutoff);
    assert Candidates(requests, [ms[0]], {1, 2}, cutoff) == Candidates(requests, [], {1, 2}, cutoff) + [ms[0]];
  }

  lemma SingletonDedup<T(!new)>(x: T)
    ensures Dedup([x]) == [x]
  {
    assert [x][..0] == [];
  }

  lemma SingletonCount<T>(x: T)
    ensures Count([x], x) == 1
  {
    assert [x][..0] == [];
  }

  /** A run whose grouped query has the single row `1 -> 2` in chat 7
      sends one e-mail, to 2, counting one message, and stamps chat 7. */
  lemma SingleRowRun(rows: seq<Row>)
    requires rows == [Row(RowKey(1, 2, 7), 1)]
    ensures Emails(Dedup(Recipients(rows)), rows) == [Email(2, 1, rows)]
    ensures ChatSet(rows) == {7}
  {
    assert Recipients(rows) == [2];
    SingletonDedup(2);
    assert rows[..0] == [];
    assert RowsFor(rows, 2) == rows;
    assert Sum(rows) == 1;
    assert rows[0] in rows;
  }

  /** The stamping the comment above the update describes: only the
      messages counted in the e-mails, that is the candidates. */
  function StampCounted(requests: map<ChatRequestId, ChatRequest>, messages: seq<ChatMessage>,
                        optedIn: set<UserId>, cutoff: Time, now: Time): (r: seq<ChatMessage>)
    requires ChatsKnown(requests, messages)
    ensures |r| == |messages|
    ensures forall i :: 0 <= i < |r| ==>
      && r[i].(notifiedAt := messages[i].notifiedAt) == messages[i]
      && (r[i] != messages[i] <==> IsCandidate(messages[i], cutoff) && Recipient(requests, messages[i]) in optedIn)
      && (r[i] != messages[i] ==> r[i].notifiedAt == Some(now))
  {
    seq(|messages|, i requires 0 <= i < |messages| =>
      if IsCandidate(messages[i], cutoff) && Recipient(requests, messages[i]) in optedIn
      then messages[i].(notifiedAt := Some(now)) else messages[i])
  }

  /** With the corrected stamping, a message is stamped exactly when an
      e-mail counted it, so a message too young for this run stays
      eligible for a later one. */
  lemma StampCountedMatchesEmails(requests: map<ChatRequestId, ChatRequest>, messages: seq<ChatMessage>,
                                  optedIn: set<UserId>, now: Time, thresholdMinutes: nat, i: nat)
    requires ChatsKnown(requests, messages)
    requires i < |messages|
    ensures var cutoff := Cutoff(now, thresholdMinutes);
      var stamped := StampCounted(requests, messages, optedIn, cutoff, now);
      var c := Candidates(requests, messages, optedIn, cutoff);
      && (stamped[i] != messages[i] <==> messages[i] in c)
      && (messages[i].readAt.None? && messages[i].notifiedAt.None? && messages[i].timestamp >= cutoff ==>
            stamped[i] == messages[i])
  {
  }
}

=== FILE: verify_email.dfy ===
/** The e-mail verification views: sending the verification link with a
    cooldown, the "e-mail sent" page with the minutes left, and the
    confirmation link that marks the address verified. */
module VerifyEmail {

  import opened Base

  /** What a view answers. */
  datatype Page =
    | RedirectToRideList          // "carpool:list"
    | RedirectToEmailSent         // "accounts:verify_email_sent"
    | ShowSendTokenPage
    | ShowEmailSentPage(cooldown: bool, notBefore: Time, minutes: int)
    | RedirectToVerifyComplete    // "accounts:verify_email_complete"
    | ShowInvalidLinkPage

  /** The e-mail handed to the background task queue: who it goes to. */
  datatype VerificationEmail = VerificationEmail(username: string, user: UserId, address: string)

  /** Python's `int(x / 60)` for a whole number of seconds `x`: the quotient
      truncated toward zero. */
  function TruncatedMinutes(seconds: int): (m: int)
    ensures seconds >= 0 ==> 0 <= 60 * m <= seconds < 60 * (m + 1)
    ensures seconds < 0 ==> 60 * (m - 1) < seconds <= 60 * m <= 0
  {
    if seconds >= 0 then seconds / 60 else -((-seconds) / 60)
  }

  /** The fields of an `accounts.User` that the verification views read and
      write. */
  class Account {
    const id: UserId
    const username: string
    const email: string
    var emailVerified: bool
    var isActive: bool
    var lastVerificationEmailSent: Option<Time>

    constructor (id: UserId, username: string, email: string)
      ensures this.id == id && this.username == username && this.email == email
      ensures !emailVerified && isActive && lastVerificationEmailSent == None
    {
      this.id, this.username, this.email := id, username, email;
      emailVerified := false;
      isActive := true;
      lastVerificationEmailSent := None;
    }

    /** `verify_email_send_token`. `hasCooldown` is the user's
        `has_email_verify_cooldown` at the time of the request. An e-mail is
        queued, and the last-sent time moved to `now`, only on a POST by an
        unverified user with no cooldown running. */
    method SendToken(isPost: bool, hasCooldown: bool, now: Time) returns (page: Page, queued: Option<VerificationEmail>)
      modifies this
      ensures emailVerified == old(emailVerified) && isActive == old(isActive)
      ensures old(emailVerified) ==>
        page == RedirectToRideList && queued == None && unchanged(this)
      ensures !old(emailVerified) && old(lastVerificationEmailSent).Some? && hasCooldown ==>
        page == RedirectToEmailSent && queued == None && unchanged(this)
      ensures !old(emailVerified) && !(old(lastVerificationEmailSent).Some? && hasCooldown) && isPost ==>
        && page == RedirectToEmailSent
        && queued == Some(VerificationEmail(username, id, email))
        && lastVerificationEmailSent == Some(now)
      ensures !old(emailVerified) && !(old(lastVerificationEmailSent).Some? && hasCooldown) && !isPost ==>
        page == ShowSendTokenPage && queued == None && unchanged(this)
    {
      if emailVerified {
        return RedirectToRideList, None;
      }
      if lastVerificationEmailSent.Some? && hasCooldown {
        return RedirectToEmailSent, None;
      }
      if isPost {
        queued := Some(VerificationEmail(username, id, email));
        lastVerificationEmailSent := Some(now);
        return RedirectToEmailSent, queued;
      }
      return ShowSendTokenPage, None;
    }

    /** `verify_email_sent`: with a cooldown running, the earliest time of
        the next e-mail and the whole minutes left until then. */
    function EmailSentPage(hasCooldown: bool, now: Time, cooldownSeconds: nat): (page: Page)
      reads this
      ensures emailVerified ==> page == RedirectToRideList
      ensures !emailVerified ==> page.ShowEmailSentPage?
      ensures page.ShowEmailSentPage? && page.cooldown ==>
        && lastVerificationEmailSent.Some?
        && page.notBefore == lastVerificationEmailSent.value + cooldownSeconds
        && (page.notBefore >= now ==> 60 * page.minutes <= page.notBefore - now < 60 * (page.minutes + 1))
      ensures page.ShowEmailSentPage? ==> (page.cooldown <==> lastVerificationEmailSent.Some? && hasCooldown)
    {
      if emailVerified then RedirectToRideList
      else if lastVerificationEmailSent.Some? && hasCooldown then
        var notBefore := lastVerificationEmailSent.value + cooldownSeconds;
        ShowEmailSentPage(true, notBefore, TruncatedMinutes(notBefore - now))
      else ShowEmailSentPage(false, 0, 0)
    }
  }

  /** Right after an e-mail is sent at `now`, the "sent" page shows the whole
      cooldown, in whole minutes, still to wait. */
  lemma FreshCooldownShowsFullWait(a: Account, now: Time, cooldownSeconds: nat)
    requires !a.emailVerified && a.lastVerificationEmailSent == Some(now)
    ensures a.EmailSentPage(true, now, cooldownSeconds) == ShowEmailSentPage(true, now + cooldownSeconds, cooldownSeconds / 60)
  {
  }

  /** The minutes shown never grow as time passes, and reach zero within a
      minute of the end of the cooldown. */
  lemma MinutesLeftNeverGrow(a: Account, t1: Time, t2: Time, cooldownSeconds: nat)
    requires !a.emailVerified && a.lastVerificationEmailSent.Some?
    requires t1 <= t2
    ensures a.EmailSentPage(true, t2, cooldownSeconds).minutes <= a.EmailSentPage(true, t1, cooldownSeconds).minutes
    ensures t2 > a.lastVerificationEmailSent.value + cooldownSeconds - 60 ==> a.EmailSentPage(true, t2, cooldownSeconds).minutes <= 0
  {
    var nb := a.lastVerificationEmailSent.value + cooldownSeconds;
    var m1, m2 := TruncatedMinutes(nb - t1), TruncatedMinutes(nb - t2);
    if m2 > m1 {
      assert 60 * m1 + 60 <= 60 * m2;
    }
  }

  /** `verify_email_confirm`. `user` is the account the link's uid decodes to
      (null when it decodes to no account), `tokenValid` the verdict of the
      token generator. Only a resolved user with a valid token is changed,
      and only in `email_verified`: the view also assigns `active`, which is
      not a field of the user model (its flag is `is_active`), so `save`
      stores nothing for it and the account's active flag is left as it
      was. */
  method ConfirmEmail(user: Account?, tokenValid: bool) returns (page: Page)
    modifies user
    ensures user != null && tokenValid ==>
      && page == RedirectToVerifyComplete
      && user.emailVerified
      && user.isActive == old(user.isActive)
      && user.lastVerificationEmailSent == old(user.lastVerificationEmailSent)
    ensures !(user != null && tokenValid) ==> page == ShowInvalidLinkPage
    ensures user != null && !tokenValid ==> unchanged(user)
  {
    if user != null && tokenValid {
      user.emailVerified := true;
      return RedirectToVerifyComplete;
    }
    return ShowInvalidLinkPage;
  }
}
